=== FILE: README.md ===
# Markdown / HTML / CSS editor core in Dafny

This project models the logic of a browser editor with three documents:
Markdown, HTML and CSS. The editor converts between Markdown and HTML and
keeps `{#id .class}` annotations along the way. It lets the user click an
element in a preview frame and style it through a property menu. The
resulting CSS rule is merged into the style sheet. All of this is pure
text and state transformation, and it is modelled here as total Dafny
functions over `string` (`seq<char>`) and immutable datatypes.

Modules:

- `Strings` (strings.dfy): the JavaScript string operations the code uses.
  This covers `\s` and `trim` whitespace, `split` on one character,
  `join`, `startsWith` and `indexOf`. It also defines `NonSpace`, the text
  with all whitespace removed, which states "only whitespace changed".
- `Assoc` (assoc.dfy): a JavaScript object or `Map` with string keys, as
  an insertion-ordered association list (`Get`, `Put`, `Remove`).
- `Maybe` (maybe.dfy): `Option`.
- `Numerals` (numerals.dfy): decimal and hexadecimal numerals, for
  `parseInt`, `String(n)` and `n.toString(16)`.
- `CssParser` (css_parser.dfy): `parseCSS` and `stringifyCSS` of
  `src/utils/css-parser.js`.
- `Converter` (converter.dfy): the Turndown rules that write annotated
  Markdown, and the line matchers of `processMarkdownAttributes` in
  `src/utils/converter.js`.
- `MarkdownAttrs` (markdown_attrs.dfy): the rest of
  `processMarkdownAttributes`: the heading and paragraph passes, the
  annotation table, and putting the annotations back onto rendered HTML.
- `PropertyMenu` (property_menu.dfy): the pure helpers and state updates
  of `src/components/CSSEditor/CSSPropertyMenu.jsx`.
- `Preview` (preview.dfy): the scroll-sync and element-selection scripts
  injected into the preview frame, as a state machine over events.
- `App` (app.dfy): the handlers of `src/App.jsx`. These are the tab
  contents, the conversions with HTML re-indentation, and the CSS rule
  upsert.
- `CssFormatter` (css_formatter.dfy): `formatCSSCode` of
  `src/config/monaco-formatter-config.js`, with each `replace` modelled
  as the leftmost-match scan a JavaScript regular expression performs.

The Markdown renderer (`marked`), Turndown's tree walk, `DOMParser` and
`getComputedStyle` are function-valued parameters.

How the CSS rule upsert and the parser behave:

- An existing rule is found by prefix: the first chunk whose trimmed text
  starts with the new rule's selector.
- The found rule is replaced as a whole. Its declarations are not merged
  with the new ones.
- `parseCSS` removes `!important` from a value and keeps no flag for it.

The Markdown passes and `handleApplyStyles` are modelled as written
(`ExtractAsWritten`, `ApplyAllAsWritten`, `UpsertAsWritten`). Where that
behaviour is evidently unintended, a corrected definition sits next to
it, and the "Findings" section names both.

## Model

| member | source | states |
|---|---|---|
| CssParser.StripComments | src/utils/css-parser.js:8 | removing comments never lengthens the text, and text with no `/*` is returned unchanged |
| CssParser.CommentRemoved | src/utils/css-parser.js:8 | a comment after comment-free text is removed together with its delimiters, and what precedes it is kept |
| CssParser.CommentRemovedHere | src/utils/css-parser.js:8 | a comment is cut at its first `*/` (lazy match), and scanning resumes after it |
| CssParser.Blocks | src/utils/css-parser.js:11 | every block found is brace-free text, then `{`, a non-empty brace-free body, then `}` |
| CssParser.BlocksBlockText | src/utils/css-parser.js:11 | a written rule block followed by more text is found as one block, and the scan continues after it |
| CssParser.StripImportant | src/utils/css-parser.js:25 | a value without `!important` is kept, and one with it loses at least the marker |
| CssParser.StripImportantCut | src/utils/css-parser.js:25 | the match of `\s*!important\s*` is the first `!important` with the whole whitespace runs on both sides: no match starts earlier, and exactly the text around it is kept |
| CssParser.ImportantSuffixStripped | src/utils/css-parser.js:25 | the preview's ` !important` suffix is removed exactly, giving back the original value |
| CssParser.DeclarationValue | src/utils/css-parser.js:21-26 | only the text between the first and second `:` becomes the value, stripped of `!important` |
| CssParser.ParseDeclarations | src/utils/css-parser.js:21-27 | the declarations read from a block never repeat a property |
| CssParser.ParseDeclarationsText | src/utils/css-parser.js:21-27 | the declarations `stringifyCSS` writes are read back as the same property/value list |
| CssParser.ParseBlockText | src/utils/css-parser.js:14-29 | a written block parses to its trimmed selector and its declarations |
| CssParser.LaterBlockReplaces | src/utils/css-parser.js:17-29 | a later block with the same selector replaces the earlier declarations and does not add a key |
| CssParser.Parse | src/utils/css-parser.js:2-33 | empty text gives no rules, and no selector is listed twice |
| CssParser.Present | src/utils/css-parser.js:40 | only declarations with a non-empty value are kept, and none is added |
| CssParser.PresentAll | src/utils/css-parser.js:40 | a list whose values are all present comes back unchanged |
| CssParser.PresentComplete | src/utils/css-parser.js:40 | a declaration is kept exactly when its value is non-empty |
| CssParser.PresentConcat | src/utils/css-parser.js:40 | the filter distributes over concatenation, so the kept declarations stay in their order |
| CssParser.RuleTextBlock | src/utils/css-parser.js:39-44 | a rule with no non-empty value is written as nothing, and otherwise as the block of its present declarations |
| CssParser.Normalize | src/utils/css-parser.js:36-47 | the rules that survive writing are clean, and each comes from the input |
| CssParser.NormalizeComplete | src/utils/css-parser.js:36-47 | every rule with a present value survives, with exactly its present declarations |
| CssParser.RuleTextsNormalize | src/utils/css-parser.js:36-47 | writing the rules equals writing the normalised rules block by block, since empty rules vanish |
| CssParser.RuleTextsHold | src/utils/css-parser.js:36-46 | the written rules are non-empty, every rule with a present value is written, and none is written exactly when no rule has a present value |
| CssParser.Stringify | src/utils/css-parser.js:36-47 | the sheet contains the text of every rule with a present value, and it is empty exactly when no rule has one |
| CssParser.RoundTrip | src/utils/css-parser.js:2-47 | parsing what `stringifyCSS` writes gives back the normalised rules (clean selectors and values, empty values dropped) |
| Converter.NonEmptyParts | src/utils/converter.js:21 | `filter(c => c)` keeps every non-empty piece and every character, drops only empty pieces, and returns a list without empty pieces unchanged |
| Converter.NonEmptyPartsConcat | src/utils/converter.js:21 | filtering a concatenation filters each part in place, so the kept pieces stay in order |
| Converter.ClassTokensContent | src/utils/converter.js:21 | the class tokens hold exactly the non-space characters of `className`, and there are none exactly when it is all spaces |
| Converter.AttrString | src/utils/converter.js:13-27 | the annotation is empty exactly when there is no id and no class token, and otherwise it is ` {…}` |
| Converter.AttrRoundTrip | src/utils/converter.js:87-97 | reading an annotation the Turndown rules wrote gives back the element's id and class tokens |
| Converter.ReadTokensClasses | src/utils/converter.js:91-97 | the classes read are the `.`-tokens in order, without the dot |
| Converter.ReadTokensLastId | src/utils/converter.js:91-97 | when several `#`-tokens appear, the last one sets the id |
| Converter.HeadingLevel | src/utils/converter.js:34 | the level read from `H1`…`H6` is 1 to 6 and matches the name's digit |
| Converter.HeadingMarkdown | src/utils/converter.js:31-39 | for one-line content, the heading is two blank lines, one line of level hashes, text and annotation, and two blank lines |
| Converter.BlockMarkdown | src/utils/converter.js:42-57 | for one-line content, a block or paragraph is the inline form between two blank lines on each side |
| Converter.InlineMarkdown | src/utils/converter.js:59-67 | the inline form starts with the content, adds nothing exactly when there is no id and no class, and has a line break only when the content does |
| Converter.HeadingMatch | src/utils/converter.js:81 | a matched heading's level is the number of leading `#`, and its text is trimmed |
| Converter.ParagraphMatch | src/utils/converter.js:107 | a matched paragraph line is non-empty and does not start with `#`, and its text is trimmed |
| Converter.HeadingLineRoundTrip | src/utils/converter.js:81 | the heading pattern recognises a line the heading rule wrote, with its level, text and annotation |
| Converter.ParagraphLineRoundTrip | src/utils/converter.js:107 | the paragraph pattern recognises a line the paragraph rule wrote, with its text and annotation |
| Converter.NoBraceNoMatch | src/utils/converter.js:81 | a line without `{` matches neither annotation pattern |
| MarkdownAttrs.HeadingPass | src/utils/converter.js:80-104 | corrected: the heading pass rewrites each line on its own and keeps the number of lines (the code as written drops blank lines, see PassAsWritten) |
| MarkdownAttrs.PassAsWritten | src/utils/converter.js:80-131 | as written, a pass never adds lines, and a text no pattern matches passes through unchanged |
| MarkdownAttrs.SwallowBlank | src/utils/converter.js:80-131 | as written, a whitespace-only line right after a matched line disappears, because the final `\s*$` under the `m` flag runs over the line feed |
| MarkdownAttrs.PassAsWrittenNoBlank | src/utils/converter.js:80-131 | without whitespace-only lines, the pass rewrites each line on its own and keeps their number |
| MarkdownAttrs.ExtractAgrees | src/utils/converter.js:74-131 | without whitespace-only lines, the code as written and the corrected reading give the same text and table |
| MarkdownAttrs.ExtractAsWrittenOneLine | src/utils/converter.js:74-131 | for one line, the code as written and the corrected reading agree |
| MarkdownAttrs.BlankAfterParagraphSwallowed | src/utils/converter.js:107-131 | as written, `p1 {.a}`, a blank line and `p2` reach the renderer as `p1` and `p2` on adjacent lines, so they merge into one paragraph |
| MarkdownAttrs.BlankAfterParagraphKept | src/utils/converter.js:107-131 | corrected: the same text keeps its blank line, so the paragraphs stay apart |
| MarkdownAttrs.HeadingEntryRoundTrip | src/utils/converter.js:80-104 | a written heading loses its annotation and records it under `text_hN` with the element's id and classes |
| MarkdownAttrs.ParagraphEntryRoundTrip | src/utils/converter.js:107-131 | a written paragraph line loses its annotation and records it under `text_p` |
| MarkdownAttrs.SetAllLast | src/utils/converter.js:99 | with `Map.set`, the last entry with a key decides its value |
| MarkdownAttrs.SetAllReversedFirst | src/utils/converter.js:108-125 | set in reverse order, the first entry with a key decides its value |
| MarkdownAttrs.HeadingLastWins | src/utils/converter.js:80-104 | among headings with the same text and level, the last annotation is kept |
| MarkdownAttrs.ParagraphFirstWins | src/utils/converter.js:107-131 | among paragraphs with the same text, the first annotation is kept |
| MarkdownAttrs.ExtractAsWritten | src/utils/converter.js:74-131 | as written, Markdown without `{` reaches the renderer unchanged and records nothing |
| MarkdownAttrs.Extract | src/utils/converter.js:74-131 | corrected line-by-line reading: the same holds |
| MarkdownAttrs.MarkdownToHtml | src/utils/converter.js:74-162 | as written, Markdown without `{` is converted by the renderer and re-serialisation alone |
| MarkdownAttrs.MarkdownToHtmlCorrected | src/utils/converter.js:74-162 | corrected pipeline: the same holds |
| MarkdownAttrs.ExtractHeading | src/utils/converter.js:80-104 | a one-line annotated heading reaches the renderer as hashes and text, with one recorded annotation |
| MarkdownAttrs.ExtractParagraph | src/utils/converter.js:107-131 | a one-line annotated paragraph reaches the renderer as its text, with one recorded annotation |
| MarkdownAttrs.KeyPartsRoundTrip | src/utils/converter.js:138 | cutting a key at its last `_` gives back the text and tag for any text |
| MarkdownAttrs.KeyPartsAsWrittenCut | src/utils/converter.js:138 | the program's `split('_')` returns the text up to its first `_` and the next piece as the tag |
| MarkdownAttrs.ApplyAllAsWritten | src/utils/converter.js:137-152 | as written, when every key has a single `_`, the `split('_')` cut puts back the same attributes as the cut at the last `_` |
| MarkdownAttrs.TagPieceLiteral | src/utils/converter.js:138-144 | for text without `_` the piece pasted unescaped into the pattern is the recorded tag, `p` or `h1` to `h6`, which holds no pattern metacharacter |
| MarkdownAttrs.UnescapedTagPiece | src/utils/converter.js:138-144 | as written, the paragraph `Use a_b (c` hands the pattern the piece `b (c`, which holds an unescaped `(` |
| MarkdownAttrs.TagPieceLiteralCorrected | src/utils/converter.js:138-144 | corrected: cut at the last `_`, every key hands the pattern its recorded tag, whatever the text holds |
| MarkdownAttrs.HtmlAttrs | src/utils/converter.js:147-149 | the attribute text is empty exactly when there is no id and no class |
| MarkdownAttrs.ParagraphSpot | src/utils/converter.js:143 | the paragraph pattern's match is the leftmost position where `<p>text` is followed by `</p>` or trailing whitespace |
| MarkdownAttrs.ApplyHeadingFirst | src/utils/converter.js:142-151 | only the first `<hN>text</hN>` becomes the annotated element, and everything else is kept |
| MarkdownAttrs.ApplyParagraphClosed | src/utils/converter.js:142-151 | the first `<p>text</p>` becomes the annotated element |
| MarkdownAttrs.ApplyParagraphOpen | src/utils/converter.js:143-151 | an unclosed `<p>text` at the end becomes the element, and the trailing whitespace goes with it |
| MarkdownAttrs.HeadingToHtml | src/utils/converter.js:74-162 | as written, an annotated heading whose text has no `_` comes back from Markdown with the same tag, id and classes |
| MarkdownAttrs.ParagraphToHtml | src/utils/converter.js:74-162 | as written, an annotated paragraph whose text has no `_` comes back from Markdown as `p` with the same id and classes |
| MarkdownAttrs.HeadingToHtmlCorrected | src/utils/converter.js:74-162 | corrected: the heading comes back with its attributes for any text |
| MarkdownAttrs.ParagraphToHtmlCorrected | src/utils/converter.js:74-162 | corrected: the paragraph comes back with its attributes for any text |
| MarkdownAttrs.UnderscoreHeadingLost | src/utils/converter.js:138-151 | as written, a heading whose text holds `_` gets no attributes back |
| MarkdownAttrs.UnderscoreHeadingKept | src/utils/converter.js:138-151 | cut at the last `_`, the same heading gets its attributes |
| Numerals.DecValueDec | src/components/CSSEditor/CSSPropertyMenu.jsx:34-36 | `parseInt` of `String(n)` is `n` |
| Numerals.HexValueHex | src/components/CSSEditor/CSSPropertyMenu.jsx:40 | reading `n.toString(16)` back gives `n` |
| Numerals.HexLength | src/components/CSSEditor/CSSPropertyMenu.jsx:40-41 | `toString(16)` is one digit exactly below 16, and two digits from 16 to 255 |
| PropertyMenu.Tokens | src/components/CSSEditor/CSSPropertyMenu.jsx:31 | every match of the number pattern is non-empty and starts with a digit; TokensNumeral and TokensFraction give the exact matches |
| PropertyMenu.TokensNone | src/components/CSSEditor/CSSPropertyMenu.jsx:31-32 | there is no match exactly when the text has no digit |
| PropertyMenu.ParseInt | src/components/CSSEditor/CSSPropertyMenu.jsx:34-36 | a number comes out exactly when the text starts with a digit, and a run of digits reads as its decimal value |
| PropertyMenu.TokensFraction | src/components/CSSEditor/CSSPropertyMenu.jsx:31 | a numeral with a fraction, such as `12.5`, is one whole match, and the scan goes on after it |
| PropertyMenu.ParseIntPrefix | src/components/CSSEditor/CSSPropertyMenu.jsx:34-36 | `parseInt` reads the leading digits and ignores whatever follows them |
| PropertyMenu.ParseIntFraction | src/components/CSSEditor/CSSPropertyMenu.jsx:31-36 | a fractional match such as `12.5` counts as its integer part, 12 |
| PropertyMenu.Pad2 | src/components/CSSEditor/CSSPropertyMenu.jsx:41 | a single digit gets a leading `0`, and other lengths are kept |
| PropertyMenu.RgbaToHex | src/components/CSSEditor/CSSPropertyMenu.jsx:26-46 | transparent or empty input gives `''`, `null` comes exactly when there is no digit, and otherwise the result is `#` and at least six characters |
| PropertyMenu.MissingComponents | src/components/CSSEditor/CSSPropertyMenu.jsx:26-46 | a text with one number `n` gives `#`, the pair for `n`, then `NaN` twice, unpadded |
| PropertyMenu.MissingBlue | src/components/CSSEditor/CSSPropertyMenu.jsx:26-46 | a text with two numbers gives `#`, their two pairs, then `NaN` |
| PropertyMenu.HexPairRoundTrip | src/components/CSSEditor/CSSPropertyMenu.jsx:39-42 | a component below 256 becomes two hexadecimal digits that read back as it |
| PropertyMenu.ColourToHex | src/components/CSSEditor/CSSPropertyMenu.jsx:26-46 | `rgb(r, g, b)` and `rgba(r, g, b, a)` texts become the hexadecimal colour of their first three components |
| PropertyMenu.HexColourDecodes | src/components/CSSEditor/CSSPropertyMenu.jsx:38-45 | for components below 256 the colour is `#` and three pairs that decode to r, g and b |
| PropertyMenu.ParseValueAndUnit | src/components/CSSEditor/CSSPropertyMenu.jsx:49-55 | empty input, or input with a line terminator (where the regular expression fails), gives two empty parts, and otherwise number and unit concatenate to the input |
| PropertyMenu.NumberPartShaped | src/components/CSSEditor/CSSPropertyMenu.jsx:52 | the number part matches `-?\d*\.?\d*` |
| PropertyMenu.NumberPartLongest | src/components/CSSEditor/CSSPropertyMenu.jsx:52 | no longer prefix matches `-?\d*\.?\d*` (the greedy group) |
| PropertyMenu.NumberPartIdempotent | src/components/CSSEditor/CSSPropertyMenu.jsx:49-55 | splitting the number part again gives it back with an empty unit |
| PropertyMenu.IsDefaultEntry | src/components/CSSEditor/CSSPropertyMenu.jsx:58-75 | a value is a default exactly when it is its property's entry in the table |
| PropertyMenu.StyleChange | src/components/CSSEditor/CSSPropertyMenu.jsx:183-195 | an empty or default value deletes the property and any other value sets it, other properties are unchanged, and a clean map stays clean |
| PropertyMenu.StyleChangeIdempotent | src/components/CSSEditor/CSSPropertyMenu.jsx:183-195 | applying the same change twice is the same as applying it once |
| PropertyMenu.NumberChange | src/components/CSSEditor/CSSPropertyMenu.jsx:197-201 | an empty input deletes the property, otherwise number and unit are stored unless that is the default, and other properties are unchanged |
| PropertyMenu.ZeroMarginRemoved | src/components/CSSEditor/CSSPropertyMenu.jsx:197-201 | typing `0` into a margin removes it, because `0px` is the default |
| PropertyMenu.FormatRule | src/components/CSSEditor/CSSPropertyMenu.jsx:173-181 | the rule is empty exactly when no declaration has a value |
| PropertyMenu.FormatRuleIsRuleText | src/components/CSSEditor/CSSPropertyMenu.jsx:173-181 | the applied rule is the block `stringifyCSS` writes for the same selector and styles |
| PropertyMenu.FormatRuleParses | src/components/CSSEditor/CSSPropertyMenu.jsx:173-181 | parsing the applied rule gives back the selector with its present declarations |
| PropertyMenu.PreviewMarksImportant | src/components/CSSEditor/CSSPropertyMenu.jsx:166-181 | the preview rule is the applied rule with every value marked `!important` |
| PropertyMenu.PreviewMarkStripped | src/components/CSSEditor/CSSPropertyMenu.jsx:176 | the parser strips the preview mark from each value again |
| PropertyMenu.InitialValue | src/components/CSSEditor/CSSPropertyMenu.jsx:99-114 | a value is stored only when it is non-empty and not the default, and colours are stored as `#` hexadecimal |
| PropertyMenu.InitialStyles | src/components/CSSEditor/CSSPropertyMenu.jsx:95-118 | the initial map is clean and lists no property twice |
| PropertyMenu.InitialStylesField | src/components/CSSEditor/CSSPropertyMenu.jsx:95-118 | each offered field, margin sides included, starts with its own initial value or is absent |
| PropertyMenu.InitialStylesOther | src/components/CSSEditor/CSSPropertyMenu.jsx:95-118 | no property outside the offered fields is set |
| Preview.LowerText | src/components/Preview/scripts/preview-scripts.js:122 | lower-casing keeps the length and maps each character |
| Preview.KeptClasses | src/components/Preview/scripts/preview-scripts.js:126-128 | the kept classes are exactly the element's classes other than `selection-mode` |
| Preview.Segment | src/components/Preview/scripts/preview-scripts.js:122-132 | a segment is the lower-case tag followed by `#id` when there is an id, and by the dotted kept classes otherwise |
| Preview.Below | src/components/Preview/scripts/preview-scripts.js:121 | the walk stops at the first `BODY` ancestor or at the root |
| Preview.PathSegments | src/components/Preview/scripts/preview-scripts.js:121-135 | the path lists one segment per element below `BODY`, outermost first |
| Preview.SelectorPath | src/components/Preview/scripts/preview-scripts.js:121-139 | the loop that unshifts segments builds the `' > '`-joined path of the outermost-first segments |
| Preview.PathEndsWithTarget | src/components/Preview/scripts/preview-scripts.js:121-139 | the path ends with the clicked element's own segment |
| Preview.Snapshot | src/components/Preview/scripts/preview-scripts.js:114-119 | the snapshot has exactly the twelve listed properties, in order, each with its computed value |
| Preview.FontSizeNeverPrefilled | src/components/Preview/scripts/preview-scripts.js:114-119 | `font-size` is never sent, so the menu never pre-fills it |
| Preview.OnScroll | src/components/Preview/scripts/preview-scripts.js:8-35 | a scroll during a programmatic scroll is ignored, and otherwise the position is recorded and at most one frame is requested |
| Preview.OnFrame | src/components/Preview/scripts/preview-scripts.js:13-31 | a frame clears `ticking`, and it reports the position exactly when the page can scroll |
| Preview.SetScrollPosition | src/components/Preview/scripts/preview-scripts.js:37-54 | a request during a programmatic scroll is ignored, and otherwise the frame scrolls, locks and starts one timer |
| Preview.OnTimeout | src/components/Preview/scripts/preview-scripts.js:50-52 | a timer firing releases the scroll lock |
| Preview.Step | src/components/Preview/scripts/preview-scripts.js:8-66 | every event keeps the frame's state consistent, a toggle sets selection mode and the body marker, and only a timer releases the lock |
| Preview.Run | src/components/Preview/scripts/preview-scripts.js:3-159 | consistency holds after any sequence of events |
| Preview.LockedScrollIgnored | src/components/Preview/scripts/preview-scripts.js:9 | while locked, a scroll changes nothing and sends nothing |
| Preview.ReportOnlyWhenScrollable | src/components/Preview/scripts/preview-scripts.js:13-29 | apart from a scroll request, only an animation frame on a scrollable page sends a message, and that message is the report of the last position |
| Preview.SetScrollTwice | src/components/Preview/scripts/preview-scripts.js:37-54 | a second scroll request before the timer fires is ignored |
| Preview.Click | src/components/Preview/scripts/preview-scripts.js:104-146 | a click reports exactly in selection mode, with the path, the lower-case tag, the element's own id and class, and the computed value of each of the 12 listed properties and no other |
| Preview.ToggleGovernsClicks | src/components/Preview/scripts/preview-scripts.js:148-159 | after a toggle message, clicks report exactly when the mode was switched on |
| App.CurrentContent | src/App.jsx:58-69 | the editor shows the text of the active tab, or nothing for an unknown tab |
| App.ContentChange | src/App.jsx:17-29 | an edit replaces only the active tab's text, and is ignored for an unknown tab |
| App.ContentChangeCurrent | src/App.jsx:17-29 | writing back the current content changes nothing |
| App.ContentChangeTwice | src/App.jsx:17-29 | the second of two edits wins |
| App.ElementSelect | src/App.jsx:71-74 | selecting an element records it and shows the CSS tab without changing any text |
| App.ApplyStyles | src/App.jsx:76-100 | applying a rule updates only the CSS, with the upsert as written, and clears the selection |
| App.ConvertToMarkdown | src/App.jsx:31-40 | a failed conversion changes nothing, and otherwise the Markdown is replaced and its tab shown |
| App.ConvertToHtml | src/App.jsx:42-56 | a failed conversion changes nothing, and otherwise the HTML becomes the re-indented output and its tab shown |
| App.BreakTagsSeparates | src/App.jsx:47 | after the replace, no `>` is directly followed by `<` |
| App.BreakTagsWhitespace | src/App.jsx:47 | the replace changes only whitespace |
| App.IndentRestIndented | src/App.jsx:48 | every line after a line feed starts with two spaces |
| App.IndentRestWhitespace | src/App.jsx:48 | indenting changes only whitespace |
| App.IndentRestTags | src/App.jsx:48 | indenting does not join tags again |
| App.FormatHtml | src/App.jsx:46-49 | the formatted HTML is trimmed, has no `><`, has every line indented, and differs from the input only in whitespace |
| App.Chunks | src/App.jsx:79 | splitting on `}\s*` gives the `}`-pieces with the leading whitespace of every piece after the first removed: no piece holds `}`, and every piece after the first is empty or starts with a non-space character |
| App.FirstWhere | src/App.jsx:81-83 | `findIndex` gives the first accepted chunk, or none exactly when no chunk is accepted |
| App.Replace | src/App.jsx:85-91 | a found index is overwritten and nothing else changes, and otherwise the rule is appended |
| App.Closed | src/App.jsx:94-96 | the kept chunks are non-blank, start with a non-space character and end with `}`, and every chunk with text is kept, trimmed and closed |
| App.Close | src/App.jsx:96 | a closed rule with text starts with its trimmed text and a non-space character, ends with `}`, adds at most one character, and adds none when the rule already ends with `}` |
| App.ClosedComesFrom | src/App.jsx:94-96 | every kept chunk is some input chunk with text, trimmed and closed |
| App.ClosedConcat | src/App.jsx:94-96 | filtering and closing works chunk by chunk, keeping the order |
| App.UpsertAsWritten | src/App.jsx:79-91 | as written, the rule replaces the first chunk whose trimmed text starts with its selector and nothing else, or is appended exactly when there is none |
| App.UpsertAsWrittenIdempotent | src/App.jsx:79-91 | as written, upserting the same rule twice is the same as upserting it once |
| App.ApplyRuleAsWritten | src/App.jsx:79-97 | as written, a rule with text ends up closed in the sheet |
| App.MenuRuleReachesSheet | src/App.jsx:79-97 | the rule the property menu applies ends with `}`, so it reaches the sheet trimmed, and exactly as written when its selector does not start with whitespace |
| App.EmptyRuleDropsFirst | src/App.jsx:79-97 | as written, applying an empty rule deletes the first chunk of the sheet |
| App.EmptyMenuDropsFirst | src/App.jsx:76-100 | so does pressing Apply in the menu with no declaration set |
| App.EmptyRuleErasesOnlyRule | src/App.jsx:79-97 | as written, an empty rule applied to a one-rule sheet leaves an empty sheet |
| App.PrefixReplacesOther | src/App.jsx:81-87 | as written, a rule for `div` replaces the rule of any selector that starts with `div` |
| App.Upsert | src/App.jsx:79-91 | corrected: a blank rule changes nothing, otherwise the rule ends up in the list, it is appended exactly when no chunk has its selector, and chunks with other selectors are kept |
| App.UpsertIdempotent | src/App.jsx:79-91 | corrected: upserting the same rule twice is the same as upserting it once |
| App.ExactKeepsOther | src/App.jsx:81-91 | with exact selectors, a rule for another selector is appended and the existing rule is kept |
| App.ApplyRule | src/App.jsx:79-97 | corrected: a blank rule only re-closes the existing chunks, and a rule with text ends up closed in the sheet |
| App.EmptyRuleKeepsOnlyRule | src/App.jsx:79-97 | with the correction, an empty rule leaves a one-rule sheet as it was |
| CssFormatter.SpaceRun | src/config/monaco-formatter-config.js:8-11 | the greedy `\s*` takes exactly the whitespace run at the start |
| CssFormatter.LastNewline | src/config/monaco-formatter-config.js:11 | backtracking `\s*\n` ends at the last line feed of the run |
| CssFormatter.Format | src/config/monaco-formatter-config.js:4-17 | the formatted text is trimmed |
| CssFormatter.SquashText | src/config/monaco-formatter-config.js:7 | collapsing whitespace changes only whitespace |
| CssFormatter.AroundText | src/config/monaco-formatter-config.js:8-10 | replacing `\s*c\s*` with a padded `c` changes only whitespace |
| CssFormatter.AfterText | src/config/monaco-formatter-config.js:9 | replacing `;\s*` changes only whitespace |
| CssFormatter.CollapseText | src/config/monaco-formatter-config.js:11 | collapsing blank lines changes only whitespace |
| CssFormatter.FormatKeepsText | src/config/monaco-formatter-config.js:6-12 | formatting changes only whitespace: the non-space characters are the input's, in order |
| CssFormatter.AroundChars | src/config/monaco-formatter-config.js:8-10 | every output character comes from the input or from the replacement |
| CssFormatter.CollapseChars | src/config/monaco-formatter-config.js:11 | every output character comes from the input or is the inserted line feed |
| CssFormatter.FormatPlain | src/config/monaco-formatter-config.js:6-12 | the only whitespace left in the output is spaces and line feeds |
| CssFormatter.AfterFeeds | src/config/monaco-formatter-config.js:9 | every `;` is followed by a line feed |
| CssFormatter.CloseFeeds | src/config/monaco-formatter-config.js:10 | every `}` is preceded and followed by a line feed |
| CssFormatter.CollapseFeedAfter | src/config/monaco-formatter-config.js:11 | collapsing blank lines keeps a line feed after each such character |
| CssFormatter.CollapseFeedBefore | src/config/monaco-formatter-config.js:11 | collapsing blank lines keeps a line feed before each `}` |
| CssFormatter.FormatFeeds | src/config/monaco-formatter-config.js:6-12 | in the output, `;` and `}` end their line unless they are last, and `}` starts its line unless it is first |
| CssFormatter.CollapseSparse | src/config/monaco-formatter-config.js:11 | after collapsing, no two line feeds have only whitespace between them |
| CssFormatter.FormatNoBlankLine | src/config/monaco-formatter-config.js:6-12 | the output has no blank or whitespace-only line |

## Left out

- The libraries `marked`, `turndown` and `DOMParser`: their internals are not part of this model. `marked` and the `DOMParser` re-serialisation are function parameters. The Turndown rules are modelled, applied to one element at a time.
- Mermaid initialisation and rendering (preview-scripts.js:69-101): they are asynchronous library calls that produce SVG.
- Monaco editor setup, `registerCSSFormatter` and the editor configuration files: they are configuration only.
- React components, rendering, the tab selector, the toolbar and dragging the property menu: they are UI and layout.
- The build configuration and `constants.js`: `SCROLL_DEBOUNCE_TIME` only sets how long the timer runs, and timers are abstract events here.
- `postMessage`, `requestAnimationFrame`, `setTimeout` and `scrollTo`: they become events and effects of the preview state machine.
- The scroll percentage is floating point. Reports carry the integer position and heights, and the scroll target is not computed.
- The converter's regular expressions are matched one line at a time. Matches that cross a line break (`\s` at a line end, or `[^}]+` spanning lines) and the other line terminators (`\r`, U+2028, U+2029) are left out.
- The ordering of integer-like keys in JavaScript objects, and the special key `__proto__`: every key is ordered by insertion.
- `toLowerCase` outside ASCII: tag names are ASCII.
- The element's `classList` is an input field. It is not derived from `className`.
- The formatter's `catch` branch: none of the string operations it wraps can throw on a string.
- The alerts and console output of the conversion handlers: a failed conversion is a `None` result that leaves the state unchanged.
- MarkdownAttrs.ApplyAllAsWritten: searches for `<tag>content</tag>` as literal text. The program builds `new RegExp` from the second `split('_')` piece without escaping it. When that piece holds an unclosed `(` or `[`, or a stray `)`, the pattern is a SyntaxError. Other metacharacters, such as `.` or `?`, make the pattern match by regular-expression rules. JavaScript's pattern syntax is not modelled. The literal search is exact when the piece has no metacharacter, and TagPieceLiteral proves this for every text without `_`.
- MarkdownAttrs.MarkdownToHtml: always gives a string. The SyntaxError described for ApplyAllAsWritten escapes `markdownToHtml`, which has no `catch`. The HTML tab's conversion handler (App.jsx:52-54) then shows an alert and keeps its state. The model covers this only through the `None` that ConvertToHtml accepts from its converter parameter.
- PropertyMenu.ParseInt: modelled on the matches of the colour pattern, which start with a digit run and may carry a fraction (`12.5`). Signs, leading whitespace and `0x` prefixes never reach it, so they are not modelled. `NaN` comes only from a missing component.
- PropertyMenu.ParseInt: the value is an exact integer. JavaScript's `parseInt` returns a double, so a component of 2^53 or more is rounded before `toString(16)`, and one beyond about 1.8e308 becomes `Infinity`. ColourToHex and RgbaToHex are exact for every size.
- Preview.Step and Preview.Click: both scripts are taken to run in one page, the scroll script first. `isInSelectionMode` is declared by the Mermaid script (preview-scripts.js:71), which is left out, and `Preview.jsx` (lines 4-13) injects neither script.
- MarkdownAttrs.ExtractAsWritten: works on lines. Apart from the blank lines a match swallows after it, matches that span lines are left out.
- Preview.OnFrame: a report carries the position and heights but not the floating-point percentage.
- Converter.HeadingMatch: models the heading pattern on a single line, without matches that extend past the line end.

## Findings

| source | as written | input that shows it | evidently intended | confidence | as-written member | corrected member |
|---|---|---|---|---|---|---|
| src/utils/converter.js:138 | `key.split('_')` keeps only the first two pieces of the key | the heading `## my_title {#x}` is stored under `my_title_h2`, which is cut into `my` and `title`; no `<title>my</title>` exists, so `<h2>my_title</h2>` gets no id | cut the key at its last `_`, since tags never contain `_` | not executed | MarkdownAttrs.UnderscoreHeadingLost | MarkdownAttrs.UnderscoreHeadingKept |
| src/App.jsx:79-97 | an empty rule has the selector `''`, which every chunk starts with, so chunk 0 is overwritten with `''` and then filtered out | sheet `a{x:y}` with rule `''` (Apply with no style set) becomes the empty sheet | an empty rule leaves the sheet alone | not executed | App.EmptyRuleErasesOnlyRule | App.EmptyRuleKeepsOnlyRule |
| src/utils/converter.js:81-107 | both patterns end in `\s*$` under the `m` flag, and `\s` takes line feeds, so a match runs on over the whitespace-only lines after an annotated line | `p1 {.a}`, a blank line, `p2` reaches `marked` as `p1` and `p2` on adjacent lines, one paragraph instead of two | stop the match at the end of its own line | not executed | MarkdownAttrs.BlankAfterParagraphSwallowed | MarkdownAttrs.BlankAfterParagraphKept |
| src/utils/converter.js:138-144 | the second `split('_')` piece goes into `new RegExp` unescaped, while the text is escaped | the paragraph `Use a_b (c {.x}` is stored under `Use a_b (c_p`, and its pattern `<b (c>Use a</b (c>` has an unclosed group, so the conversion throws | cut the key at its last `_`, so the pattern only ever holds `p` or `h1` to `h6` | not executed | MarkdownAttrs.UnescapedTagPiece | MarkdownAttrs.TagPieceLiteralCorrected |
| src/App.jsx:81-83 | `rule.trim().startsWith(selector)` accepts any rule whose text begins with the selector | sheet `div > p{color:red}` with rule `div{x:y}` loses the `div > p` rule | only a rule with the same selector is replaced | not executed | App.PrefixReplacesOther | App.ExactKeepsOther |

=== FILE: app.dfy ===
/** The editor's top-level state: the three texts, the tab being edited and
    the element picked in the preview, with the handlers that change them —
    typing, converting between Markdown and HTML, selecting an element and
    applying a style rule to the stylesheet. */
module App {
  import opened Maybe
  import opened Strings
  import Preview
  import PropertyMenu
  import CssParser

  datatype State = State(
    markdown: string,
    html: string,
    css: string,
    activeTab: string,
    selected: Option<Preview.Selection>)

  const Initial: State := State(
    "# Hello World\n\nStart editing to see some magic happen!",
    "<h1>Hello World</h1>\n<p>Start editing to see some magic happen!</p>",
    "/* Add your styles here */\n\nbody {\n  font-family: Arial, sans-serif;\n}",
    "markdown",
    None)

  predicate IsTab(tab: string)
  {
    tab == "markdown" || tab == "html" || tab == "css"
  }

  /** The text a tab shows, and `''` for a tab the editor does not know. */
  function Text(s: State, tab: string): string
  {
    if tab == "markdown" then s.markdown
    else if tab == "html" then s.html
    else if tab == "css" then s.css
    else []
  }

  /** `getCurrentContent`. */
  function CurrentContent(s: State): (r: string)
    ensures s.activeTab == "markdown" ==> r == s.markdown
    ensures s.activeTab == "html" ==> r == s.html
    ensures s.activeTab == "css" ==> r == s.css
    ensures !IsTab(s.activeTab) ==> r == []
  {
    Text(s, s.activeTab)
  }

  /** `handleContentChange`: the edited text replaces the active tab's text
      and nothing else. */
  function ContentChange(s: State, value: string): (r: State)
    ensures r.activeTab == s.activeTab && r.selected == s.selected
    ensures IsTab(s.activeTab) ==> CurrentContent(r) == value
    ensures !IsTab(s.activeTab) ==> r == s
    ensures forall t :: t != s.activeTab ==> Text(r, t) == Text(s, t)
  {
    if s.activeTab == "markdown" then s.(markdown := value)
    else if s.activeTab == "html" then s.(html := value)
    else if s.activeTab == "css" then s.(css := value)
    else s
  }

  /** Handing the editor back the text it shows changes nothing. */
  lemma ContentChangeCurrent(s: State)
    ensures ContentChange(s, CurrentContent(s)) == s
  {
  }

  /** Only the last of two edits to the same tab counts. */
  lemma ContentChangeTwice(s: State, a: string, b: string)
    ensures ContentChange(ContentChange(s, a), b) == ContentChange(s, b)
  {
  }

  /** `handleElementSelect`: remember the element and switch to the
      stylesheet. */
  function ElementSelect(s: State, e: Preview.Selection): (r: State)
    ensures r.selected == Some(e) && r.activeTab == "css"
    ensures CurrentContent(r) == s.css
    ensures forall t :: Text(r, t) == Text(s, t)
  {
    s.(selected := Some(e), activeTab := "css")
  }

  /** `handleApplyStyles`: put the rule into the stylesheet and drop the
      selection. */
  function ApplyStyles(s: State, rule: string): (r: State)
    ensures r.selected == None && r.activeTab == s.activeTab
    ensures r.markdown == s.markdown && r.html == s.html
    ensures r.css == ApplyRuleAsWritten(s.css, rule)
  {
    s.(css := ApplyRuleAsWritten(s.css, rule), selected := None)
  }

  /** `handleConvertToMarkdown` with the converter a parameter; `None` is a
      converter that throws, which changes nothing. */
  function ConvertToMarkdown(s: State, toMarkdown: string -> Option<string>): (r: State)
    ensures toMarkdown(s.html).None? ==> r == s
    ensures toMarkdown(s.html).Some? ==>
      && r.activeTab == "markdown" && CurrentContent(r) == toMarkdown(s.html).value
      && r.html == s.html && r.css == s.css && r.selected == s.selected
  {
    match toMarkdown(s.html)
    case None => s
    case Some(m) => s.(markdown := m, activeTab := "markdown")
  }

  /** `handleConvertToHtml`: the converter's HTML is re-indented before it
      is stored; a converter that throws changes nothing. */
  function ConvertToHtml(s: State, toHtml: string -> Option<string>): (r: State)
    ensures toHtml(s.markdown).None? ==> r == s
    ensures toHtml(s.markdown).Some? ==>
      && r.activeTab == "html" && CurrentContent(r) == FormatHtml(toHtml(s.markdown).value)
      && r.markdown == s.markdown && r.css == s.css && r.selected == s.selected
  {
    match toHtml(s.markdown)
    case None => s
    case Some(h) => s.(html := FormatHtml(h), activeTab := "html")
  }

  // ---------------------------------------------------------------------------
  // Re-indenting converted HTML
  // ---------------------------------------------------------------------------

  /** No closing `>` is directly followed by an opening `<`. */
  predicate NoTagJoin(s: string)
  {
    forall i :: 0 <= i < |s| - 1 ==> !(s[i] == '>' && s[i + 1] == '<')
  }

  /** Every line break is followed by (at least) two spaces. */
  predicate Indented(s: string)
  {
    forall i :: 0 <= i < |s| && IsLineTerminator(s[i]) ==> i + 2 < |s| && s[i + 1] == ' ' && s[i + 2] == ' '
  }

  /** `.replace(/></g, '>\n<')`. */
  function BreakTags(s: string): (r: string)
    ensures s != [] ==> r != [] && r[0] == s[0]
    decreases |s|
  {
    if |s| >= 2 && s[0] == '>' && s[1] == '<' then ">\n<" + BreakTags(s[2..])
    else if s == [] then []
    else [s[0]] + BreakTags(s[1..])
  }

  /** After the replacement no `>` is directly followed by `<`. */
  lemma {:induction false} BreakTagsSeparates(s: string)
    ensures NoTagJoin(BreakTags(s))
    decreases |s|
  {
    if |s| >= 2 && s[0] == '>' && s[1] == '<' {
      BreakTagsSeparates(s[2..]);
      var rest := BreakTags(s[2..]);
      var r := ">\n<" + rest;
      forall i | 0 <= i < |r| - 1
        ensures !(r[i] == '>' && r[i + 1] == '<')
      {
        if i >= 3 {
          assert r[i] == rest[i - 3] && r[i + 1] == rest[i - 2];
        }
      }
    } else if s != [] {
      BreakTagsSeparates(s[1..]);
      var rest := BreakTags(s[1..]);
      var r := [s[0]] + rest;
      forall i | 0 <= i < |r| - 1
        ensures !(r[i] == '>' && r[i + 1] == '<')
      {
        if i >= 1 {
          assert r[i] == rest[i - 1] && r[i + 1] == rest[i];
        }
      }
    }
  }

  /** The replacement adds whitespace only. */
  lemma {:induction false} BreakTagsWhitespace(s: string)
    ensures NonSpace(BreakTags(s)) == NonSpace(s)
    decreases |s|
  {
    if |s| >= 2 && s[0] == '>' && s[1] == '<' {
      BreakTagsWhitespace(s[2..]);
      BreakPairText(s);
    } else if s != [] {
      BreakTagsWhitespace(s[1..]);
      BreakOtherText(s);
    }
  }

  lemma BreakPairText(s: string)
    requires |s| >= 2 && s[0] == '>' && s[1] == '<'
    requires NonSpace(BreakTags(s[2..])) == NonSpace(s[2..])
    ensures NonSpace(BreakTags(s)) == NonSpace(s)
  {
    var rest := BreakTags(s[2..]);
    assert BreakTags(s) == ['>'] + (['\n'] + (['<'] + rest));
    TagPairText(s, rest);
  }

  lemma BreakOtherText(s: string)
    requires s != [] && !(|s| >= 2 && s[0] == '>' && s[1] == '<')
    requires NonSpace(BreakTags(s[1..])) == NonSpace(s[1..])
    ensures NonSpace(BreakTags(s)) == NonSpace(s)
  {
    assert BreakTags(s) == [s[0]] + BreakTags(s[1..]);
    NonSpaceFirst(s, BreakTags(s[1..]));
  }

  /** A `><` pair has the same text with a line feed between. */
  lemma TagPairText(s: string, rest: string)
    requires |s| >= 2 && s[0] == '>' && s[1] == '<' && NonSpace(rest) == NonSpace(s[2..])
    ensures NonSpace(['>'] + (['\n'] + (['<'] + rest))) == NonSpace(s)
  {
    NonSpaceCons('<', rest);
    NonSpaceSkip('\n', ['<'] + rest);
    NonSpaceCons('>', ['\n'] + (['<'] + rest));
    assert s == ['>'] + (['<'] + s[2..]);
    NonSpaceCons('<', s[2..]);
    NonSpaceCons('>', ['<'] + s[2..]);
  }

  /** What `.replace(/^/gm, '  ')` inserts after the first line start: two
      spaces after every line terminator. */
  function IndentRest(s: string): (r: string)
    ensures s != [] ==> r != [] && r[0] == s[0]
    decreases |s|
  {
    if s == [] then []
    else if IsLineTerminator(s[0]) then [s[0]] + "  " + IndentRest(s[1..])
    else [s[0]] + IndentRest(s[1..])
  }

  lemma {:induction false} IndentRestIndented(s: string)
    ensures Indented(IndentRest(s))
    decreases |s|
  {
    if s != [] {
      IndentRestIndented(s[1..]);
      var rest := IndentRest(s[1..]);
      var r := IndentRest(s);
      var d := if IsLineTerminator(s[0]) then 3 else 1;
      assert forall i :: d <= i < |r| ==> r[i] == rest[i - d];
    }
  }

  lemma {:induction false} IndentRestWhitespace(s: string)
    ensures NonSpace(IndentRest(s)) == NonSpace(s)
    decreases |s|
  {
    if s != [] {
      IndentRestWhitespace(s[1..]);
      var rest := IndentRest(s[1..]);
      if IsLineTerminator(s[0]) {
        assert [s[0]] + "  " + rest == ([s[0]] + "  ") + rest;
        NonSpaceAfterSpace([s[0]] + "  ", rest);
      } else {
        assert ([s[0]] + rest)[1..] == rest;
      }
    }
  }

  lemma {:induction false} IndentRestTags(s: string)
    requires NoTagJoin(s)
    ensures NoTagJoin(IndentRest(s))
    decreases |s|
  {
    if s != [] {
      assert NoTagJoin(s[1..]) by {
        assert forall i :: 0 <= i < |s| - 1 ==> s[1..][i] == s[i + 1];
      }
      IndentRestTags(s[1..]);
      var rest := IndentRest(s[1..]);
      var r := IndentRest(s);
      var d := if IsLineTerminator(s[0]) then 3 else 1;
      forall i | 0 <= i < |r| - 1
        ensures !(r[i] == '>' && r[i + 1] == '<')
      {
        if i >= d {
          assert r[i] == rest[i - d] && r[i + 1] == rest[i + 1 - d];
        } else if i == d - 1 && d == 1 {
          assert r[i + 1] == s[1];
        }
      }
    }
  }

  /** `.replace(/^/gm, '  ')`: two spaces at the start of every line. */
  function Indent(s: string): string
  {
    "  " + IndentRest(s)
  }

  lemma IndentIndented(s: string)
    ensures Indented(Indent(s))
  {
    IndentRestIndented(s);
    var rest := IndentRest(s);
    assert forall i :: 2 <= i < |Indent(s)| ==> Indent(s)[i] == rest[i - 2];
  }

  /** Indenting adds whitespace only. */
  lemma IndentWhitespace(s: string)
    ensures NonSpace(Indent(s)) == NonSpace(s)
  {
    IndentRestWhitespace(s);
    NonSpaceAfterSpace("  ", IndentRest(s));
  }

  lemma IndentTags(s: string)
    requires NoTagJoin(s)
    ensures NoTagJoin(Indent(s))
  {
    IndentRestTags(s);
    var rest := IndentRest(s);
    assert forall i :: 2 <= i < |Indent(s)| ==> Indent(s)[i] == rest[i - 2];
  }

  /** The HTML the converter produced, one tag per line, indented and
      trimmed: it differs from the input in whitespace only. */
  function FormatHtml(h: string): (r: string)
    ensures IsTrimmed(r)
    ensures NoTagJoin(r)
    ensures Indented(r)
    ensures NonSpace(r) == NonSpace(h)
  {
    BreakTagsSeparates(h);
    BreakTagsWhitespace(h);
    IndentIndented(BreakTags(h));
    IndentWhitespace(BreakTags(h));
    IndentTags(BreakTags(h));
    var s := Indent(BreakTags(h));
    TrimKeepsTags(s);
    TrimKeepsIndent(s);
    NonSpaceTrim(s);
    Trim(s)
  }

  lemma TrimKeepsTags(s: string)
    requires NoTagJoin(s)
    ensures NoTagJoin(Trim(s))
  {
    var k := TrimInfix(s);
    var r := Trim(s);
    assert forall i :: 0 <= i < |r| ==> r[i] == s[k + i];
  }

  /** A trimmed text ends in a non-space, so the spaces after each of its
      line breaks are inside it. */
  lemma TrimKeepsIndent(s: string)
    requires Indented(s)
    ensures Indented(Trim(s))
  {
    var k := TrimInfix(s);
    var r := Trim(s);
    forall i | 0 <= i < |r| && IsLineTerminator(r[i])
      ensures i + 2 < |r| && r[i + 1] == ' ' && r[i + 2] == ' '
    {
      assert r[i] == s[k + i];
      assert !IsSpace(r[|r| - 1]);
      assert s[k + i + 1] == ' ' && s[k + i + 2] == ' ';
    }
  }

  // ---------------------------------------------------------------------------
  // Applying a style rule to the stylesheet
  // ---------------------------------------------------------------------------

  /** `css.split(/}\s*\/)`: the text between closing braces, each piece after
      the first without the whitespace that followed its brace. */
  function Chunks(css: string): (r: seq<string>)
    ensures |r| == |Split(css, '}')| && r[0] == Split(css, '}')[0]
    ensures forall i :: 0 < i < |r| ==> r[i] == TrimStart(Split(css, '}')[i])
    ensures forall i :: 0 <= i < |r| ==> '}' !in r[i]
    ensures forall i :: 0 < i < |r| ==> r[i] == [] || !IsSpace(r[i][0])
  {
    var ps := Split(css, '}');
    assert forall i :: 1 <= i < |ps| ==> '}' !in TrimStart(ps[i]) by {
      forall i | 1 <= i < |ps|
        ensures '}' !in TrimStart(ps[i])
      {
        TrimStartSuffix(ps[i]);
      }
    }
    [ps[0]] + seq(|ps| - 1, i requires 0 <= i < |ps| - 1 => TrimStart(ps[i + 1]))
  }

  /** `rule.split('{')[0].trim()`: the selector a rule text starts with. */
  function RuleSelector(rule: string): string
  {
    Trim(Split(rule, '{')[0])
  }

  /** Which chunk a rule replaces: as written, the first whose trimmed text
      starts with the rule's selector; as meant, the first whose own selector
      is the rule's selector. */
  datatype Test = Prefix(selector: string) | Exact(selector: string)

  predicate Accepts(test: Test, chunk: string)
  {
    match test
    case Prefix(sel) => StartsWith(Trim(chunk), sel)
    case Exact(sel) => RuleSelector(chunk) == sel
  }

  /** `findIndex`: the first chunk the test accepts. */
  function FirstWhere(cs: seq<string>, test: Test): (r: Option<nat>)
    ensures r.Some? ==> r.value < |cs| && Accepts(test, cs[r.value])
    ensures r.Some? ==> forall j :: 0 <= j < r.value ==> !Accepts(test, cs[j])
    ensures r.None? <==> forall j :: 0 <= j < |cs| ==> !Accepts(test, cs[j])
  {
    if cs == [] then None
    else if Accepts(test, cs[0]) then Some(0)
    else
      var r := FirstWhere(cs[1..], test);
      assert forall j :: 0 < j < |cs| ==> cs[j] == cs[1..][j - 1];
      if r.None? then None else Some(r.value + 1)
  }

  /** Put the rule in place of the chunk at `at`, or after the last chunk. */
  function Replace(cs: seq<string>, rule: string, at: Option<nat>): (r: seq<string>)
    requires at.Some? ==> at.value < |cs|
    ensures at.Some? ==> |r| == |cs| && r[at.value] == rule
    ensures at.Some? ==> forall j :: 0 <= j < |cs| && j != at.value ==> r[j] == cs[j]
    ensures at.None? ==> |r| == |cs| + 1 && r[..|cs|] == cs && r[|cs|] == rule
  {
    if at.Some? then cs[at.value := rule] else cs + [rule]
  }

  /** Chunk `j` is the first the test accepts. */
  predicate FirstAccepted(cs: seq<string>, test: Test, j: nat)
    requires j < |cs|
  {
    Accepts(test, cs[j]) && forall k :: 0 <= k < j ==> !Accepts(test, cs[k])
  }

  /** The upsert as written: the first chunk whose trimmed text starts with
      the rule's selector is replaced, every other chunk is kept, and with
      no such chunk the rule goes after the last one. */
  function UpsertAsWritten(cs: seq<string>, rule: string): (r: seq<string>)
    ensures rule in r
    ensures |r| == |cs| || (|r| == |cs| + 1 && r[..|cs|] == cs && r[|cs|] == rule)
    ensures |r| == |cs| + 1 <==> forall j :: 0 <= j < |cs| ==> !StartsWith(Trim(cs[j]), RuleSelector(rule))
    ensures forall j :: 0 <= j < |cs| ==>
      r[j] == if FirstAccepted(cs, Prefix(RuleSelector(rule)), j) then rule else cs[j]
  {
    var test := Prefix(RuleSelector(rule));
    var at := FirstWhere(cs, test);
    var r := Replace(cs, rule, at);
    assert at.Some? ==> r[at.value] == rule && FirstAccepted(cs, test, at.value);
    assert at.None? ==> r[|cs|] == rule;
    assert forall j :: 0 <= j < |cs| && FirstAccepted(cs, test, j) ==> at == Some(j);
    r
  }

  /** A rule's trimmed text starts with its own selector, since the selector
      is the trimmed text before its first `{`. */
  lemma RuleStartsWithSelector(rule: string)
    ensures Accepts(Prefix(RuleSelector(rule)), rule)
  {
    SplitFirstPrefix(rule, '{');
    TrimOfPrefix(Split(rule, '{')[0], rule);
  }

  /** Applying the same rule a second time through the written upsert
      changes nothing more: the rule now stands at or before the chunk it
      matched. */
  lemma UpsertAsWrittenIdempotent(cs: seq<string>, rule: string)
    ensures UpsertAsWritten(UpsertAsWritten(cs, rule), rule) == UpsertAsWritten(cs, rule)
  {
    RuleStartsWithSelector(rule);
    ReplaceAgain(cs, rule, Prefix(RuleSelector(rule)));
  }

  /** `rule.trim() + (rule.endsWith('}') ? '' : '}')`. */
  function Close(rule: string): (r: string)
    requires Trim(rule) != []
    ensures r != [] && !IsSpace(r[0]) && r[|r| - 1] == '}'
    ensures StartsWith(r, Trim(rule))
    ensures |r| <= |Trim(rule)| + 1
    ensures EndsWith(rule, "}") ==> r == Trim(rule)
  {
    var t := Trim(rule);
    if EndsWith(rule, "}") then
      assert t[|t| - 1] == '}' by {
        var k := TrimInfix(rule);
        assert AllSpace(rule[k + |t|..]);
        assert rule[|rule| - 1] == '}';
      }
      assert t[..|t|] == t;
      t
    else
      assert (t + "}")[..|t|] == t;
      t + "}"
  }

  /** The `filter` of blank chunks and the `map` that closes the rest. */
  function Closed(cs: seq<string>): (r: seq<string>)
    ensures |r| <= |cs|
    ensures forall i :: 0 <= i < |r| ==> r[i] != [] && !IsSpace(r[i][0]) && r[i][|r[i]| - 1] == '}'
    ensures forall j :: 0 <= j < |cs| && Trim(cs[j]) != [] ==> Close(cs[j]) in r
  {
    if cs == [] then []
    else
      var rest := Closed(cs[1..]);
      assert forall j :: 1 <= j < |cs| ==> cs[j] == cs[1..][j - 1];
      if Trim(cs[0]) == [] then rest
      else
        var r := [Close(cs[0])] + rest;
        assert forall i :: 1 <= i < |r| ==> r[i] == rest[i - 1];
        r
  }

  /** `x` is some chunk with text, closed. */
  predicate ClosesSome(cs: seq<string>, x: string)
  {
    exists j :: 0 <= j < |cs| && Trim(cs[j]) != [] && x == Close(cs[j])
  }

  /** Every closed rule is some chunk with text, closed. */
  lemma {:induction false} ClosedComesFrom(cs: seq<string>)
    ensures forall i :: 0 <= i < |Closed(cs)| ==> ClosesSome(cs, Closed(cs)[i])
    decreases |cs|
  {
    if cs != [] {
      var rest := Closed(cs[1..]);
      ClosedComesFrom(cs[1..]);
      ClosedFrom(cs, rest);
      ClosedCons(cs[0], cs[1..]);
      assert cs == [cs[0]] + cs[1..];
      if Trim(cs[0]) != [] {
        assert ClosesSome(cs, Close(cs[0]));
      }
    }
  }

  /** Each closed rule of the chunks after the first comes from a chunk. */
  lemma ClosedFrom(cs: seq<string>, rest: seq<string>)
    requires cs != []
    requires forall i :: 0 <= i < |rest| ==> ClosesSome(cs[1..], rest[i])
    ensures forall i :: 0 <= i < |rest| ==> ClosesSome(cs, rest[i])
  {
    forall i | 0 <= i < |rest|
      ensures ClosesSome(cs, rest[i])
    {
      var j :| 0 <= j < |cs[1..]| && Trim(cs[1..][j]) != [] && rest[i] == Close(cs[1..][j]);
      assert cs[j + 1] == cs[1..][j];
    }
  }

  /** Closing works chunk by chunk, so the closed rules keep the chunks'
      order. */
  lemma {:induction false} ClosedConcat(a: seq<string>, b: seq<string>)
    ensures Closed(a + b) == Closed(a) + Closed(b)
    decreases |a|
  {
    if a != [] {
      var x, t := a[0], a[1..];
      var h := if Trim(x) == [] then [] else [Close(x)];
      assert a + b == [x] + (t + b);
      assert a == [x] + t;
      ClosedCons(x, t + b);
      ClosedCons(x, t);
      ClosedConcat(t, b);
      assert h + (Closed(t) + Closed(b)) == (h + Closed(t)) + Closed(b);
    } else {
      assert a + b == b;
    }
  }

  lemma ClosedCons(x: string, rest: seq<string>)
    ensures Closed([x] + rest) == (if Trim(x) == [] then [] else [Close(x)]) + Closed(rest)
  {
    assert ([x] + rest)[0] == x && ([x] + rest)[1..] == rest;
  }

  /** The stylesheet written back: closed rules separated by a blank line. */
  function Finish(cs: seq<string>): string
  {
    Join(Closed(cs), "\n\n")
  }

  /** `handleApplyStyles` on the stylesheet text, as written. A rule with
      text ends up in the stylesheet, trimmed and closed. */
  function ApplyRuleAsWritten(css: string, rule: string): (r: string)
    ensures Trim(rule) != [] ==> Contains(r, Close(rule))
  {
    var cs := UpsertAsWritten(Chunks(css), rule);
    FinishHolds(cs, rule);
    Finish(cs)
  }

  /** The rule the property menu applies reaches the stylesheet: it
      already ends with `}`, so closing it only trims it, and when the
      selector does not start with whitespace it goes in exactly as the
      menu wrote it. */
  lemma MenuRuleReachesSheet(css: string, selector: string, styles: PropertyMenu.Styles)
    requires CssParser.Present(styles) != []
    ensures var rule := PropertyMenu.FormatRule(selector, styles, false);
      Contains(ApplyRuleAsWritten(css, rule), Trim(rule))
    ensures var rule := PropertyMenu.FormatRule(selector, styles, false);
      selector != [] && !IsSpace(selector[0]) ==> Contains(ApplyRuleAsWritten(css, rule), rule)
  {
    var rule := PropertyMenu.FormatRule(selector, styles, false);
    assert rule != [] && rule[|rule| - 1] == '}';
    assert EndsWith(rule, "}");
    assert Trim(rule) != [] by { ClosedRuleHasText(rule); }
    if selector != [] && !IsSpace(selector[0]) {
      assert rule[0] == selector[0];
      TrimOfTrimmed(rule);
    }
  }

  /** A text ending in `}` keeps something when trimmed. */
  lemma ClosedRuleHasText(rule: string)
    requires rule != [] && rule[|rule| - 1] == '}'
    ensures Trim(rule) != []
  {
    var k := TrimInfix(rule);
    var e := k + |Trim(rule)|;
    assert forall i :: 0 <= i < k ==> rule[i] == rule[..k][i];
    assert forall i :: e <= i < |rule| ==> rule[i] == rule[e..][i - e];
    assert !IsSpace(rule[|rule| - 1]);
  }

  /** A chunk with text is in the written stylesheet, closed. */
  lemma FinishHolds(cs: seq<string>, rule: string)
    ensures rule in cs && Trim(rule) != [] ==> Contains(Finish(cs), Close(rule))
  {
    if rule in cs && Trim(rule) != [] {
      var j :| 0 <= j < |cs| && cs[j] == rule;
      var r := Closed(cs);
      var i :| 0 <= i < |r| && r[i] == Close(rule);
      JoinContains(r, "\n\n", i);
    }
  }

  /** The empty rule has the empty selector, which every chunk starts with:
      the first chunk is replaced by the empty rule and then filtered out. */
  lemma EmptyRuleDropsFirst(css: string)
    ensures ApplyRuleAsWritten(css, []) == Finish(Chunks(css)[1..])
  {
    var cs := Chunks(css);
    assert Split([], '{') == [[]];
    var test := Prefix(RuleSelector([]));
    assert Accepts(test, cs[0]);
    assert FirstWhere(cs, test) == Some(0);
    var r := UpsertAsWritten(cs, []);
    assert r[0] == [] && r[1..] == cs[1..];
    assert Closed(r) == Closed(r[1..]);
  }

  /** The style menu hands over the empty rule when no style has a value,
      so applying it deletes the stylesheet's first rule. */
  lemma EmptyMenuDropsFirst(css: string, selector: string, styles: PropertyMenu.Styles)
    requires CssParser.Present(styles) == []
    ensures ApplyRuleAsWritten(css, PropertyMenu.FormatRule(selector, styles, false)) == Finish(Chunks(css)[1..])
  {
    EmptyRuleDropsFirst(css);
  }

  /** A stylesheet of one rule splits into the rule and an empty tail. */
  lemma OneRuleChunks(body: string)
    requires '}' !in body
    ensures Chunks(body + "}") == [body, []]
  {
    SplitAfterPiece(body, [], '}');
    assert body + ['}'] + [] == body + "}";
    assert Split([], '}') == [[]];
  }

  /** Applying an empty rule to a stylesheet of one rule erases it. */
  lemma EmptyRuleErasesOnlyRule(body: string)
    requires '}' !in body
    ensures ApplyRuleAsWritten(body + "}", []) == []
  {
    OneRuleChunks(body);
    EmptyRuleDropsFirst(body + "}");
    assert Closed([[]]) == [];
  }


  /** The upsert with an exact selector match, where a rule with no text
      leaves the chunks alone. */
  function Upsert(cs: seq<string>, rule: string): (r: seq<string>)
    ensures Trim(rule) == [] ==> r == cs
    ensures Trim(rule) != [] ==> rule in r
    ensures |r| == |cs| || (|r| == |cs| + 1 && r[|cs|] == rule)
    ensures |r| == |cs| + 1 <==> Trim(rule) != [] && forall j :: 0 <= j < |cs| ==> RuleSelector(cs[j]) != RuleSelector(rule)
    ensures forall j :: 0 <= j < |cs| && RuleSelector(cs[j]) != RuleSelector(rule) ==> r[j] == cs[j]
  {
    if Trim(rule) == [] then cs
    else
      var test := Exact(RuleSelector(rule));
      var at := FirstWhere(cs, test);
      var r := Replace(cs, rule, at);
      assert at.Some? ==> r[at.value] == rule;
      assert at.None? ==> r[|cs|] == rule && forall j :: 0 <= j < |cs| ==> r[j] == cs[j];
      r
  }

  /** Applying the same rule a second time changes nothing more. */
  lemma UpsertIdempotent(cs: seq<string>, rule: string)
    ensures Upsert(Upsert(cs, rule), rule) == Upsert(cs, rule)
  {
    if Trim(rule) != [] {
      var test := Exact(RuleSelector(rule));
      var at := FirstWhere(cs, test);
      assert Upsert(cs, rule) == Replace(cs, rule, at);
      ReplaceAgain(cs, rule, test);
    }
  }

  /** After the rule is put in, the test finds it where it was put. */
  lemma ReplaceAgain(cs: seq<string>, rule: string, test: Test)
    requires Accepts(test, rule)
    ensures var r := Replace(cs, rule, FirstWhere(cs, test));
      Replace(r, rule, FirstWhere(r, test)) == r
  {
    var at := FirstWhere(cs, test);
    var r := Replace(cs, rule, at);
    var i := if at.Some? then at.value else |cs|;
    assert i < |r| && r[i] == rule;
    assert forall j :: 0 <= j < i ==> !Accepts(test, r[j]) by {
      assert forall j :: 0 <= j < i ==> r[j] == cs[j];
    }
    FirstWhereIs(r, test, i);
    assert r[i := rule] == r;
  }

  /** A chunk the test accepts with none accepted before it is the one
      `findIndex` answers. */
  lemma FirstWhereIs(cs: seq<string>, test: Test, i: nat)
    requires i < |cs| && Accepts(test, cs[i])
    requires forall j :: 0 <= j < i ==> !Accepts(test, cs[j])
    ensures FirstWhere(cs, test) == Some(i)
  {
  }

  /** `handleApplyStyles` on the stylesheet text with the exact match. */
  function ApplyRule(css: string, rule: string): (r: string)
    ensures Trim(rule) == [] ==> r == Finish(Chunks(css))
    ensures Trim(rule) != [] ==> Contains(r, Close(rule))
  {
    var cs := Upsert(Chunks(css), rule);
    FinishHolds(cs, rule);
    Finish(cs)
  }

  /** With the corrected upsert an empty rule leaves a one-rule
      stylesheet as it was. */
  lemma EmptyRuleKeepsOnlyRule(body: string)
    requires '}' !in body && body != [] && IsTrimmed(body)
    ensures ApplyRule(body + "}", []) == body + "}"
  {
    OneRuleChunks(body);
    TrimOfTrimmed(body);
    assert !EndsWith(body, "}") by {
      assert body[|body| - 1] != '}';
    }
    assert Closed([[]]) == [];
    assert Closed([body, []]) == [body + "}"];
  }

  /** A rule whose text is a trimmed, brace-free selector, `{` and a body
      has that selector. */
  lemma SelectorOfRule(selector: string, body: string)
    requires IsSelector(selector)
    ensures RuleSelector(selector + "{" + body) == selector
  {
    SplitAfterPiece(selector, body, '{');
    TrimOfTrimmed(selector);
  }

  /** A selector as the menu writes it: not empty, trimmed, without `{`.
      This asks less than the parser's `CleanSelector`, which also refuses
      `}` and a comment opener; the upsert lemmas need no more. */
  predicate IsSelector(selector: string)
  {
    selector != [] && !IsSpace(selector[0]) && !IsSpace(selector[|selector| - 1]) && '{' !in selector
  }

  /** A text that starts with a non-space character is not blank. */
  lemma TrimNonBlank(s: string)
    requires s != [] && !IsSpace(s[0])
    ensures Trim(s) != []
  {
    var k := TrimInfix(s);
  }

  /** The written upsert lets a rule for `a` replace the rule for any
      selector `b` that starts with `a`, such as `div` and `div > p`. */
  lemma PrefixReplacesOther(a: string, b: string, x: string, y: string)
    requires IsSelector(a) && IsSelector(b) && StartsWith(b, a)
    requires x == [] || !IsSpace(x[|x| - 1])
    ensures UpsertAsWritten([b + "{" + x], a + "{" + y) == [a + "{" + y]
  {
    var chunk := b + "{" + x;
    SelectorOfRule(a, y);
    assert IsTrimmed(chunk) by {
      assert chunk[0] == b[0];
    }
    TrimOfTrimmed(chunk);
    assert chunk[..|a|] == b[..|a|];
    assert Accepts(Prefix(a), chunk);
  }

  /** The corrected upsert keeps the rule for a different selector and
      adds the new rule after it. */
  lemma ExactKeepsOther(a: string, b: string, x: string, y: string)
    requires IsSelector(a) && IsSelector(b) && a != b
    ensures Upsert([b + "{" + x], a + "{" + y) == [b + "{" + x, a + "{" + y]
  {
    var rule := a + "{" + y;
    SelectorOfRule(a, y);
    SelectorOfRule(b, x);
    assert rule[0] == a[0];
    TrimNonBlank(rule);
    assert !Accepts(Exact(a), b + "{" + x);
    UpsertAppends([b + "{" + x], rule);
  }



  /** A rule whose selector no chunk has goes after the last chunk. */
  lemma UpsertAppends(cs: seq<string>, rule: string)
    requires Trim(rule) != []
    requires FirstWhere(cs, Exact(RuleSelector(rule))) == None
    ensures Upsert(cs, rule) == cs + [rule]
  {
  }

}

=== FILE: assoc.dfy ===
/** Insertion-ordered, string-keyed tables: the model of a JavaScript plain
    object used as a dictionary (`{}` with `obj[key] = v`, `delete obj[key]`,
    `Object.entries`) and of a `Map` with string keys. Assigning to a present
    key keeps its position; assigning to a new key appends it. */
module Assoc {
  import opened Maybe

  type Table<V> = seq<(string, V)>

  function Keys<V>(m: Table<V>): (ks: seq<string>)
    ensures |ks| == |m|
    ensures forall i :: 0 <= i < |m| ==> ks[i] == m[i].0
  {
    if m == [] then [] else [m[0].0] + Keys(m[1..])
  }

  predicate DistinctKeys<V>(m: Table<V>)
  {
    forall i, j :: 0 <= i < j < |m| ==> m[i].0 != m[j].0
  }

  predicate HasKey<V>(m: Table<V>, k: string)
  {
    k in Keys(m)
  }

  lemma KeysCons<V>(x: (string, V), m: Table<V>)
    ensures Keys([x] + m) == [x.0] + Keys(m)
  {
    assert ([x] + m)[1..] == m;
  }

  lemma KeysAppend<V>(m: Table<V>, x: (string, V))
    ensures Keys(m + [x]) == Keys(m) + [x.0]
  {
  }

  /** A duplicate-free table is a fresh first key before a duplicate-free rest. */
  lemma DistinctTail<V>(m: Table<V>)
    requires m != [] && DistinctKeys(m)
    ensures DistinctKeys(m[1..]) && !HasKey(m[1..], m[0].0)
  {
    assert forall j :: 0 <= j < |m[1..]| ==> m[1..][j] == m[j + 1];
  }

  lemma DistinctCons<V>(x: (string, V), m: Table<V>)
    requires DistinctKeys(m) && !HasKey(m, x.0)
    ensures DistinctKeys([x] + m)
  {
    var n := [x] + m;
    forall i, j | 0 <= i < j < |n|
      ensures n[i].0 != n[j].0
    {
      assert n[j] == m[j - 1];
      assert Keys(m)[j - 1] == m[j - 1].0;
      if i > 0 {
        assert n[i] == m[i - 1];
      }
    }
  }

  /** Appending the head of `e` and then its tail appends `e`. */
  lemma AppendHead<T>(a: seq<T>, e: seq<T>)
    requires e != []
    ensures a + [e[0]] + e[1..] == a + e
  {
  }

  lemma ConsAppend<T>(x: T, t: seq<T>, y: T)
    ensures [x] + (t + [y]) == [x] + t + [y]
  {
  }

  /** `obj[k]`, with `None` for `undefined`: the value of the first entry keyed `k`. */
  function Get<V>(m: Table<V>, k: string): (r: Option<V>)
    ensures r.None? <==> !HasKey(m, k)
    ensures r.Some? ==> exists i | 0 <= i < |m| :: m[i] == (k, r.value)
  {
    if m == [] then None
    else if m[0].0 == k then Some(m[0].1)
    else
      var r := Get(m[1..], k);
      assert Keys(m) == [m[0].0] + Keys(m[1..]);
      assert forall i :: 0 < i < |m| ==> m[i] == m[1..][i - 1];
      r
  }

  /** `obj[k] = v`. */
  function Put<V>(m: Table<V>, k: string, v: V): (r: Table<V>)
    ensures Get(r, k) == Some(v)
    ensures forall k' :: k' != k ==> Get(r, k') == Get(m, k')
  {
    if m == [] then [(k, v)]
    else if m[0].0 == k then [(k, v)] + m[1..]
    else [m[0]] + Put(m[1..], k, v)
  }

  /** Assignment keeps a present key in place and appends a new one. */
  lemma PutKeys<V>(m: Table<V>, k: string, v: V)
    ensures Keys(Put(m, k, v)) == if HasKey(m, k) then Keys(m) else Keys(m) + [k]
  {
    if HasKey(m, k) {
      PutKeysPresent(m, k, v);
    } else {
      PutNew(m, k, v);
      KeysAppend(m, (k, v));
    }
  }

  lemma {:induction false} PutKeysPresent<V>(m: Table<V>, k: string, v: V)
    requires HasKey(m, k)
    ensures Keys(Put(m, k, v)) == Keys(m)
  {
    KeysCons(m[0], m[1..]);
    assert [m[0]] + m[1..] == m;
    if m[0].0 == k {
      KeysCons((k, v), m[1..]);
    } else {
      PutKeysPresent(m[1..], k, v);
      KeysCons(m[0], Put(m[1..], k, v));
    }
  }

  /** Assigning a key the table does not hold appends one entry. */
  lemma {:induction false} PutNew<V>(m: Table<V>, k: string, v: V)
    requires !HasKey(m, k)
    ensures Put(m, k, v) == m + [(k, v)]
  {
    if m != [] {
      KeysCons(m[0], m[1..]);
      assert [m[0]] + m[1..] == m;
      PutNew(m[1..], k, v);
      ConsAppend(m[0], m[1..], (k, v));
    }
  }

  lemma {:induction false} PutDistinct<V>(m: Table<V>, k: string, v: V)
    requires DistinctKeys(m)
    ensures DistinctKeys(Put(m, k, v))
  {
    if m != [] {
      DistinctTail(m);
      if m[0].0 == k {
        DistinctCons((k, v), m[1..]);
      } else {
        PutDistinct(m[1..], k, v);
        PutKeys(m[1..], k, v);
        assert !HasKey(Put(m[1..], k, v), m[0].0);
        DistinctCons(m[0], Put(m[1..], k, v));
      }
    }
  }

  /** `delete obj[k]`. */
  function Remove<V>(m: Table<V>, k: string): (r: Table<V>)
    ensures Get(r, k).None?
    ensures forall k' :: k' != k ==> Get(r, k') == Get(m, k')
    ensures !HasKey(m, k) ==> r == m
  {
    if m == [] then []
    else
      var t := Remove(m[1..], k);
      assert Keys(m) == [m[0].0] + Keys(m[1..]);
      if m[0].0 == k then t
      else
        assert Keys([m[0]] + t) == [m[0].0] + Keys(t);
        [m[0]] + t
  }

  lemma {:induction false} RemoveKeysFromTable<V>(m: Table<V>, k: string)
    ensures forall i :: 0 <= i < |Remove(m, k)| ==> Remove(m, k)[i].0 in Keys(m)
  {
    if m != [] {
      RemoveKeysFromTable(m[1..], k);
      assert Keys(m) == [m[0].0] + Keys(m[1..]);
    }
  }

  lemma {:induction false} RemoveDistinct<V>(m: Table<V>, k: string)
    requires DistinctKeys(m)
    ensures DistinctKeys(Remove(m, k))
  {
    if m != [] {
      DistinctTail(m);
      RemoveDistinct(m[1..], k);
      RemoveKeysFromTable(m[1..], k);
      if m[0].0 != k {
        DistinctCons(m[0], Remove(m[1..], k));
      }
    }
  }

  /** No key of `n` is present in `m`. */
  predicate KeysFresh<V>(m: Table<V>, n: Table<V>)
  {
    forall i :: 0 <= i < |n| ==> !HasKey(m, n[i].0)
  }

  /** Putting the first entry of a fresh, duplicate-free `n` appends it, and
      the rest of `n` stays fresh. */
  lemma KeysFreshStep<V>(m: Table<V>, n: Table<V>)
    requires n != [] && DistinctKeys(n) && KeysFresh(m, n)
    ensures Put(m, n[0].0, n[0].1) == m + [n[0]]
    ensures DistinctKeys(n[1..]) && KeysFresh(m + [n[0]], n[1..])
  {
    PutNew(m, n[0].0, n[0].1);
    KeysAppend(m, n[0]);
    forall i | 0 <= i < |n[1..]|
      ensures !HasKey(m + [n[0]], n[1..][i].0)
    {
      assert n[1..][i] == n[i + 1];
    }
  }

  /** A value found under `k` is an entry of the table; in a duplicate-free
      table every entry is found under its key. */
  lemma {:induction false} GetEntry<V>(m: Table<V>, k: string, v: V)
    requires DistinctKeys(m)
    ensures Get(m, k) == Some(v) <==> (k, v) in m
  {
    if m != [] {
      DistinctTail(m);
      GetEntry(m[1..], k, v);
      assert m == [m[0]] + m[1..];
    }
  }

  /** Assigning the same value twice is assigning it once. */
  lemma {:induction false} PutPut<V>(m: Table<V>, k: string, v: V)
    ensures Put(Put(m, k, v), k, v) == Put(m, k, v)
  {
    if m != [] && m[0].0 != k {
      PutPut(m[1..], k, v);
      assert Put(m, k, v)[1..] == Put(m[1..], k, v);
    }
  }

  /** Every entry after an assignment is the assigned one or an old one. */
  lemma {:induction false} PutEntries<V>(m: Table<V>, k: string, v: V)
    ensures forall x :: x in Put(m, k, v) ==> x == (k, v) || x in m
  {
    if m != [] && m[0].0 != k {
      PutEntries(m[1..], k, v);
    }
  }

  /** Deleting a key adds no entry. */
  lemma {:induction false} RemoveEntries<V>(m: Table<V>, k: string)
    ensures forall x :: x in Remove(m, k) ==> x in m
  {
    if m != [] {
      RemoveEntries(m[1..], k);
    }
  }
}

=== FILE: converter.dfy ===
/** The attribute-annotation layer of the HTML/Markdown converter.

    Going from HTML to Markdown, an element's id and classes are written after
    its text as an annotation ` {#id .cls1 .cls2}`. Going back, annotated
    heading and paragraph lines are recognised, the annotation is taken off
    the line and remembered under a key built from the line's text, the
    Markdown is rendered, and the remembered id and classes are put back onto
    the first rendered element with that text.

    The Markdown renderer and the final DOM re-serialisation belong to other
    libraries and enter as function parameters. */
module Converter {
  import opened Maybe
  import opened Strings
  import opened Assoc

  // ---------------------------------------------------------------------------
  // HTML to Markdown: the annotation suffix
  // ---------------------------------------------------------------------------

  /** The two properties of a DOM element the annotation reads. */
  datatype Element = Element(id: string, className: string)

  /** The pieces of a list that are not empty, in order (`filter(c => c)`). */
  function NonEmptyParts(parts: seq<string>): (r: seq<string>)
    ensures |r| <= |parts|
    ensures forall i :: 0 <= i < |r| ==> r[i] != []
    ensures Concat(r) == Concat(parts)
    ensures forall i :: 0 <= i < |parts| && parts[i] != [] ==> parts[i] in r
    ensures (forall i :: 0 <= i < |parts| ==> parts[i] != []) ==> r == parts
  {
    if parts == [] then []
    else
      assert forall i :: 1 <= i < |parts| ==> parts[i] == parts[1..][i - 1];
      if parts[0] == [] then NonEmptyParts(parts[1..])
      else [parts[0]] + NonEmptyParts(parts[1..])
  }

  /** The filter works piece by piece, so it keeps the pieces' order: the
      pieces of a list made of two lists are those of the first, then those
      of the second. */
  lemma {:induction false} NonEmptyPartsConcat(a: seq<string>, b: seq<string>)
    ensures NonEmptyParts(a + b) == NonEmptyParts(a) + NonEmptyParts(b)
    decreases |a|
  {
    if a == [] {
      assert a + b == b;
    } else {
      assert (a + b)[0] == a[0] && (a + b)[1..] == a[1..] + b;
      NonEmptyPartsConcat(a[1..], b);
    }
  }

  /** `className.split(' ').filter(c => c)`. */
  function ClassTokens(className: string): (r: seq<string>)
    ensures forall i :: 0 <= i < |r| ==> r[i] != [] && ' ' !in r[i]
  {
    var parts := Split(className, ' ');
    var r := NonEmptyParts(parts);
    assert forall i :: 0 <= i < |r| ==> ' ' !in r[i] by {
      NonEmptyPartsFrom(parts);
    }
    r
  }

  lemma {:induction false} NonEmptyPartsFrom(parts: seq<string>)
    ensures forall i :: 0 <= i < |NonEmptyParts(parts)| ==> NonEmptyParts(parts)[i] in parts
  {
    if parts != [] {
      NonEmptyPartsFrom(parts[1..]);
    }
  }

  /** The class tokens are the characters of the class name other than the
      space, cut at the spaces: no character is lost and none is added. */
  lemma ClassTokensContent(className: string)
    ensures Concat(ClassTokens(className)) == Without(className, ' ')
    ensures ClassTokens(className) == [] <==> Without(className, ' ') == []
  {
    SplitConcat(className, ' ');
    var r := ClassTokens(className);
    if r != [] {
      assert Concat(r) == r[0] + Concat(r[1..]);
    }
  }

  /** `#id` when there is an id, then `.cls` for each class token. */
  function AttrItems(e: Element): (items: seq<string>)
    ensures forall i :: 0 <= i < |items| ==> |items[i]| >= 2 && (items[i][0] == '#' || items[i][0] == '.')
  {
    (if e.id != [] then ["#" + e.id] else []) + Dotted(ClassTokens(e.className))
  }

  function Dotted(classes: seq<string>): (r: seq<string>)
    requires forall i :: 0 <= i < |classes| ==> classes[i] != []
    ensures |r| == |classes|
    ensures forall i :: 0 <= i < |r| ==> r[i] == "." + classes[i]
  {
    if classes == [] then [] else ["." + classes[0]] + Dotted(classes[1..])
  }

  /** `getAttributeString(element)`: `''` when the element has neither an id
      nor a class token, otherwise ` {` + the items joined by spaces + `}`. */
  function AttrString(e: Element): (r: string)
    ensures r == [] <==> e.id == [] && ClassTokens(e.className) == []
    ensures r != [] ==> |r| >= 3 && r[..2] == " {" && r[|r| - 1] == '}'
  {
    var items := AttrItems(e);
    if |items| > 0 then " {" + Join(items, " ") + "}" else []
  }

  /** `{` + `inner` + `}`. */
  function Braced(inner: string): string
  {
    "{" + inner + "}"
  }

  /** The text between the braces of a non-empty annotation. */
  function AttrInner(e: Element): string
  {
    Join(AttrItems(e), " ")
  }

  // ---------------------------------------------------------------------------
  // Markdown to HTML: reading an annotation back
  // ---------------------------------------------------------------------------

  datatype Annotation = Annotation(id: string, classes: seq<string>)

  const NoAnnotation := Annotation([], [])

  /** One token of the brace contents: `#x` sets the id, `.x` adds a class,
      anything else is ignored. */
  function ReadToken(a: Annotation, t: string): Annotation
  {
    if StartsWith(t, "#") then a.(id := t[1..])
    else if StartsWith(t, ".") then a.(classes := a.classes + [t[1..]])
    else a
  }

  /** The `forEach` over the tokens, in order. */
  function ReadTokens(tokens: seq<string>): Annotation
  {
    if tokens == [] then NoAnnotation
    else ReadToken(ReadTokens(tokens[..|tokens| - 1]), tokens[|tokens| - 1])
  }

  /** `attrs.slice(1, -1).split(/\s+/)` read token by token. */
  function ParseAttrList(inner: string): Annotation
  {
    ReadTokens(SplitWs(inner))
  }

  /** The class names of the `.` tokens, in order. */
  function DotClasses(tokens: seq<string>): seq<string>
  {
    if tokens == [] then []
    else (if StartsWith(tokens[0], ".") then [tokens[0][1..]] else []) + DotClasses(tokens[1..])
  }

  lemma {:induction false} DotClassesSnoc(tokens: seq<string>, t: string)
    ensures DotClasses(tokens + [t]) == DotClasses(tokens) + (if StartsWith(t, ".") then [t[1..]] else [])
  {
    if tokens != [] {
      assert (tokens + [t])[1..] == tokens[1..] + [t];
      DotClassesSnoc(tokens[1..], t);
    }
  }

  /** The classes are the `.` tokens, in order. */
  lemma {:induction false} ReadTokensClasses(tokens: seq<string>)
    ensures ReadTokens(tokens).classes == DotClasses(tokens)
    decreases |tokens|
  {
    if tokens != [] {
      var n := |tokens| - 1;
      ReadTokensClasses(tokens[..n]);
      DotClassesSnoc(tokens[..n], tokens[n]);
      assert tokens[..n] + [tokens[n]] == tokens;
    }
  }

  /** Without a `#` token the id stays empty. */
  lemma {:induction false} ReadTokensNoId(tokens: seq<string>)
    requires forall i :: 0 <= i < |tokens| ==> !StartsWith(tokens[i], "#")
    ensures ReadTokens(tokens).id == []
    decreases |tokens|
  {
    if tokens != [] {
      var n := |tokens| - 1;
      assert forall i :: 0 <= i < n ==> tokens[..n][i] == tokens[i];
      ReadTokensNoId(tokens[..n]);
    }
  }

  /** The id is that of the last `#` token. */
  lemma {:induction false} ReadTokensLastId(tokens: seq<string>, i: nat)
    requires i < |tokens| && StartsWith(tokens[i], "#")
    requires forall j :: i < j < |tokens| ==> !StartsWith(tokens[j], "#")
    ensures ReadTokens(tokens).id == tokens[i][1..]
    decreases |tokens|
  {
    var n := |tokens| - 1;
    if i < n {
      assert forall j :: i < j < n ==> tokens[..n][j] == tokens[j];
      ReadTokensLastId(tokens[..n], i);
    }
  }

  /** The items of an annotation are read back as the element's own id and
      class tokens, provided neither contains whitespace. */
  lemma AttrRoundTrip(e: Element)
    requires CleanElement(e)
    requires AttrString(e) != []
    ensures ParseAttrList(AttrInner(e)) == Annotation(e.id, ClassTokens(e.className))
  {
    ItemsClean(e);
    SplitWsJoin(AttrItems(e));
    if e.id != [] {
      ReadItemsWithId(e.id, ClassTokens(e.className));
    } else {
      assert AttrItems(e) == Dotted(ClassTokens(e.className));
      ReadItemsNoId(ClassTokens(e.className));
    }
  }

  lemma ItemsClean(e: Element)
    requires CleanElement(e)
    ensures forall i :: 0 <= i < |AttrItems(e)| ==>
              AttrItems(e)[i] != [] && NoSpace(AttrItems(e)[i]) && '}' !in AttrItems(e)[i]
  {
    var classes := ClassTokens(e.className);
    ClassTokensClean(e.className);
    var d := Dotted(classes);
    assert forall i :: 0 <= i < |d| ==> NoSpace(d[i]) && '}' !in d[i] by {
      forall i | 0 <= i < |d|
        ensures NoSpace(d[i]) && '}' !in d[i]
      {
        assert d[i] == "." + classes[i];
      }
    }
    assert NoSpace("#" + e.id) && '}' !in "#" + e.id;
  }

  /** A non-empty annotation of a clean element: brace, a `#` or `.` item
      text without closing brace or newline, brace. */
  lemma AnnotationShape(e: Element)
    requires CleanElement(e) && AttrString(e) != []
    ensures AttrString(e) == " " + Braced(AttrInner(e))
    ensures |AttrInner(e)| >= 2 && (AttrInner(e)[0] == '#' || AttrInner(e)[0] == '.')
    ensures '}' !in AttrInner(e) && '\n' !in AttrInner(e)
  {
    var items := AttrItems(e);
    var inner := AttrInner(e);
    ItemsClean(e);
    assert |inner| >= 2 && (inner[0] == '#' || inner[0] == '.') by {
      JoinStartsWithFirst(items, " ");
      JoinLength(items, " ");
    }
    assert '}' !in inner by {
      JoinFree(items, " ", '}');
    }
    assert '\n' !in inner by {
      forall i | 0 <= i < |items|
        ensures '\n' !in items[i]
      {
        assert forall k :: 0 <= k < |items[i]| ==> !IsSpace(items[i][k]);
      }
      JoinFree(items, " ", '\n');
    }
  }

  lemma JoinLength(parts: seq<string>, sep: string)
    requires |parts| >= 1
    ensures |Join(parts, sep)| >= |parts[0]|
  {
  }

  lemma DottedNoHash(classes: seq<string>)
    requires forall i :: 0 <= i < |classes| ==> classes[i] != []
    ensures forall j :: 0 <= j < |Dotted(classes)| ==> !StartsWith(Dotted(classes)[j], "#")
  {
    forall j | 0 <= j < |Dotted(classes)|
      ensures !StartsWith(Dotted(classes)[j], "#")
    {
      assert Dotted(classes)[j][0] == '.';
    }
  }

  lemma ReadItemsNoId(classes: seq<string>)
    requires forall i :: 0 <= i < |classes| ==> classes[i] != []
    ensures ReadTokens(Dotted(classes)) == Annotation([], classes)
  {
    var tokens := Dotted(classes);
    ReadTokensClasses(tokens);
    DottedClasses(classes);
    DottedNoHash(classes);
    ReadTokensNoId(tokens);
  }

  lemma ReadItemsWithId(id: string, classes: seq<string>)
    requires forall i :: 0 <= i < |classes| ==> classes[i] != []
    ensures ReadTokens(["#" + id] + Dotted(classes)) == Annotation(id, classes)
  {
    var d := Dotted(classes);
    var tokens := ["#" + id] + d;
    assert ReadTokens(tokens).classes == classes by {
      ReadTokensClasses(tokens);
      DottedClasses(classes);
      assert tokens[1..] == d;
    }
    assert ReadTokens(tokens).id == id by {
      DottedNoHash(classes);
      assert forall j :: 0 < j < |tokens| ==> tokens[j] == d[j - 1];
      ReadTokensLastId(tokens, 0);
    }
  }

  lemma {:induction false} DottedClasses(classes: seq<string>)
    requires forall i :: 0 <= i < |classes| ==> classes[i] != []
    ensures DotClasses(Dotted(classes)) == classes
  {
    if classes != [] {
      var t := Dotted(classes[1..]);
      assert Dotted(classes) == ["." + classes[0]] + t;
      DottedClasses(classes[1..]);
      DotClassesDot(classes[0], t);
      assert classes == [classes[0]] + classes[1..];
    }
  }

  lemma DotClassesDot(c: string, tokens: seq<string>)
    ensures DotClasses(["." + c] + tokens) == [c] + DotClasses(tokens)
  {
    var s := ["." + c] + tokens;
    assert s[0] == "." + c && s[1..] == tokens;
    assert StartsWith(s[0], ".") && s[0][1..] == c;
  }

  /** Ids and class names that survive the annotation syntax: no whitespace
      inside a token and no closing brace. */
  predicate CleanElement(e: Element)
  {
    && NoSpace(e.id) && '}' !in e.id && '}' !in e.className
    && forall i :: 0 <= i < |e.className| && IsSpace(e.className[i]) ==> e.className[i] == ' '
  }

  lemma ClassTokensClean(className: string)
    requires '}' !in className
    requires forall i :: 0 <= i < |className| && IsSpace(className[i]) ==> className[i] == ' '
    ensures forall i :: 0 <= i < |ClassTokens(className)| ==>
              NoSpace(ClassTokens(className)[i]) && '}' !in ClassTokens(className)[i]
  {
    var r := ClassTokens(className);
    ClassTokensContent(className);
    forall i, k | 0 <= i < |r| && 0 <= k < |r[i]|
      ensures !IsSpace(r[i][k]) && r[i][k] != '}'
    {
      var x := r[i][k];
      ConcatMember(r, i, x);
      WithoutMember(className, ' ', x);
    }
  }

  // ---------------------------------------------------------------------------
  // HTML to Markdown: the turndown rule bodies
  // ---------------------------------------------------------------------------

  /** `'#'.repeat(n)`. */
  function Hashes(n: nat): (r: string)
    ensures |r| == n && forall i :: 0 <= i < n ==> r[i] == '#'
  {
    seq(n, _ => '#')
  }

  /** The decimal digit of a small number. */
  function Digit(n: nat): char
    requires n <= 9
  {
    (('0' as int) + n) as char
  }

  /** The node names the heading rule is registered for. */
  predicate IsHeadingName(nodeName: string)
  {
    |nodeName| == 2 && nodeName[0] == 'H' && '1' <= nodeName[1] <= '6'
  }

  /** `node.nodeName.charAt(1)`, used as the repeat count of the hashes. */
  function HeadingLevel(nodeName: string): (level: nat)
    requires IsHeadingName(nodeName)
    ensures 1 <= level <= 6 && Digit(level) == nodeName[1]
  {
    (nodeName[1] as int) - ('0' as int)
  }

  /** The Markdown line of a heading: hashes, one space, content, annotation. */
  function HeadingText(level: nat, content: string, node: Element): string
  {
    Hashes(level) + " " + content + AttrString(node)
  }

  /** The heading rule's replacement: a single-line heading becomes exactly
      one line of hashes, text and annotation between two blank lines on each
      side. */
  function HeadingMarkdown(nodeName: string, content: string, node: Element): (r: string)
    requires IsHeadingName(nodeName)
    ensures '\n' !in content && CleanElement(node) ==>
      Split(r, '\n') == ["", "", HeadingText(HeadingLevel(nodeName), content, node), "", ""]
  {
    var t := HeadingText(HeadingLevel(nodeName), content, node);
    assert '\n' !in content && CleanElement(node) ==> '\n' !in t by {
      if CleanElement(node) {
        AttrStringNoNewline(node);
      }
    }
    PaddedLines(t);
    "\n\n" + t + "\n\n"
  }

  /** The replacement shared by the paragraph rule and the other block rule:
      the inline form on a line of its own between blank lines. */
  function BlockMarkdown(content: string, node: Element): (r: string)
    ensures '\n' !in content && CleanElement(node) ==>
      Split(r, '\n') == ["", "", InlineMarkdown(content, node), "", ""]
  {
    var t := InlineMarkdown(content, node);
    PaddedLines(t);
    "\n\n" + t + "\n\n"
  }

  /** The inline rule's replacement: the content, then the annotation when
      the element has an id or a class, adding no line break of its own. */
  function InlineMarkdown(content: string, node: Element): (r: string)
    ensures StartsWith(r, content)
    ensures r == content <==> node.id == [] && ClassTokens(node.className) == []
    ensures CleanElement(node) ==> ('\n' in r <==> '\n' in content)
  {
    var r := content + AttrString(node);
    assert r[..|content|] == content;
    assert CleanElement(node) ==> ('\n' in r <==> '\n' in content) by {
      if CleanElement(node) {
        AttrStringNoNewline(node);
        assert forall c :: c in r <==> c in content || c in AttrString(node);
      }
    }
    r
  }

  lemma AttrStringNoNewline(node: Element)
    requires CleanElement(node)
    ensures '\n' !in AttrString(node)
  {
    if AttrString(node) != [] {
      AnnotationShape(node);
    }
  }

  lemma PaddedLines(t: string)
    ensures '\n' !in t ==> Split("\n\n" + t + "\n\n", '\n') == ["", "", t, "", ""]
  {
    if '\n' !in t {
      PaddedLine(t);
    }
  }

  lemma PaddedLine(t: string)
    requires '\n' !in t
    ensures Split("\n\n" + t + "\n\n", '\n') == ["", "", t, "", ""]
  {
    var parts := ["", "", t, "", ""];
    assert Join(parts[3..], "\n") == "\n";
    assert Join(parts[2..], "\n") == t + "\n" + "\n";
    assert Join(parts[1..], "\n") == "\n" + t + "\n\n";
    assert Join(parts, "\n") == "\n\n" + t + "\n\n";
    SplitJoin(parts, '\n');
  }

  // ---------------------------------------------------------------------------
  // Markdown to HTML: recognising annotated lines
  // ---------------------------------------------------------------------------

  /** The number of `#` that open the line. */
  function LeadingHashes(line: string): (n: nat)
    ensures n <= |line| && forall i :: 0 <= i < n ==> line[i] == '#'
    ensures n < |line| ==> line[n] != '#'
  {
    if line == [] || line[0] != '#' then 0 else 1 + LeadingHashes(line[1..])
  }

  /** Where the line's trailing whitespace begins (`\s*$`). */
  function LineEnd(line: string): (e: nat)
    ensures e <= |line|
  {
    |TrimEnd(line)|
  }

  /** An annotation `{#...}` or `{.…}` starts at `q`: `{`, `#` or `.`, at least
      one character, then a `}` that is the first after `q` and the last
      character before the trailing whitespace at `e`
      (`\{[#\.][^\}]+\}\s*$`). */
  predicate AttrAt(line: string, e: nat, q: int)
  {
    && 0 <= q && q + 4 <= e <= |line| && line[q] == '{' && (line[q + 1] == '#' || line[q + 1] == '.')
    && line[e - 1] == '}' && '}' !in line[q + 1..e - 1]
  }

  /** The first annotation start at or after `i`. */
  function FirstAttrFrom(line: string, e: nat, i: nat): (r: Option<nat>)
    ensures r.Some? ==> i <= r.value && AttrAt(line, e, r.value)
    ensures r.Some? ==> forall j :: i <= j < r.value ==> !AttrAt(line, e, j)
    ensures r.None? ==> forall j :: i <= j ==> !AttrAt(line, e, j)
    decreases |line| - i
  {
    if i >= |line| then None
    else if AttrAt(line, e, i) then Some(i)
    else FirstAttrFrom(line, e, i + 1)
  }

  lemma FirstAttrFromIs(line: string, e: nat, i: nat, q: nat)
    requires i <= q && AttrAt(line, e, q)
    requires forall j :: i <= j < q ==> line[j] != '{'
    ensures FirstAttrFrom(line, e, i) == Some(q)
  {
  }

  /** The text between the braces of the annotation starting at `q`. */
  function InnerAt(line: string, e: nat, q: nat): string
    requires AttrAt(line, e, q)
  {
    line[q + 1..e - 1]
  }

  /** What an annotated line yields: its heading level (0 for a paragraph),
      its trimmed text and the text between the annotation's braces. */
  datatype Hit = Hit(level: nat, content: string, inner: string)

  /** `^(#{1,6})\s+(.+?)\s*(\{[#\.][^\}]+\})\s*$` on one line. The hash run
      must be the whole leading run and be followed by whitespace. The lazy
      text ends at the first annotation start after its first character;
      only when there is none can a line holding nothing but the annotation
      still match, by giving the text one of at least two spaces. Either way
      the trimmed text is the trimmed stretch between hashes and annotation. */
  function HeadingMatch(line: string): (r: Option<Hit>)
    ensures r.Some? ==> 1 <= r.value.level <= 6
    ensures r.Some? ==> r.value.level == LeadingHashes(line) && IsTrimmed(r.value.content)
  {
    match HeadingStart(line)
    case None => None
    case Some(n) => HeadingBody(line, LineEnd(line), n, ContentStart(line, n))
  }

  /** `^(#{1,6})\s`: the length of the leading hash run, when it is 1 to 6
      and whitespace follows. */
  function HeadingStart(line: string): (r: Option<nat>)
    ensures r.Some? ==> 1 <= r.value <= 6 && r.value < |line|
  {
    var n := LeadingHashes(line);
    if n < 1 || 6 < n || n == |line| || !IsSpace(line[n]) then None else Some(n)
  }

  /** Where the whitespace after the hashes ends (`\s+` is greedy). */
  function ContentStart(line: string, n: nat): (s: nat)
    requires n <= |line|
    ensures n <= s <= |line|
  {
    |line| - |TrimStart(line[n..])|
  }

  /** The rest of the heading pattern once the hashes end at `n` and the
      whitespace after them ends at `s`. */
  function HeadingBody(line: string, e: nat, n: nat, s: nat): (r: Option<Hit>)
    requires n <= s <= |line|
    ensures r.Some? ==> r.value.level == n
  {
    match FirstAttrFrom(line, e, s + 1)
    case Some(q) => Some(Hit(n, Trim(line[n..q]), InnerAt(line, e, q)))
    case None =>
      if s >= n + 2 && AttrAt(line, e, s) then Some(Hit(n, Trim(line[n..s]), InnerAt(line, e, s)))
      else None
  }

  /** `^([^#\n].*?)(\{[#\.][^\}]+\})\s*$` on one line: the text is everything
      before the first annotation start after the first character. */
  function ParagraphMatch(line: string): (r: Option<Hit>)
    ensures r.Some? ==> r.value.level == 0
    ensures r.Some? ==> line != [] && line[0] != '#' && IsTrimmed(r.value.content)
  {
    if line == [] || line[0] == '#' then None
    else
      var e := LineEnd(line);
      match FirstAttrFrom(line, e, 1)
      case Some(q) => Some(Hit(0, Trim(line[..q]), InnerAt(line, e, q)))
      case None => None
  }

  /** A line without an opening brace carries no annotation. */
  lemma NoBraceNoMatch(line: string)
    requires '{' !in line
    ensures HeadingMatch(line).None? && ParagraphMatch(line).None?
  {
    assert forall e: nat, q :: !AttrAt(line, e, q);
  }

  /** An annotation closing a line is found at its opening brace. */
  lemma AnnotationAt(pre: string, inner: string)
    requires |inner| >= 2 && (inner[0] == '#' || inner[0] == '.') && '}' !in inner
    ensures LineEnd(pre + Braced(inner)) == |pre + Braced(inner)|
    ensures AttrAt(pre + Braced(inner), |pre + Braced(inner)|, |pre|)
    ensures InnerAt(pre + Braced(inner), |pre + Braced(inner)|, |pre|) == inner
  {
    var line := pre + Braced(inner);
    TrimEndPadded(line, []);
    assert line + [] == line;
    assert line[|pre| + 1..|line| - 1] == inner;
  }

  /** Searching from `i`, the first annotation is the closing one when the
      text from `i` up to it has no opening brace. */
  lemma FirstAttrAfter(pre: string, inner: string, i: nat)
    requires i <= |pre| && '{' !in pre[i..]
    requires |inner| >= 2 && (inner[0] == '#' || inner[0] == '.') && '}' !in inner
    ensures FirstAttrFrom(pre + Braced(inner), |pre + Braced(inner)|, i) == Some(|pre|)
  {
    var line := pre + Braced(inner);
    AnnotationAt(pre, inner);
    forall j | i <= j < |pre|
      ensures line[j] != '{'
    {
      assert line[j] == pre[i..][j - i];
    }
    FirstAttrFromIs(line, |line|, i, |pre|);
  }

  /** A heading written by the heading rule is recognised with its level,
      its text and its annotation. */
  lemma HeadingLineRoundTrip(level: nat, content: string, node: Element)
    requires 1 <= level <= 6
    requires content != [] && IsTrimmed(content) && '{' !in content
    requires CleanElement(node) && AttrString(node) != []
    ensures HeadingMatch(HeadingText(level, content, node)) == Some(Hit(level, content, AttrInner(node)))
  {
    var inner := AttrInner(node);
    AnnotationShape(node);
    var line := Hashes(level) + " " + content + " " + Braced(inner);
    assert HeadingText(level, content, node) == line;
    HeadingAnnotated(level, content, inner);
  }

  lemma HeadingAnnotated(level: nat, content: string, inner: string)
    requires 1 <= level <= 6
    requires content != [] && IsTrimmed(content) && '{' !in content
    requires |inner| >= 2 && (inner[0] == '#' || inner[0] == '.') && '}' !in inner
    ensures HeadingMatch(Hashes(level) + " " + content + " " + Braced(inner)) == Some(Hit(level, content, inner))
  {
    var pre := Hashes(level) + " " + content + " ";
    HeadingPrefix(level, content, Braced(inner));
    HeadingAttrFound(pre, Hashes(level), content, inner);
    HeadingMatchOf(pre + Braced(inner), level, |pre|, content, inner);
  }

  /** The heading pattern's answer, from its two stages. */
  lemma HeadingMatchOf(line: string, n: nat, q: nat, content: string, inner: string)
    requires HeadingStart(line) == Some(n) && ContentStart(line, n) == n + 1
    requires LineEnd(line) == |line| && FirstAttrFrom(line, |line|, n + 2) == Some(q)
    requires q <= |line| && Trim(line[n..q]) == content
    requires AttrAt(line, |line|, q) && InnerAt(line, |line|, q) == inner
    ensures HeadingMatch(line) == Some(Hit(n, content, inner))
  {
  }

  /** Hashes and one space before a non-blank text: the leading run is the
      hashes and the text starts right after the space. */
  lemma HeadingPrefix(level: nat, content: string, tail: string)
    requires 1 <= level <= 6 && content != [] && !IsSpace(content[0])
    ensures HeadingStart(Hashes(level) + " " + content + " " + tail) == Some(level)
    ensures ContentStart(Hashes(level) + " " + content + " " + tail, level) == level + 1
  {
    var line := Hashes(level) + " " + content + " " + tail;
    assert line[level] == ' ';
    assert LeadingHashes(line) == level;
    assert line[level..] == " " + (content + " " + tail);
    TrimStartPadded(" ", content + " " + tail);
  }

  /** In a heading line the annotation is found right after the text and
      the space, and the text between is the content. */
  lemma HeadingAttrFound(pre: string, h: string, content: string, inner: string)
    requires content != [] && IsTrimmed(content) && '{' !in content
    requires |inner| >= 2 && (inner[0] == '#' || inner[0] == '.') && '}' !in inner
    requires pre == h + " " + content + " "
    ensures LineEnd(pre + Braced(inner)) == |pre + Braced(inner)|
    ensures FirstAttrFrom(pre + Braced(inner), |pre + Braced(inner)|, |h| + 2) == Some(|pre|)
    ensures AttrAt(pre + Braced(inner), |pre + Braced(inner)|, |pre|)
    ensures InnerAt(pre + Braced(inner), |pre + Braced(inner)|, |pre|) == inner
    ensures Trim((pre + Braced(inner))[|h|..|pre|]) == content
  {
    HeadingTailFree(pre, h, content);
    FirstAttrAfter(pre, inner, |h| + 2);
    AnnotationAt(pre, inner);
    HeadingTextTrim(pre, h, content, Braced(inner));
  }

  lemma HeadingTailFree(pre: string, h: string, content: string)
    requires content != [] && '{' !in content && pre == h + " " + content + " "
    ensures |h| + 2 <= |pre| && '{' !in pre[|h| + 2..]
  {
    assert pre[|h| + 2..] == content[1..] + " ";
  }

  lemma HeadingTextTrim(pre: string, h: string, content: string, tail: string)
    requires IsTrimmed(content) && pre == h + " " + content + " "
    ensures |h| <= |pre| && Trim((pre + tail)[|h|..|pre|]) == content
  {
    assert (pre + tail)[|h|..|pre|] == " " + content + " ";
    TrimPadded(" ", content, " ");
  }

  /** A paragraph written by the paragraph rule is recognised with its text
      and its annotation, provided its text does not open with `#`. */
  lemma ParagraphLineRoundTrip(content: string, node: Element)
    requires content != [] && content[0] != '#' && IsTrimmed(content) && '{' !in content
    requires CleanElement(node) && AttrString(node) != []
    ensures ParagraphMatch(InlineMarkdown(content, node)) == Some(Hit(0, content, AttrInner(node)))
  {
    var inner := AttrInner(node);
    AnnotationShape(node);
    assert InlineMarkdown(content, node) == content + " " + Braced(inner);
    ParagraphAnnotated(content, inner);
  }

  lemma ParagraphAnnotated(content: string, inner: string)
    requires content != [] && content[0] != '#' && IsTrimmed(content) && '{' !in content
    requires |inner| >= 2 && (inner[0] == '#' || inner[0] == '.') && '}' !in inner
    ensures ParagraphMatch(content + " " + Braced(inner)) == Some(Hit(0, content, inner))
  {
    var pre := content + " ";
    var line := pre + Braced(inner);
    assert pre[1..] == content[1..] + " ";
    FirstAttrAfter(pre, inner, 1);
    AnnotationAt(pre, inner);
    assert Trim(line[..|pre|]) == content by {
      assert line[..|pre|] == [] + content + " ";
      TrimPadded([], content, " ");
    }
    ParagraphMatchOf(line, |pre|, content, inner);
  }

  /** The paragraph pattern's answer, from where its annotation is found. */
  lemma ParagraphMatchOf(line: string, q: nat, content: string, inner: string)
    requires line != [] && line[0] != '#'
    requires LineEnd(line) == |line| && FirstAttrFrom(line, |line|, 1) == Some(q)
    requires q <= |line| && Trim(line[..q]) == content
    requires AttrAt(line, |line|, q) && InnerAt(line, |line|, q) == inner
    ensures ParagraphMatch(line) == Some(Hit(0, content, inner))
  {
  }
}

=== FILE: css_formatter.dfy ===
/** The stylesheet formatter behind the editor's "format document" command:
    five regular-expression replacements and a trim, each of which rewrites
    whitespace only. Each replacement is modelled by the left-to-right scan a
    global `replace` performs: at each position it tries the pattern, and on a
    match it writes the replacement and resumes after the match; otherwise it
    keeps one character and moves on. */
module CssFormatter {
  import opened Strings

  /** The length of the whitespace run `s` starts with; `\s*` matches
      exactly this much, since it is greedy. */
  function SpaceRun(s: string): (n: nat)
    ensures n <= |s|
    ensures forall i :: 0 <= i < n ==> IsSpace(s[i])
    ensures n < |s| ==> !IsSpace(s[n])
    ensures s != [] && IsSpace(s[0]) ==> n >= 1
  {
    if s == [] || !IsSpace(s[0]) then 0
    else
      var n := SpaceRun(s[1..]);
      assert forall i :: 0 < i <= n ==> s[i] == s[1..][i - 1];
      1 + n
  }

  /** `.replace(/\s+/g, ' ')`: each whitespace run becomes one space. */
  function Squash(s: string): string
    decreases |s|
  {
    if s == [] then []
    else if IsSpace(s[0]) then " " + Squash(s[SpaceRun(s)..])
    else [s[0]] + Squash(s[1..])
  }

  /** `.replace(/\s*c\s*\/g, rep)` for a non-space `c`: a `c` together with
      the whitespace around it becomes `rep`. At a position where `\s*`
      takes a run not followed by `c`, no shorter run helps, since `c` is
      not whitespace. */
  function Around(s: string, c: char, rep: string): string
    decreases |s|
  {
    if s == [] then []
    else
      var k := SpaceRun(s);
      if k < |s| && s[k] == c then
        var t := s[k + 1..];
        rep + Around(t[SpaceRun(t)..], c, rep)
      else [s[0]] + Around(s[1..], c, rep)
  }

  /** `.replace(/c\s*\/g, rep)`: a `c` together with the whitespace after it
      becomes `rep`. */
  function After(s: string, c: char, rep: string): string
    decreases |s|
  {
    if s == [] then []
    else if s[0] == c then
      var t := s[1..];
      rep + After(t[SpaceRun(t)..], c, rep)
    else [s[0]] + After(s[1..], c, rep)
  }

  /** How much of `w` lies up to and including its last line feed. */
  function LastNewline(w: string): (m: nat)
    ensures m <= |w|
    ensures m > 0 ==> w[m - 1] == '\n'
    ensures forall j :: m <= j < |w| ==> w[j] != '\n'
  {
    if w == [] then 0
    else if w[|w| - 1] == '\n' then |w|
    else LastNewline(w[..|w| - 1])
  }

  /** `.replace(/\n\s*\n/g, '\n')`. A match starts at a line feed; the greedy
      `\s*` backs off to the last line feed of the whitespace that follows,
      so everything from the first to the last line feed of the run becomes
      one line feed. When the run holds no further line feed there is no
      match at this position. */
  function Collapse(s: string): string
    decreases |s|
  {
    if s == [] then []
    else if s[0] == '\n' then
      var t := s[1..];
      var m := LastNewline(t[..SpaceRun(t)]);
      "\n" + Collapse(t[m..])
    else [s[0]] + Collapse(s[1..])
  }

  const OpenRep: string := " {\n  "
  const SemicolonRep: string := ";\n  "
  const CloseRep: string := "\n}\n"

  /** The text before the final trim. */
  function Spaced(text: string): string
  {
    Collapse(Around(After(Around(Squash(text), '{', OpenRep), ';', SemicolonRep), '}', CloseRep))
  }

  /** `formatCSSCode`. No step can throw on a string, so the error path
      that returns the text unchanged is never taken. */
  function Format(text: string): (r: string)
    ensures IsTrimmed(r)
  {
    Trim(Spaced(text))
  }

  // ---------------------------------------------------------------------------
  // Only whitespace changes
  // ---------------------------------------------------------------------------

  /** A `c` with whitespace on either side has just `c` as its text. */
  lemma NonSpacePadded(w1: string, c: char, w2: string, t: string)
    requires AllSpace(w1) && AllSpace(w2) && !IsSpace(c)
    ensures NonSpace(w1 + [c] + w2 + t) == [c] + NonSpace(t)
  {
    assert w1 + [c] + w2 + t == w1 + ([c] + (w2 + t));
    NonSpaceAfterSpace(w1, [c] + (w2 + t));
    assert ([c] + (w2 + t))[1..] == w2 + t;
    NonSpaceAfterSpace(w2, t);
  }

  /** A string splits at the end of its whitespace run. */
  lemma SplitAtRun(s: string)
    ensures AllSpace(s[..SpaceRun(s)]) && s == s[..SpaceRun(s)] + s[SpaceRun(s)..]
  {
  }

  lemma RepTexts()
    ensures NonSpace(OpenRep) == "{"
    ensures NonSpace(SemicolonRep) == ";"
    ensures NonSpace(CloseRep) == "}"
  {
    OpenText();
    SemicolonText();
    CloseText();
  }

  lemma OpenText()
    ensures NonSpace(OpenRep) == "{"
  {
    assert OpenRep == " " + ("{" + "\n  ");
    NonSpaceAfterSpace(" ", "{" + "\n  ");
    NonSpaceAfterSpace("\n  ", []);
    assert ("{" + "\n  ")[1..] == "\n  " + [];
  }

  lemma SemicolonText()
    ensures NonSpace(SemicolonRep) == ";"
  {
    NonSpaceAfterSpace("\n  ", []);
    assert SemicolonRep[1..] == "\n  " + [];
  }

  lemma CloseText()
    ensures NonSpace(CloseRep) == "}"
  {
    assert CloseRep == "\n" + ("}" + "\n");
    NonSpaceAfterSpace("\n", "}" + "\n");
    NonSpaceAfterSpace("\n", []);
    assert ("}" + "\n")[1..] == "\n" + [];
  }

  lemma {:induction false} SquashText(s: string)
    ensures NonSpace(Squash(s)) == NonSpace(s)
    decreases |s|
  {
    if s != [] {
      if IsSpace(s[0]) {
        var k := SpaceRun(s);
        SquashText(s[k..]);
        SplitAtRun(s);
        NonSpaceAfterSpace(s[..k], s[k..]);
        NonSpaceAfterSpace(" ", Squash(s[k..]));
      } else {
        SquashText(s[1..]);
        NonSpaceFirst(s, Squash(s[1..]));
      }
    }
  }

  /** The text of a match of `\s*c\s*` followed by the rest. */
  lemma MatchText(s: string, k: nat, c: char, j: nat)
    requires k < |s| && s[k] == c && !IsSpace(c)
    requires AllSpace(s[..k]) && j == SpaceRun(s[k + 1..])
    ensures NonSpace(s) == [c] + NonSpace(s[k + 1..][j..])
  {
    var t := s[k + 1..];
    SplitAtRun(t);
    NonSpaceAfterSpace(t[..j], t[j..]);
    assert s[k..][1..] == t;
    assert s == s[..k] + s[k..];
    NonSpaceAfterSpace(s[..k], s[k..]);
  }

  lemma {:induction false} AroundText(s: string, c: char, rep: string)
    requires !IsSpace(c) && NonSpace(rep) == [c]
    ensures NonSpace(Around(s, c, rep)) == NonSpace(s)
    decreases |s|
  {
    if s != [] {
      var k := SpaceRun(s);
      if k < |s| && s[k] == c {
        var t := s[k + 1..];
        var j := SpaceRun(t);
        AroundText(t[j..], c, rep);
        NonSpaceConcat(rep, Around(t[j..], c, rep));
        SplitAtRun(s);
        MatchText(s, k, c, j);
      } else {
        AroundText(s[1..], c, rep);
        NonSpaceFirst(s, Around(s[1..], c, rep));
      }
    }
  }

  lemma {:induction false} AfterText(s: string, c: char, rep: string)
    requires !IsSpace(c) && NonSpace(rep) == [c]
    ensures NonSpace(After(s, c, rep)) == NonSpace(s)
    decreases |s|
  {
    if s != [] {
      if s[0] == c {
        var t := s[1..];
        var j := SpaceRun(t);
        AfterText(t[j..], c, rep);
        NonSpaceConcat(rep, After(t[j..], c, rep));
        SplitAtRun(t);
        assert s == [] + [c] + t[..j] + t[j..];
        NonSpacePadded([], c, t[..j], t[j..]);
      } else {
        AfterText(s[1..], c, rep);
        NonSpaceFirst(s, After(s[1..], c, rep));
      }
    }
  }

  lemma {:induction false} CollapseText(s: string)
    ensures NonSpace(Collapse(s)) == NonSpace(s)
    decreases |s|
  {
    if s != [] {
      if s[0] == '\n' {
        var t := s[1..];
        var m := LastNewline(t[..SpaceRun(t)]);
        CollapseText(t[m..]);
        NonSpaceSkip('\n', Collapse(t[m..]));
        CollapseCutText(s);
      } else {
        CollapseText(s[1..]);
        NonSpaceFirst(s, Collapse(s[1..]));
      }
    }
  }

  /** The line feeds the collapse drops are whitespace. */
  lemma CollapseCutText(s: string)
    requires s != [] && s[0] == '\n'
    ensures var t := s[1..];
      NonSpace(s) == NonSpace(t[LastNewline(t[..SpaceRun(t)])..])
  {
    var t := s[1..];
    var m := LastNewline(t[..SpaceRun(t)]);
    assert s == s[..1 + m] + t[m..];
    assert AllSpace(s[..1 + m]) by {
      assert forall i :: 0 < i < 1 + m ==> s[i] == t[i - 1];
    }
    NonSpaceAfterSpace(s[..1 + m], t[m..]);
  }

  /** Formatting keeps every non-whitespace character, in order, and adds
      none. */
  lemma FormatKeepsText(text: string)
    ensures NonSpace(Format(text)) == NonSpace(text)
  {
    RepTexts();
    var s1 := Squash(text);
    var s2 := Around(s1, '{', OpenRep);
    var s3 := After(s2, ';', SemicolonRep);
    var s4 := Around(s3, '}', CloseRep);
    SquashText(text);
    AroundText(s1, '{', OpenRep);
    AfterText(s2, ';', SemicolonRep);
    AroundText(s3, '}', CloseRep);
    CollapseText(s4);
    NonSpaceTrim(Collapse(s4));
  }

  // ---------------------------------------------------------------------------
  // Only spaces and line feeds
  // ---------------------------------------------------------------------------

  /** The only whitespace in `s` is spaces and line feeds. */
  predicate PlainSpace(s: string)
  {
    forall x :: x in s && IsSpace(x) ==> x == ' ' || x == '\n'
  }

  lemma {:induction false} SquashPlain(s: string)
    ensures forall x :: x in Squash(s) && IsSpace(x) ==> x == ' '
    decreases |s|
  {
    if s != [] {
      if IsSpace(s[0]) {
        SquashPlain(s[SpaceRun(s)..]);
      } else {
        SquashPlain(s[1..]);
      }
    }
  }

  lemma SuffixChars(s: string, j: nat)
    requires j <= |s|
    ensures forall x :: x in s[j..] ==> x in s
  {
    assert forall i :: 0 <= i < |s| - j ==> s[j..][i] == s[j + i];
  }

  /** Every character of `out` comes from `s` or from `rep`. */
  predicate From(out: string, s: string, rep: string)
  {
    forall x :: x in out ==> x in s || x in rep
  }

  lemma FromMatch(s: string, j: nat, rest: string, rep: string)
    requires j <= |s| && From(rest, s[j..], rep)
    ensures From(rep + rest, s, rep)
  {
    SuffixChars(s, j);
  }

  lemma FromSkip(s: string, rest: string, rep: string)
    requires s != [] && From(rest, s[1..], rep)
    ensures From([s[0]] + rest, s, rep)
  {
    SuffixChars(s, 1);
  }

  lemma {:induction false} AroundChars(s: string, c: char, rep: string)
    ensures From(Around(s, c, rep), s, rep)
    decreases |s|
  {
    if s != [] {
      var k := SpaceRun(s);
      if k < |s| && s[k] == c {
        var t := s[k + 1..];
        var j := SpaceRun(t);
        AroundChars(t[j..], c, rep);
        assert t[j..] == s[k + 1 + j..];
        FromMatch(s, k + 1 + j, Around(t[j..], c, rep), rep);
      } else {
        AroundChars(s[1..], c, rep);
        FromSkip(s, Around(s[1..], c, rep), rep);
      }
    }
  }

  lemma {:induction false} AfterChars(s: string, c: char, rep: string)
    ensures From(After(s, c, rep), s, rep)
    decreases |s|
  {
    if s != [] {
      if s[0] == c {
        var t := s[1..];
        var j := SpaceRun(t);
        AfterChars(t[j..], c, rep);
        assert t[j..] == s[1 + j..];
        FromMatch(s, 1 + j, After(t[j..], c, rep), rep);
      } else {
        AfterChars(s[1..], c, rep);
        FromSkip(s, After(s[1..], c, rep), rep);
      }
    }
  }

  lemma {:induction false} CollapseChars(s: string)
    ensures From(Collapse(s), s, "\n")
    decreases |s|
  {
    if s != [] {
      if s[0] == '\n' {
        var t := s[1..];
        var m := LastNewline(t[..SpaceRun(t)]);
        CollapseChars(t[m..]);
        assert t[m..] == s[1 + m..];
        FromMatch(s, 1 + m, Collapse(t[m..]), "\n");
      } else {
        CollapseChars(s[1..]);
        FromSkip(s, Collapse(s[1..]), "\n");
      }
    }
  }

  lemma TrimChars(s: string)
    ensures forall x :: x in Trim(s) ==> x in s
  {
    var k := TrimInfix(s);
    assert forall i :: 0 <= i < |Trim(s)| ==> Trim(s)[i] == s[k + i];
  }

  /** The formatted text's whitespace is spaces and line feeds only. */
  lemma FormatPlain(text: string)
    ensures PlainSpace(Format(text))
  {
    var s1 := Squash(text);
    var s2 := Around(s1, '{', OpenRep);
    var s3 := After(s2, ';', SemicolonRep);
    var s4 := Around(s3, '}', CloseRep);
    var s5 := Collapse(s4);
    SquashPlain(text);
    AroundChars(s1, '{', OpenRep);
    AfterChars(s2, ';', SemicolonRep);
    AroundChars(s3, '}', CloseRep);
    CollapseChars(s4);
    TrimChars(s5);
    assert PlainSpace(OpenRep) && PlainSpace(SemicolonRep) && PlainSpace(CloseRep);
  }

  // ---------------------------------------------------------------------------
  // Line feeds next to `;` and `}`
  // ---------------------------------------------------------------------------

  /** Every `c` in `s` is directly followed by a line feed: `s` does not end
      in `c`, and each pair of neighbours starting with `c` ends with a line
      feed. The neighbours are bound separately so that one character never
      leads the solver on to the next. */
  predicate FeedAfter(s: string, c: char)
  {
    (s != [] ==> s[|s| - 1] != c) &&
    forall i, j {:trigger s[i], s[j]} :: 0 <= i && j == i + 1 < |s| && s[i] == c ==> s[j] == '\n'
  }

  /** Every `c` in `s` directly follows a line feed; at the start of `s`,
      `nl` says whether what comes before `s` ends in one. */
  predicate FeedBefore(s: string, c: char, nl: bool)
  {
    (s != [] && s[0] == c ==> nl) &&
    forall i, j {:trigger s[i], s[j]} :: 0 <= j && i == j + 1 < |s| && s[i] == c ==> s[j] == '\n'
  }

  lemma FeedAfterSuffix(s: string, c: char, j: nat)
    requires FeedAfter(s, c) && j <= |s|
    ensures FeedAfter(s[j..], c)
  {
    assert forall i :: 0 <= i < |s| - j ==> s[j..][i] == s[j + i];
  }

  lemma FeedBeforeSuffix(s: string, c: char, nl: bool, j: nat)
    requires FeedBefore(s, c, nl) && 0 < j <= |s|
    ensures FeedBefore(s[j..], c, s[j - 1] == '\n')
  {
    assert forall i :: 0 <= i < |s| - j ==> s[j..][i] == s[j + i];
  }

  lemma FeedAfterCons(x: char, b: string, c: char)
    requires x == c ==> b != [] && b[0] == '\n'
    requires FeedAfter(b, c)
    ensures FeedAfter([x] + b, c)
  {
    assert forall i :: 1 <= i < |b| + 1 ==> ([x] + b)[i] == b[i - 1];
  }

  lemma FeedAfterConcat(a: string, b: string, c: char)
    requires FeedAfter(a, c) && FeedAfter(b, c)
    ensures FeedAfter(a + b, c)
  {
    assert forall i :: |a| <= i < |a| + |b| ==> (a + b)[i] == b[i - |a|];
  }

  lemma FeedBeforeCons(x: char, b: string, c: char, nl: bool)
    requires x == c ==> nl
    requires FeedBefore(b, c, x == '\n')
    ensures FeedBefore([x] + b, c, nl)
  {
    assert forall i :: 1 <= i < |b| + 1 ==> ([x] + b)[i] == b[i - 1];
  }

  lemma FeedBeforeConcat(a: string, b: string, c: char, nl: bool)
    requires a != [] && FeedBefore(a, c, nl) && FeedBefore(b, c, a[|a| - 1] == '\n')
    ensures FeedBefore(a + b, c, nl)
  {
    assert forall i :: 0 <= i < |a| ==> (a + b)[i] == a[i];
    assert forall i :: |a| <= i < |a| + |b| ==> (a + b)[i] == b[i - |a|];
  }

  /** A `c` at the start needs nothing before it only if `nl` holds. */
  lemma FeedBeforeWeaken(s: string, c: char, nl: bool)
    requires FeedBefore(s, c, false)
    ensures FeedBefore(s, c, nl)
  {
  }

  /** The `;` step leaves a line feed after every `;`. */
  lemma {:induction false} AfterFeeds(s: string)
    ensures FeedAfter(After(s, ';', SemicolonRep), ';')
    decreases |s|
  {
    if s != [] {
      if s[0] == ';' {
        var t := s[1..];
        AfterFeeds(t[SpaceRun(t)..]);
        FeedAfterConcat(SemicolonRep, After(t[SpaceRun(t)..], ';', SemicolonRep), ';');
      } else {
        AfterFeeds(s[1..]);
        FeedAfterCons(s[0], After(s[1..], ';', SemicolonRep), ';');
      }
    }
  }

  /** The scan of a text that starts with a line feed writes a line feed
      first, whether or not it matches there. */
  lemma AroundHead(t: string, c: char, rep: string)
    requires t != [] && t[0] == '\n' && rep != [] && rep[0] == '\n'
    ensures Around(t, c, rep) != [] && Around(t, c, rep)[0] == '\n'
  {
  }

  /** The `}` step puts a line feed on both sides of every `}`. */
  lemma {:induction false} CloseFeeds(s: string)
    ensures FeedAfter(Around(s, '}', CloseRep), '}')
    ensures FeedBefore(Around(s, '}', CloseRep), '}', false)
    decreases |s|
  {
    if s != [] {
      var k := SpaceRun(s);
      if k < |s| && s[k] == '}' {
        var t := s[k + 1..];
        var u := t[SpaceRun(t)..];
        CloseFeeds(u);
        CloseMatchFeeds(Around(u, '}', CloseRep));
      } else {
        CloseFeeds(s[1..]);
        CloseSkipFeeds(s[0], Around(s[1..], '}', CloseRep));
      }
    }
  }

  lemma CloseMatchFeeds(rest: string)
    requires FeedAfter(rest, '}') && FeedBefore(rest, '}', false)
    ensures FeedAfter(CloseRep + rest, '}') && FeedBefore(CloseRep + rest, '}', false)
  {
    FeedAfterConcat(CloseRep, rest, '}');
    FeedBeforeWeaken(rest, '}', true);
    FeedBeforeConcat(CloseRep, rest, '}', false);
  }

  lemma CloseSkipFeeds(x: char, rest: string)
    requires x != '}' && FeedAfter(rest, '}') && FeedBefore(rest, '}', false)
    ensures FeedAfter([x] + rest, '}') && FeedBefore([x] + rest, '}', false)
  {
    FeedAfterCons(x, rest, '}');
    FeedBeforeWeaken(rest, '}', x == '\n');
    FeedBeforeCons(x, rest, '}', false);
  }

  /** The `}` step keeps a line feed after every `;`: where it removes the
      whitespace after a `;`, it writes the line feed that opens its
      replacement. */
  lemma {:induction false} CloseKeepsFeeds(s: string)
    requires FeedAfter(s, ';')
    ensures FeedAfter(Around(s, '}', CloseRep), ';')
    decreases |s|
  {
    if s != [] {
      var k := SpaceRun(s);
      if k < |s| && s[k] == '}' {
        var t := s[k + 1..];
        var j := SpaceRun(t);
        FeedAfterSuffix(s, ';', k + 1 + j);
        assert s[k + 1 + j..] == t[j..];
        CloseKeepsFeeds(t[j..]);
        FeedAfterConcat(CloseRep, Around(t[j..], '}', CloseRep), ';');
      } else {
        FeedAfterSuffix(s, ';', 1);
        CloseKeepsFeeds(s[1..]);
        if s[0] == ';' {
          AroundHead(s[1..], '}', CloseRep);
        }
        FeedAfterCons(s[0], Around(s[1..], '}', CloseRep), ';');
      }
    }
  }

  /** What follows the collapsed line feeds: the rest of the text after the
      last line feed of the run. */
  lemma CollapseCut(s: string)
    requires s != [] && s[0] == '\n'
    ensures var t := s[1..];
      var m := LastNewline(t[..SpaceRun(t)]);
      s[1 + m..] == t[m..] && s[m] == '\n'
  {
    var t := s[1..];
    var m := LastNewline(t[..SpaceRun(t)]);
    if m > 0 {
      assert t[..SpaceRun(t)][m - 1] == t[m - 1];
    }
  }

  lemma {:induction false} CollapseFeedAfter(s: string, c: char)
    requires c != '\n' && FeedAfter(s, c)
    ensures FeedAfter(Collapse(s), c)
    decreases |s|
  {
    if s != [] {
      if s[0] == '\n' {
        var t := s[1..];
        var m := LastNewline(t[..SpaceRun(t)]);
        CollapseCut(s);
        FeedAfterSuffix(s, c, 1 + m);
        CollapseFeedAfter(t[m..], c);
        FeedAfterCons('\n', Collapse(t[m..]), c);
      } else {
        FeedAfterSuffix(s, c, 1);
        CollapseFeedAfter(s[1..], c);
        FeedAfterCons(s[0], Collapse(s[1..]), c);
      }
    }
  }

  lemma {:induction false} CollapseFeedBefore(s: string, c: char, nl: bool)
    requires c != '\n' && FeedBefore(s, c, nl)
    ensures FeedBefore(Collapse(s), c, nl)
    decreases |s|
  {
    if s != [] {
      if s[0] == '\n' {
        var t := s[1..];
        var m := LastNewline(t[..SpaceRun(t)]);
        CollapseCut(s);
        FeedBeforeSuffix(s, c, nl, 1 + m);
        CollapseFeedBefore(t[m..], c, true);
        FeedBeforeCons('\n', Collapse(t[m..]), c, nl);
      } else {
        FeedBeforeSuffix(s, c, nl, 1);
        assert s[0] == c ==> nl;
        CollapseFeedBefore(s[1..], c, false);
        FeedBeforeCons(s[0], Collapse(s[1..]), c, nl);
      }
    }
  }

  /** Trimming keeps the neighbours of every character inside the result. */
  lemma TrimFeeds(s: string, c: char)
    ensures FeedAfter(s, c) ==>
      forall i :: 0 <= i < |Trim(s)| - 1 && Trim(s)[i] == c ==> Trim(s)[i + 1] == '\n'
    ensures FeedBefore(s, c, false) ==>
      forall i :: 0 < i < |Trim(s)| && Trim(s)[i] == c ==> Trim(s)[i - 1] == '\n'
  {
    var k := TrimInfix(s);
    assert forall i :: 0 <= i < |Trim(s)| ==> Trim(s)[i] == s[k + i];
  }

  /** In the formatted text every `;` is followed by a line feed, and every
      `}` has a line feed on each side, except at the ends of the text. */
  lemma FormatFeeds(text: string)
    ensures var r := Format(text);
      forall i :: 0 <= i < |r| - 1 && r[i] == ';' ==> r[i + 1] == '\n'
    ensures var r := Format(text);
      forall i :: 0 <= i < |r| - 1 && r[i] == '}' ==> r[i + 1] == '\n'
    ensures var r := Format(text);
      forall i :: 0 < i < |r| && r[i] == '}' ==> r[i - 1] == '\n'
  {
    var s3 := After(Around(Squash(text), '{', OpenRep), ';', SemicolonRep);
    var s4 := Around(s3, '}', CloseRep);
    AfterFeeds(Around(Squash(text), '{', OpenRep));
    CloseKeepsFeeds(s3);
    CloseFeeds(s3);
    CollapseFeedAfter(s4, ';');
    CollapseFeedAfter(s4, '}');
    CollapseFeedBefore(s4, '}', false);
    TrimFeeds(Collapse(s4), ';');
    TrimFeeds(Collapse(s4), '}');
  }

  // ---------------------------------------------------------------------------
  // No blank lines
  // ---------------------------------------------------------------------------

  /** The whitespace `s` starts with holds no line feed. */
  predicate NoFeedInRun(s: string)
    decreases |s|
  {
    s == [] || !IsSpace(s[0]) || (s[0] != '\n' && NoFeedInRun(s[1..]))
  }

  /** After every line feed, the whitespace up to the next other character
      holds no further line feed. */
  predicate Sparse(s: string)
  {
    forall i :: 0 <= i < |s| && s[i] == '\n' ==> NoFeedInRun(s[i + 1..])
  }

  /** Whitespace without line feeds, then a non-space or the end. */
  lemma {:induction false} NoFeedInRunOf(u: string, n: nat)
    requires n <= |u|
    requires forall j :: 0 <= j < n ==> IsSpace(u[j]) && u[j] != '\n'
    requires n == |u| || !IsSpace(u[n])
    ensures NoFeedInRun(u)
    decreases n
  {
    if n > 0 {
      assert forall j :: 0 <= j < n - 1 ==> u[1..][j] == u[j + 1];
      NoFeedInRunOf(u[1..], n - 1);
    }
  }

  /** What the collapse resumes on starts with whitespace free of line feeds. */
  lemma AfterLastNewline(t: string)
    ensures NoFeedInRun(t[LastNewline(t[..SpaceRun(t)])..])
  {
    var k := SpaceRun(t);
    var m := LastNewline(t[..k]);
    var u := t[m..];
    forall j | 0 <= j < k - m
      ensures IsSpace(u[j]) && u[j] != '\n'
    {
      assert u[j] == t[..k][m + j];
    }
    NoFeedInRunOf(u, k - m);
  }

  lemma {:induction false} CollapseSparse(s: string)
    ensures Sparse(Collapse(s))
    ensures NoFeedInRun(s) ==> NoFeedInRun(Collapse(s))
    decreases |s|
  {
    if s != [] {
      if s[0] == '\n' {
        var t := s[1..];
        var m := LastNewline(t[..SpaceRun(t)]);
        var rest := Collapse(t[m..]);
        AfterLastNewline(t);
        CollapseSparse(t[m..]);
        var r := "\n" + rest;
        forall i | 0 <= i < |r| && r[i] == '\n'
          ensures NoFeedInRun(r[i + 1..])
        {
          assert r[i + 1..] == rest[i..];
          if i > 0 {
            assert rest[i - 1] == '\n';
          }
        }
      } else {
        var rest := Collapse(s[1..]);
        CollapseSparse(s[1..]);
        var r := [s[0]] + rest;
        forall i | 0 <= i < |r| && r[i] == '\n'
          ensures NoFeedInRun(r[i + 1..])
        {
          assert r[i + 1..] == rest[i..];
          assert rest[i - 1] == '\n';
        }
        assert r[1..] == rest;
      }
    }
  }

  lemma {:induction false} NoFeedInRunPrefix(t: string, n: nat)
    requires NoFeedInRun(t) && n <= |t|
    ensures NoFeedInRun(t[..n])
    decreases n
  {
    if n > 0 && IsSpace(t[0]) {
      NoFeedInRunPrefix(t[1..], n - 1);
      assert t[..n][1..] == t[1..][..n - 1];
    }
  }

  lemma TrimSparse(s: string)
    requires Sparse(s)
    ensures Sparse(Trim(s))
  {
    var k := TrimInfix(s);
    var r := Trim(s);
    forall i | 0 <= i < |r| && r[i] == '\n'
      ensures NoFeedInRun(r[i + 1..])
    {
      assert r[i] == s[k + i];
      assert r[i + 1..] == s[k + i + 1..][..|r| - i - 1];
      NoFeedInRunPrefix(s[k + i + 1..], |r| - i - 1);
    }
  }

  /** Between a line feed and a later one there is something other than
      whitespace. */
  lemma {:induction false} NoFeedInRunSpan(t: string, m: nat)
    requires NoFeedInRun(t) && m < |t| && t[m] == '\n'
    ensures !AllSpace(t[..m])
    decreases m
  {
    if m > 0 && AllSpace(t[..m]) {
      assert t[0] == t[..m][0];
      assert t[1..][..m - 1] == t[..m][1..];
      NoFeedInRunSpan(t[1..], m - 1);
    }
  }

  /** The formatted text has no blank line: between any two of its line
      feeds there is a character that is not whitespace. */
  lemma FormatNoBlankLine(text: string)
    ensures var r := Format(text);
      forall i, j :: 0 <= i < j < |r| && r[i] == '\n' && r[j] == '\n' ==> !AllSpace(r[i + 1..j])
  {
    var s5 := Spaced(text);
    CollapseSparse(Around(After(Around(Squash(text), '{', OpenRep), ';', SemicolonRep), '}', CloseRep));
    TrimSparse(s5);
    var r := Format(text);
    forall i, j | 0 <= i < j < |r| && r[i] == '\n' && r[j] == '\n'
      ensures !AllSpace(r[i + 1..j])
    {
      assert r[i + 1..][j - i - 1] == r[j];
      assert r[i + 1..][..j - i - 1] == r[i + 1..j];
      NoFeedInRunSpan(r[i + 1..], j - i - 1);
    }
  }
}

=== FILE: css_parser.dfy ===
/** The CSS rule store of `src/utils/css-parser.js`: `parseCSS` reads a
    stylesheet into an insertion-ordered table selector -> (property -> value)
    and `stringifyCSS` writes such a table back out. */
module CssParser {
  import opened Maybe
  import opened Strings
  import opened Assoc

  type Declarations = Table<string>
  type Rules = Table<Declarations>

  // ---------------------------------------------------------------------------
  // Comment removal: cssText.replace(/\/\*[\s\S]*?\*\//g, '')
  // ---------------------------------------------------------------------------

  // No comment opener (slash, star) occurs anywhere in `s`.
  predicate NoCommentOpen(s: string)
  {
    forall i :: 0 <= i < |s| - 1 ==> !(s[i] == '/' && s[i + 1] == '*')
  }

  // Every comment opener (slash, star) that has a later closer (star, slash)
  // is deleted together with the shortest text up to and including that
  // closer; scanning resumes after it.
  function StripComments(s: string): (r: string)
    ensures |r| <= |s|
    ensures NoCommentOpen(s) ==> r == s
    decreases |s|
  {
    if |s| < 2 then s
    else if s[..2] == "/*" then
      assert s[0] == '/' && s[1] == '*' by { assert s[..2][0] == s[0] && s[..2][1] == s[1]; }
      match IndexOf(s[2..], "*/")
      case Some(k) => StripComments(s[2 + k + 2..])
      case None => [s[0]] + StripComments(s[1..])
    else
      assert NoCommentOpen(s) ==> NoCommentOpen(s[1..]);
      [s[0]] + StripComments(s[1..])
  }

  // ---------------------------------------------------------------------------
  // Block matching: cssText.match(/[^{}]+\{[^{}]+\}/g) || []
  // ---------------------------------------------------------------------------

  predicate IsBrace(c: char)
  {
    c == '{' || c == '}'
  }

  predicate BraceFree(s: string)
  {
    forall i :: 0 <= i < |s| ==> !IsBrace(s[i])
  }

  /** Length of the longest brace-free prefix of `s` (what `[^{}]+` consumes). */
  function FreeRun(s: string): (n: nat)
    ensures n <= |s| && BraceFree(s[..n])
    ensures n < |s| ==> IsBrace(s[n])
  {
    if s == [] || IsBrace(s[0]) then 0
    else
      var n := 1 + FreeRun(s[1..]);
      assert s[..n] == [s[0]] + s[1..][..n - 1];
      n
  }

  /** A text `/[^{}]+\{[^{}]+\}/` matches as a whole: a non-empty brace-free
      selector part, `{`, a non-empty brace-free body, `}`. */
  predicate IsBlock(b: string)
  {
    var j := FreeRun(b);
    0 < j && j + 2 < |b| && b[j] == '{' && b[|b| - 1] == '}' && BraceFree(b[j + 1..|b| - 1])
  }

  /** The length of the regex match anchored at the start of `s`, if any. */
  function BlockAt(s: string): (r: Option<nat>)
    ensures r.Some? ==> 0 < r.value <= |s| && IsBlock(s[..r.value])
  {
    var j := FreeRun(s);
    if j == 0 || j == |s| || s[j] != '{' then None
    else
      var k := j + 1 + FreeRun(s[j + 1..]);
      if k == j + 1 || k == |s| || s[k] != '}' then None
      else
        assert s[..k + 1][..j] == s[..j];
        assert FreeRun(s[..k + 1]) == j by { FreeRunPrefix(s[..j], s[j..k + 1]); }
        assert s[..k + 1][j + 1..k] == s[j + 1..][..k - j - 1];
        Some(k + 1)
  }

  lemma {:induction false} FreeRunPrefix(a: string, b: string)
    requires BraceFree(a)
    requires b != [] && IsBrace(b[0])
    ensures FreeRun(a + b) == |a|
    decreases |a|
  {
    if a != [] {
      var s := a + b;
      assert s[0] == a[0] && !IsBrace(a[0]);
      assert s[1..] == a[1..] + b;
      assert BraceFree(a[1..]) by {
        assert forall i :: 0 <= i < |a[1..]| ==> a[1..][i] == a[i + 1];
      }
      FreeRunPrefix(a[1..], b);
    }
  }

  /** The list of all non-overlapping matches, scanning left to right. */
  function Blocks(s: string): (bs: seq<string>)
    ensures forall i :: 0 <= i < |bs| ==> IsBlock(bs[i])
    decreases |s|
  {
    if s == [] then []
    else
      match BlockAt(s)
      case Some(n) => [s[..n]] + Blocks(s[n..])
      case None => Blocks(s[1..])
  }

  // ---------------------------------------------------------------------------
  // Declarations
  // ---------------------------------------------------------------------------

  /** `s.replace(c, '')` for a one-character string: drops the first `c`. */
  function RemoveFirst(s: string, c: char): (r: string)
    ensures c !in s ==> r == s
    ensures c in s ==> |r| == |s| - 1
  {
    if s == [] then []
    else if s[0] == c then s[1..]
    else [s[0]] + RemoveFirst(s[1..], c)
  }

  const Important: string := "!important"

  // value.replace(/\s*!important\s*/, ''): the first `!important` is
  // removed together with the whitespace runs on both sides of it.
  function StripImportant(v: string): (r: string)
    ensures !Contains(v, Important) ==> r == v
    ensures Contains(v, Important) ==> |r| <= |v| - |Important|
  {
    match IndexOf(v, Important)
    case None => v
    case Some(m) =>
      var a := |TrimEnd(v[..m])|;
      var tail := v[m + |Important|..];
      var b := m + |Important| + (|tail| - |TrimStart(tail)|);
      v[..a] + v[b..]
  }

  /** The cut in terms of the match of `\s*!important\s*`. With `q` the first
      `!important`, `m` the start of the whitespace run before it and `e` the
      end of the run after it, the match is `v[m..e]`: no match starts
      earlier, the trailing `\s*` takes the whole run, and what remains is
      the text on either side. */
  lemma StripImportantCut(v: string, m: nat, q: nat, e: nat)
    requires OccursAt(v, Important, q) && forall j :: 0 <= j < q ==> !OccursAt(v, Important, j)
    requires m <= q && AllSpace(v[m..q]) && (m == 0 || !IsSpace(v[m - 1]))
    requires q + |Important| <= e <= |v| && AllSpace(v[q + |Important|..e]) && (e == |v| || !IsSpace(v[e]))
    ensures forall p, q2 :: 0 <= p < m && p <= q2 && OccursAt(v, Important, q2) ==> !AllSpace(v[p..q2])
    ensures StripImportant(v) == v[..m] + v[e..]
  {
    Leftmost(v, m, q);
    StripImportantRuns(v, m, q, e);
  }

  /** The runs on either side of the first `!important` are what the cut removes. */
  lemma StripImportantRuns(v: string, m: nat, q: nat, e: nat)
    requires OccursAt(v, Important, q) && forall j :: 0 <= j < q ==> !OccursAt(v, Important, j)
    requires m <= q && AllSpace(v[m..q]) && (m == 0 || !IsSpace(v[m - 1]))
    requires q + |Important| <= e <= |v| && AllSpace(v[q + |Important|..e]) && (e == |v| || !IsSpace(v[e]))
    ensures StripImportant(v) == v[..m] + v[e..]
  {
    WhitespaceBefore(v, m, q);
    WhitespaceAfterAt(v, q + |Important|, e);
    StripImportantAt(v, q, m, e);
  }

  /** `TrimStart` of the text from `k` skips the whitespace run up to `e`. */
  lemma WhitespaceAfterAt(v: string, k: nat, e: nat)
    requires k <= e <= |v| && AllSpace(v[k..e]) && (e == |v| || !IsSpace(v[e]))
    ensures k + (|v[k..]| - |TrimStart(v[k..])|) == e
  {
    var tail := v[k..];
    assert tail[..e - k] == v[k..e];
    WhitespaceAfter(tail, e - k);
  }

  /** The cut around the first `!important` at `q`. */
  lemma StripImportantAt(v: string, q: nat, a: nat, b: nat)
    requires OccursAt(v, Important, q) && forall j :: 0 <= j < q ==> !OccursAt(v, Important, j)
    requires a == |TrimEnd(v[..q])|
    requires b == q + |Important| + (|v[q + |Important|..]| - |TrimStart(v[q + |Important|..])|)
    ensures a <= b <= |v| && StripImportant(v) == v[..a] + v[b..]
  {
    IndexOfFirst(v, Important, q);
  }

  /** No match of the pattern starts before `m`. */
  lemma Leftmost(v: string, m: nat, q: nat)
    requires OccursAt(v, Important, q) && forall j :: 0 <= j < q ==> !OccursAt(v, Important, j)
    requires m <= q && (m == 0 || !IsSpace(v[m - 1]))
    ensures forall p, q2 :: 0 <= p < m && p <= q2 && OccursAt(v, Important, q2) ==> !AllSpace(v[p..q2])
  {
    forall p, q2 | 0 <= p < m && p <= q2 && OccursAt(v, Important, q2)
      ensures !AllSpace(v[p..q2])
    {
      NoEarlierMatch(v, m, q, p, q2);
    }
  }

  /** `TrimEnd` of the text before `q` stops at `m`. */
  lemma WhitespaceBefore(v: string, m: nat, q: nat)
    requires m <= q <= |v| && AllSpace(v[m..q]) && (m == 0 || !IsSpace(v[m - 1]))
    ensures |TrimEnd(v[..q])| == m
  {
    assert v[..q] == v[..m] + v[m..q];
    TrimEndPadded(v[..m], v[m..q]);
  }

  /** `TrimStart` of `tail` starts at `k`. */
  lemma WhitespaceAfter(tail: string, k: nat)
    requires k <= |tail| && AllSpace(tail[..k]) && (k == |tail| || !IsSpace(tail[k]))
    ensures |tail| - |TrimStart(tail)| == k
  {
    assert tail == tail[..k] + tail[k..];
    TrimStartPadded(tail[..k], tail[k..]);
  }

  lemma NoEarlierMatch(v: string, m: nat, q: nat, p: nat, q2: nat)
    requires OccursAt(v, Important, q) && forall j :: 0 <= j < q ==> !OccursAt(v, Important, j)
    requires 0 < m <= q && !IsSpace(v[m - 1])
    requires p < m && p <= q2 && OccursAt(v, Important, q2)
    ensures !AllSpace(v[p..q2])
  {
    assert q <= q2;
    assert v[p..q2][m - 1 - p] == v[m - 1];
  }

  /** One `;`-separated piece: `[property, value] = piece.split(':').map(trim)`,
      kept only when both are non-empty. */
  function AddDeclaration(acc: Declarations, piece: string): Declarations
  {
    var parts := Split(piece, ':');
    var property := Trim(parts[0]);
    if |parts| < 2 then acc
    else
      var value := Trim(parts[1]);
      if property != [] && value != [] then Put(acc, property, StripImportant(value))
      else acc
  }

  function AddDeclarations(acc: Declarations, pieces: seq<string>): (r: Declarations)
    ensures DistinctKeys(acc) ==> DistinctKeys(r)
    decreases |pieces|
  {
    if pieces == [] then acc
    else
      var next := AddDeclaration(acc, pieces[0]);
      assert DistinctKeys(acc) ==> DistinctKeys(next) by {
        if DistinctKeys(acc) {
          var parts := Split(pieces[0], ':');
          if |parts| >= 2 {
            PutDistinct(acc, Trim(parts[0]), StripImportant(Trim(parts[1])));
          }
        }
      }
      AddDeclarations(next, pieces[1..])
  }

  /** The body of a block: `styles.replace('}', '').trim().split(';')`. */
  function ParseDeclarations(styles: string): (r: Declarations)
    ensures DistinctKeys(r)
  {
    AddDeclarations([], Split(Trim(RemoveFirst(styles, '}')), ';'))
  }

  /** One matched block: `[selector, styles] = block.split('{')`; skipped
      when either part is empty or missing. */
  function ParseBlock(block: string): Option<(string, Declarations)>
  {
    var parts := Split(block, '{');
    if parts[0] == [] || |parts| < 2 || parts[1] == [] then None
    else Some((Trim(parts[0]), ParseDeclarations(parts[1])))
  }

  function AddBlocks(acc: Rules, blocks: seq<string>): (r: Rules)
    ensures DistinctKeys(acc) ==> DistinctKeys(r)
    decreases |blocks|
  {
    if blocks == [] then acc
    else
      match ParseBlock(blocks[0])
      case None => AddBlocks(acc, blocks[1..])
      case Some(rule) =>
        assert DistinctKeys(acc) ==> DistinctKeys(Put(acc, rule.0, rule.1)) by {
          if DistinctKeys(acc) { PutDistinct(acc, rule.0, rule.1); }
        }
        AddBlocks(Put(acc, rule.0, rule.1), blocks[1..])
  }

  /** `parseCSS(cssText)`. */
  function Parse(cssText: string): (r: Rules)
    ensures cssText == [] ==> r == []
    ensures DistinctKeys(r)
  {
    if cssText == [] then []
    else AddBlocks([], Blocks(StripComments(cssText)))
  }

  // ---------------------------------------------------------------------------
  // stringifyCSS
  // ---------------------------------------------------------------------------

  /** The declarations whose value is truthy (non-empty), in order. */
  function Present(d: Declarations): (r: Declarations)
    ensures |r| <= |d|
    ensures forall i :: 0 <= i < |r| ==> r[i].1 != []
  {
    if d == [] then []
    else if d[0].1 == [] then Present(d[1..])
    else [d[0]] + Present(d[1..])
  }

  function DeclarationLines(d: Declarations): (ls: seq<string>)
    ensures |ls| == |d|
  {
    if d == [] then [] else ["  " + d[0].0 + ": " + d[0].1 + ";"] + DeclarationLines(d[1..])
  }

  /** One rule as `stringifyCSS` writes it, or `''` when no value is present. */
  function RuleText(selector: string, d: Declarations): string
  {
    var styleString := Join(DeclarationLines(Present(d)), "\n");
    if styleString != [] then selector + " {\n" + styleString + "\n}" else []
  }

  function RuleTexts(rules: Rules): seq<string>
  {
    if rules == [] then []
    else
      var t := RuleText(rules[0].0, rules[0].1);
      if t == [] then RuleTexts(rules[1..]) else [t] + RuleTexts(rules[1..])
  }

  /** The written rules are the non-empty rule texts: each is kept, and none
      is empty. */
  lemma {:induction false} RuleTextsHold(rules: Rules)
    ensures forall k :: 0 <= k < |RuleTexts(rules)| ==> RuleTexts(rules)[k] != []
    ensures forall i :: 0 <= i < |rules| && RuleText(rules[i].0, rules[i].1) != [] ==> RuleText(rules[i].0, rules[i].1) in RuleTexts(rules)
    ensures RuleTexts(rules) == [] <==> forall i :: 0 <= i < |rules| ==> RuleText(rules[i].0, rules[i].1) == []
    decreases |rules|
  {
    if rules != [] {
      RuleTextsHold(rules[1..]);
      assert forall i :: 1 <= i < |rules| ==> rules[i] == rules[1..][i - 1];
    }
  }

  /** `stringifyCSS(cssRules)`: the text holds every rule that has a
      non-empty value, and is empty exactly when no rule has one. */
  function Stringify(rules: Rules): (r: string)
    ensures forall i :: 0 <= i < |rules| && RuleText(rules[i].0, rules[i].1) != [] ==> Contains(r, RuleText(rules[i].0, rules[i].1))
    ensures r == [] <==> forall i :: 0 <= i < |rules| ==> RuleText(rules[i].0, rules[i].1) == []
  {
    var ts := RuleTexts(rules);
    RuleTextsHold(rules);
    StringifyHolds(ts);
    Join(ts, "\n\n")
  }

  lemma StringifyHolds(ts: seq<string>)
    ensures forall t :: t in ts ==> Contains(Join(ts, "\n\n"), t)
    ensures ts != [] && ts[0] != [] ==> Join(ts, "\n\n") != []
  {
    if ts != [] && ts[0] != [] {
      JoinStartsWithFirst(ts, "\n\n");
    }
    forall t | t in ts
      ensures Contains(Join(ts, "\n\n"), t)
    {
      var k :| 0 <= k < |ts| && ts[k] == t;
      JoinContains(ts, "\n\n", k);
    }
  }

  // ---------------------------------------------------------------------------
  // Round trip: parseCSS(stringifyCSS(r)) recovers r minus empty values and
  // minus rules left without declarations.
  // ---------------------------------------------------------------------------

  predicate CleanSelector(s: string)
  {
    s != [] && IsTrimmed(s) && BraceFree(s) && NoCommentOpen(s)
  }

  /** Text that survives `split(';')`, `split(':')` and `trim` unchanged. */
  predicate CleanToken(s: string)
  {
    IsTrimmed(s) && BraceFree(s) && ';' !in s && ':' !in s && NoCommentOpen(s)
  }

  predicate CleanEntry(x: (string, string))
  {
    x.0 != [] && CleanToken(x.0) && CleanToken(x.1) && !Contains(x.1, Important)
  }

  predicate CleanDeclarations(d: Declarations)
  {
    DistinctKeys(d) && forall i :: 0 <= i < |d| ==> CleanEntry(d[i])
  }

  predicate CleanRule(x: (string, Declarations))
  {
    CleanSelector(x.0) && CleanDeclarations(x.1)
  }

  predicate CleanRules(r: Rules)
  {
    DistinctKeys(r) && forall i :: 0 <= i < |r| ==> CleanRule(r[i])
  }

  /** Every value is present (non-empty). */
  predicate AllPresent(d: Declarations)
  {
    forall i :: 0 <= i < |d| ==> d[i].1 != []
  }

  /** What survives a round trip: empty values dropped, then empty rules dropped. */
  function Normalize(r: Rules): (n: Rules)
    ensures Written(n)
    ensures forall i :: 0 <= i < |n| ==> HasKey(r, n[i].0)
  {
    if r == [] then []
    else
      var t := Normalize(r[1..]);
      assert Keys(r) == [r[0].0] + Keys(r[1..]);
      if Present(r[0].1) == [] then t else [(r[0].0, Present(r[0].1))] + t
  }

  /** The declarations of a rule as they sit between the braces, after the
      first line's indentation: `p: v;` joined by a newline and two spaces. */
  function DeclarationsText(d: Declarations): string
    requires d != []
  {
    if |d| == 1 then d[0].0 + ": " + d[0].1 + ";"
    else d[0].0 + ": " + d[0].1 + ";" + "\n  " + DeclarationsText(d[1..])
  }

  function BlockText(selector: string, d: Declarations): string
    requires d != []
  {
    selector + " {\n  " + DeclarationsText(d) + "\n}"
  }

  function BlockTexts(n: Rules): (ts: seq<string>)
    requires forall i :: 0 <= i < |n| ==> n[i].1 != []
    ensures |ts| == |n|
  {
    if n == [] then [] else [BlockText(n[0].0, n[0].1)] + BlockTexts(n[1..])
  }

  /** A declaration is kept exactly when its value is non-empty. */
  lemma {:induction false} PresentComplete(d: Declarations)
    ensures forall x :: x in Present(d) <==> x in d && x.1 != []
    decreases |d|
  {
    if d != [] {
      PresentComplete(d[1..]);
    }
  }

  /** A list whose values are all present comes back unchanged. */
  lemma {:induction false} PresentAll(d: Declarations)
    requires AllPresent(d)
    ensures Present(d) == d
    decreases |d|
  {
    if d != [] {
      PresentAll(d[1..]);
    }
  }

  /** The filter goes declaration by declaration, so it keeps the order. */
  lemma {:induction false} PresentConcat(a: Declarations, b: Declarations)
    ensures Present(a + b) == Present(a) + Present(b)
    decreases |a|
  {
    if a != [] {
      assert (a + b)[0] == a[0] && (a + b)[1..] == a[1..] + b;
      PresentConcat(a[1..], b);
    } else {
      assert a + b == b;
    }
  }

  /** Every rule with a present value survives normalisation, with exactly
      its present declarations. */
  lemma {:induction false} NormalizeComplete(r: Rules)
    ensures forall i :: 0 <= i < |r| && Present(r[i].1) != [] ==> (r[i].0, Present(r[i].1)) in Normalize(r)
    decreases |r|
  {
    if r != [] {
      NormalizeComplete(r[1..]);
      assert forall i :: 1 <= i < |r| ==> r[i] == r[1..][i - 1];
    }
  }

  lemma {:induction false} PresentKeys(d: Declarations)
    ensures forall i :: 0 <= i < |Present(d)| ==> Present(d)[i].0 in Keys(d)
    ensures forall i :: 0 <= i < |Present(d)| ==> Present(d)[i] in d
  {
    if d != [] {
      PresentKeys(d[1..]);
      assert Keys(d) == [d[0].0] + Keys(d[1..]);
      assert forall x :: x in d[1..] ==> x in d;
    }
  }

  lemma {:induction false} PresentDistinct(d: Declarations)
    requires DistinctKeys(d)
    ensures DistinctKeys(Present(d))
  {
    if d != [] {
      DistinctTail(d);
      PresentDistinct(d[1..]);
      PresentKeys(d[1..]);
      if d[0].1 != [] {
        DistinctCons(d[0], Present(d[1..]));
      }
    }
  }

  lemma PresentClean(d: Declarations)
    requires CleanDeclarations(d)
    ensures CleanDeclarations(Present(d))
  {
    PresentDistinct(d);
    PresentKeys(d);
    forall i | 0 <= i < |Present(d)|
      ensures CleanEntry(Present(d)[i])
    {
      assert Present(d)[i] in d;
      var j :| 0 <= j < |d| && d[j] == Present(d)[i];
      assert CleanEntry(d[j]);
    }
  }

  lemma {:induction false} NormalizeDistinct(r: Rules)
    requires DistinctKeys(r)
    ensures DistinctKeys(Normalize(r))
  {
    if r != [] {
      DistinctTail(r);
      NormalizeDistinct(r[1..]);
      if Present(r[0].1) != [] {
        DistinctCons((r[0].0, Present(r[0].1)), Normalize(r[1..]));
      }
    }
  }

  lemma {:induction false} NormalizeEntries(r: Rules)
    requires forall i :: 0 <= i < |r| ==> CleanRule(r[i])
    ensures forall i :: 0 <= i < |Normalize(r)| ==> CleanRule(Normalize(r)[i])
  {
    if r != [] {
      assert forall i :: 0 <= i < |r[1..]| ==> r[1..][i] == r[i + 1];
      NormalizeEntries(r[1..]);
      assert CleanRule(r[0]);
      PresentClean(r[0].1);
      var t := Normalize(r[1..]);
      if Present(r[0].1) != [] {
        var n := [(r[0].0, Present(r[0].1))] + t;
        assert forall i :: 0 < i < |n| ==> n[i] == t[i - 1];
      }
    }
  }

  lemma NormalizeClean(r: Rules)
    requires CleanRules(r)
    ensures CleanRules(Normalize(r))
  {
    NormalizeDistinct(r);
    NormalizeEntries(r);
  }

  lemma {:induction false} LinesText(d: Declarations)
    requires d != []
    ensures Join(DeclarationLines(d), "\n") == "  " + DeclarationsText(d)
  {
    var line := d[0].0 + ": " + d[0].1 + ";";
    if |d| > 1 {
      LinesText(d[1..]);
      var ls := DeclarationLines(d);
      assert ls[0] == "  " + line && ls[1..] == DeclarationLines(d[1..]);
      assert Join(ls, "\n") == "  " + line + "\n" + ("  " + DeclarationsText(d[1..]));
    }
  }

  /** `stringifyCSS` writes each rule with a present value as a block text. */
  lemma {:induction false} RuleTextsNormalize(r: Rules)
    ensures RuleTexts(r) == BlockTexts(Normalize(r))
  {
    if r != [] {
      RuleTextsNormalize(r[1..]);
      RuleTextBlock(r[0].0, r[0].1);
      var e := Present(r[0].1);
      if e != [] {
        var n := Normalize(r);
        assert n == [(r[0].0, e)] + Normalize(r[1..]);
        assert n[1..] == Normalize(r[1..]);
      } else {
        assert Normalize(r) == Normalize(r[1..]);
      }
    }
  }

  /** A rule with a present value is written as its block text, and one
      without is not written. */
  lemma RuleTextBlock(selector: string, d: Declarations)
    ensures Present(d) == [] ==> RuleText(selector, d) == []
    ensures Present(d) != [] ==> RuleText(selector, d) == BlockText(selector, Present(d))
  {
    var e := Present(d);
    if e != [] {
      LinesText(e);
      assert RuleText(selector, d) == selector + " {\n" + ("  " + DeclarationsText(e)) + "\n}";
    }
  }

  lemma NoCommentOpenAround(a: string, sep: string, b: string)
    requires NoCommentOpen(a) && NoCommentOpen(b) && NoCommentOpen(sep)
    requires sep != [] && sep[0] != '*' && sep[|sep| - 1] != '/'
    ensures NoCommentOpen(a + sep + b)
  {
    var s := a + sep + b;
    forall i | 0 <= i < |s| - 1
      ensures !(s[i] == '/' && s[i + 1] == '*')
    {
      if i < |a| - 1 {
        assert s[i] == a[i] && s[i + 1] == a[i + 1];
      } else if i == |a| - 1 {
        assert s[i + 1] == sep[0];
      } else if i < |a| + |sep| - 1 {
        assert s[i] == sep[i - |a|] && s[i + 1] == sep[i - |a| + 1];
      } else if i == |a| + |sep| - 1 {
        assert s[i] == sep[|sep| - 1];
      } else {
        assert s[i] == b[i - |a| - |sep|] && s[i + 1] == b[i - |a| - |sep| + 1];
      }
    }
  }

  lemma BraceFreeConcat(a: string, b: string)
    requires BraceFree(a) && BraceFree(b)
    ensures BraceFree(a + b)
  {
    assert forall i :: |a| <= i < |a + b| ==> (a + b)[i] == b[i - |a|];
  }

  lemma {:induction false} DeclarationsTextEnds(d: Declarations)
    requires d != []
    ensures var t := DeclarationsText(d);
      t != [] && t[|t| - 1] == ';' && (d[0].0 != [] ==> t[0] == d[0].0[0])
  {
    if |d| > 1 {
      DeclarationsTextEnds(d[1..]);
    }
  }

  lemma {:induction false} DeclarationsTextFree(d: Declarations)
    requires d != [] && forall i :: 0 <= i < |d| ==> CleanEntry(d[i])
    ensures BraceFree(DeclarationsText(d)) && NoCommentOpen(DeclarationsText(d))
  {
    assert CleanEntry(d[0]);
    var first := d[0].0 + ": " + d[0].1;
    NoCommentOpenAround(d[0].0, ": ", d[0].1);
    BraceFreeConcat(d[0].0, ": ");
    BraceFreeConcat(d[0].0 + ": ", d[0].1);
    BraceFreeConcat(first, ";");
    if |d| == 1 {
      NoCommentOpenAround(first, ";", []);
      assert DeclarationsText(d) == first + ";" + [];
    } else {
      assert forall i :: 0 <= i < |d[1..]| ==> d[1..][i] == d[i + 1];
      DeclarationsTextFree(d[1..]);
      var rest := DeclarationsText(d[1..]);
      NoCommentOpenAround(first, ";\n  ", rest);
      BraceFreeConcat(first, ";\n  ");
      BraceFreeConcat(first + ";\n  ", rest);
      assert DeclarationsText(d) == first + ";\n  " + rest;
    }
  }

  lemma {:induction false} BlockTextsNoCommentOpen(n: Rules)
    requires forall i :: 0 <= i < |n| ==> n[i].1 != [] && CleanRule(n[i])
    ensures |BlockTexts(n)| == |n|
    ensures forall i :: 0 <= i < |n| ==> NoCommentOpen(BlockTexts(n)[i])
  {
    if n != [] {
      assert forall i :: 0 <= i < |n[1..]| ==> n[1..][i] == n[i + 1];
      BlockTextsNoCommentOpen(n[1..]);
      assert CleanRule(n[0]);
      var e := n[0].1;
      assert forall i :: 0 <= i < |e| ==> CleanEntry(e[i]);
      DeclarationsTextFree(e);
      var t := DeclarationsText(e);
      NoCommentOpenAround(n[0].0, " {\n  ", t);
      NoCommentOpenAround(n[0].0 + " {\n  " + t, "\n}", []);
      assert BlockText(n[0].0, e) == n[0].0 + " {\n  " + t + "\n}" + [];
    }
  }

  lemma {:induction false} JoinNoCommentOpen(texts: seq<string>)
    requires forall i :: 0 <= i < |texts| ==> NoCommentOpen(texts[i])
    ensures NoCommentOpen(Join(texts, "\n\n"))
  {
    if |texts| > 1 {
      JoinNoCommentOpen(texts[1..]);
      NoCommentOpenAround(texts[0], "\n\n", Join(texts[1..], "\n\n"));
    }
  }

  lemma {:induction false} RemoveFirstAtEnd(s: string, c: char)
    requires c !in s
    ensures RemoveFirst(s + [c], c) == s
  {
    if s != [] {
      assert (s + [c])[1..] == s[1..] + [c];
      RemoveFirstAtEnd(s[1..], c);
    }
  }

  lemma BlocksCons(a: string, b: string, rest: string)
    requires a != [] && BraceFree(a) && b != [] && BraceFree(b)
    ensures Blocks(a + "{" + b + "}" + rest) == [a + "{" + b + "}"] + Blocks(rest)
  {
    var x := a + "{" + b + "}";
    var s := x + rest;
    assert BlockAt(s) == Some(|x|) by { BlockAtWritten(a, b, rest, x, s); }
    assert s[..|x|] == x && s[|x|..] == rest;
  }

  /** The block pattern takes a written block whole. */
  lemma BlockAtWritten(a: string, b: string, rest: string, x: string, s: string)
    requires a != [] && BraceFree(a) && b != [] && BraceFree(b)
    requires x == a + "{" + b + "}" && s == x + rest
    ensures BlockAt(s) == Some(|x|)
  {
    assert s == a + ("{" + b + "}" + rest);
    FreeRunPrefix(a, "{" + b + "}" + rest);
    assert s[|a| + 1..] == b + ("}" + rest);
    FreeRunPrefix(b, "}" + rest);
  }

  /** One declaration piece `pre + p + ": " + v` adds `p -> v`. */
  lemma AddOneDeclaration(acc: Declarations, pre: string, x: (string, string))
    requires AllSpace(pre) && ':' !in pre
    requires CleanEntry(x) && x.1 != []
    ensures AddDeclaration(acc, pre + x.0 + ": " + x.1) == Put(acc, x.0, x.1)
  {
    var (p, v) := x;
    var piece := pre + p + ": " + v;
    assert piece == (pre + p) + [':'] + (" " + v);
    SplitAfterPiece(pre + p, " " + v, ':');
    SplitNoSeparator(" " + v, ':');
    TrimPadded(pre, p, []);
    assert pre + p + [] == pre + p;
    TrimPadded(" ", v, []);
    assert " " + v + [] == " " + v;
  }

  lemma AddLastDeclaration(acc: Declarations, pre: string, e: Declarations)
    requires AllSpace(pre) && ':' !in pre && ';' !in pre
    requires |e| == 1 && CleanEntry(e[0]) && e[0].1 != [] && Put(acc, e[0].0, e[0].1) == acc + e
    ensures AddDeclarations(acc, Split(pre + DeclarationsText(e), ';')) == acc + e
  {
    var x := e[0];
    var piece := pre + x.0 + ": " + x.1;
    assert DeclarationsText(e) == x.0 + ": " + x.1 + ";" + [];
    assert Split(pre + DeclarationsText(e), ';') == [piece, []] by {
      assert ';' !in x.0 && ';' !in x.1;
      RegroupPiece(pre, x.0, x.1, []);
      assert Split([], ';') == [[]];
      SplitAfterPiece(piece, [], ';');
    }
    AddOneDeclaration(acc, pre, x);
    AddDeclarationsCons(acc, piece, [[]]);
    assert AddDeclaration(acc + e, []) == acc + e by {
      assert Split([], ':') == [[]];
    }
    AddDeclarationsCons(acc + e, [], []);
  }

  lemma CleanDeclarationsTail(e: Declarations)
    requires e != [] && CleanDeclarations(e) && AllPresent(e)
    ensures CleanEntry(e[0]) && e[0].1 != []
    ensures CleanDeclarations(e[1..]) && AllPresent(e[1..])
  {
    assert forall i :: 0 <= i < |e[1..]| ==> e[1..][i] == e[i + 1];
  }

  lemma {:induction false} AddDeclarationsText(acc: Declarations, pre: string, e: Declarations)
    requires AllSpace(pre) && ':' !in pre && ';' !in pre
    requires e != [] && CleanDeclarations(e) && AllPresent(e) && KeysFresh(acc, e)
    ensures AddDeclarations(acc, Split(pre + DeclarationsText(e), ';')) == acc + e
    decreases |e|, 2
  {
    CleanDeclarationsTail(e);
    KeysFreshStep(acc, e);
    if |e| == 1 {
      assert [e[0]] == e;
      AddLastDeclaration(acc, pre, e);
    } else {
      AddDeclarationsTextStep(acc, pre, e);
    }
  }

  lemma {:induction false} AddDeclarationsTextStep(acc: Declarations, pre: string, e: Declarations)
    requires AllSpace(pre) && ':' !in pre && ';' !in pre
    requires |e| > 1 && CleanDeclarations(e) && AllPresent(e) && KeysFresh(acc, e)
    ensures AddDeclarations(acc, Split(pre + DeclarationsText(e), ';')) == acc + e
    decreases |e|, 1
  {
    CleanDeclarationsTail(e);
    var piece := pre + e[0].0 + ": " + e[0].1;
    var rest := "\n  " + DeclarationsText(e[1..]);
    assert ';' !in e[0].0 && ';' !in e[0].1;
    SplitFirstDeclaration(pre, e);
    AddOneDeclaration(acc, pre, e[0]);
    KeysFreshStep(acc, e);
    AddDeclarationsTextRest(acc, e);
    AddDeclarationsCons(acc, piece, Split(rest, ';'));
  }

  lemma AddDeclarationsCons(acc: Declarations, piece: string, tail: seq<string>)
    ensures AddDeclarations(acc, [piece] + tail) == AddDeclarations(AddDeclaration(acc, piece), tail)
  {
    assert ([piece] + tail)[1..] == tail;
  }

  lemma SplitFirstDeclaration(pre: string, e: Declarations)
    requires ';' !in pre && |e| > 1 && ';' !in e[0].0 && ';' !in e[0].1
    ensures Split(pre + DeclarationsText(e), ';')
         == [pre + e[0].0 + ": " + e[0].1] + Split("\n  " + DeclarationsText(e[1..]), ';')
  {
    var rest := "\n  " + DeclarationsText(e[1..]);
    assert DeclarationsText(e) == e[0].0 + ": " + e[0].1 + ";" + rest;
    RegroupPiece(pre, e[0].0, e[0].1, rest);
    SplitAfterPiece(pre + e[0].0 + ": " + e[0].1, rest, ';');
  }

  lemma RegroupPiece(pre: string, p: string, v: string, rest: string)
    requires ';' !in pre && ';' !in p && ';' !in v
    ensures pre + (p + ": " + v + ";" + rest) == (pre + p + ": " + v) + [';'] + rest
    ensures ';' !in pre + p + ": " + v
  {
  }

  lemma {:induction false} AddDeclarationsTextRest(acc: Declarations, e: Declarations)
    requires |e| > 1 && CleanDeclarations(e) && AllPresent(e) && KeysFresh(acc, e)
    ensures AddDeclarations(acc + [e[0]], Split("\n  " + DeclarationsText(e[1..]), ';')) == acc + e
    decreases |e|, 0
  {
    var head, tail := acc + [e[0]], e[1..];
    assert CleanDeclarations(tail) && AllPresent(tail) && KeysFresh(head, tail) by {
      CleanDeclarationsTail(e);
      KeysFreshStep(acc, e);
    }
    assert AllSpace("\n  ") && ':' !in "\n  " && ';' !in "\n  ";
    AddDeclarationsText(head, "\n  ", tail);
    AppendHead(acc, e);
  }

  lemma BodyBraceFree(t: string)
    requires BraceFree(t)
    ensures '}' !in "\n  " + t + "\n"
  {
    var inner := "\n  " + t + "\n";
    assert forall i :: 2 < i < |inner| - 1 ==> inner[i] == t[i - 3];
  }

  /** The body `stringifyCSS` writes between the braces parses back to the
      declarations it was written from. */
  lemma ParseDeclarationsText(e: Declarations)
    requires e != [] && CleanDeclarations(e) && AllPresent(e)
    ensures ParseDeclarations("\n  " + DeclarationsText(e) + "\n}") == e
  {
    var t := DeclarationsText(e);
    var inner := "\n  " + t + "\n";
    assert RemoveFirst("\n  " + t + "\n}", '}') == inner by {
      DeclarationsTextFree(e);
      BodyBraceFree(t);
      RemoveFirstAtEnd(inner, '}');
      assert "\n  " + t + "\n}" == inner + ['}'];
    }
    assert Trim(inner) == t by {
      CleanDeclarationsTail(e);
      DeclarationsTextEnds(e);
      assert IsTrimmed(t);
      TrimPadded("\n  ", t, "\n");
    }
    assert AddDeclarations([], Split(t, ';')) == e by {
      assert KeysFresh([], e);
      AddDeclarationsText([], "", e);
      assert "" + t == t;
    }
  }

  lemma ParseBlockText(pre: string, selector: string, e: Declarations)
    requires AllSpace(pre)
    requires CleanSelector(selector) && e != [] && CleanDeclarations(e) && AllPresent(e)
    ensures ParseBlock(pre + BlockText(selector, e)) == Some((selector, e))
  {
    var t := DeclarationsText(e);
    CleanDeclarationsTail(e);
    DeclarationsTextFree(e);
    var head := pre + selector + " ";
    var body := "\n  " + t + "\n}";
    assert pre + BlockText(selector, e) == head + ['{'] + body;
    assert forall i :: 0 <= i < |head| ==> head[i] != '{';
    assert forall i :: 0 <= i < |body| ==> body[i] != '{';
    SplitAfterPiece(head, body, '{');
    SplitNoSeparator(body, '{');
    TrimPadded(pre, selector, " ");
    ParseDeclarationsText(e);
  }

  /** Every rule has a declaration and every value is present. */
  predicate Written(n: Rules)
  {
    forall i :: 0 <= i < |n| ==> n[i].1 != [] && AllPresent(n[i].1)
  }

  lemma CleanRulesTail(n: Rules)
    requires n != [] && CleanRules(n) && Written(n)
    ensures CleanSelector(n[0].0) && n[0].1 != [] && CleanDeclarations(n[0].1) && AllPresent(n[0].1)
    ensures CleanRules(n[1..]) && Written(n[1..])
  {
    assert CleanRule(n[0]);
    assert forall i :: 0 <= i < |n[1..]| ==> n[1..][i] == n[i + 1];
  }

  /** A written block is one match of the block pattern, whatever follows it. */
  lemma BlocksBlockText(pre: string, selector: string, e: Declarations, rest: string)
    requires AllSpace(pre) && CleanSelector(selector) && e != [] && CleanDeclarations(e)
    ensures Blocks(pre + BlockText(selector, e) + rest) == [pre + BlockText(selector, e)] + Blocks(rest)
  {
    var t := DeclarationsText(e);
    assert BraceFree(t) by {
      CleanDeclarationsTail'(e);
      DeclarationsTextFree(e);
    }
    var a := pre + selector + " ";
    var b := "\n  " + t + "\n";
    assert BraceFree(a) by {
      BraceFreeConcat(pre, selector);
      BraceFreeConcat(pre + selector, " ");
    }
    assert BraceFree(b) by {
      BraceFreeConcat("\n  ", t);
      BraceFreeConcat("\n  " + t, "\n");
    }
    assert pre + BlockText(selector, e) == a + "{" + b + "}";
    BlocksCons(a, b, rest);
  }

  lemma CleanDeclarationsTail'(e: Declarations)
    requires CleanDeclarations(e)
    ensures forall i :: 0 <= i < |e| ==> CleanEntry(e[i])
  {
  }

  lemma AddBlocksCons(acc: Rules, x: string, rule: (string, Declarations), tail: seq<string>)
    requires ParseBlock(x) == Some(rule)
    ensures AddBlocks(acc, [x] + tail) == AddBlocks(Put(acc, rule.0, rule.1), tail)
  {
    assert ([x] + tail)[1..] == tail;
  }

  lemma JoinBlockTextsOne(pre: string, n: Rules)
    requires |n| == 1 && Written(n)
    ensures pre + Join(BlockTexts(n), "\n\n") == pre + BlockText(n[0].0, n[0].1) + []
  {
    assert BlockTexts(n) == [BlockText(n[0].0, n[0].1)];
  }

  lemma JoinBlockTextsMore(pre: string, n: Rules)
    requires |n| > 1 && Written(n)
    ensures pre + Join(BlockTexts(n), "\n\n")
         == pre + BlockText(n[0].0, n[0].1) + ("\n\n" + Join(BlockTexts(n[1..]), "\n\n"))
  {
    var ps := BlockTexts(n);
    assert ps[0] == BlockText(n[0].0, n[0].1) && ps[1..] == BlockTexts(n[1..]);
    JoinFirst(pre, ps, "\n\n");
  }

  /** The first written block is parsed and put, whatever follows it. */
  lemma ParseBlockTextFirst(acc: Rules, pre: string, x: (string, Declarations), rest: string)
    requires AllSpace(pre) && CleanSelector(x.0) && x.1 != []
    requires CleanDeclarations(x.1) && AllPresent(x.1)
    requires Put(acc, x.0, x.1) == acc + [x]
    ensures AddBlocks(acc, Blocks(pre + BlockText(x.0, x.1) + rest))
         == AddBlocks(acc + [x], Blocks(rest))
  {
    BlocksBlockText(pre, x.0, x.1, rest);
    ParseBlockText(pre, x.0, x.1);
    AddBlocksCons(acc, pre + BlockText(x.0, x.1), x, Blocks(rest));
  }

  lemma {:induction false} ParseBlockTexts(acc: Rules, pre: string, n: Rules)
    requires AllSpace(pre) && n != [] && CleanRules(n) && Written(n) && KeysFresh(acc, n)
    ensures AddBlocks(acc, Blocks(pre + Join(BlockTexts(n), "\n\n"))) == acc + n
    decreases |n|, 1
  {
    CleanRulesTail(n);
    KeysFreshStep(acc, n);
    if |n| == 1 {
      JoinBlockTextsOne(pre, n);
      ParseBlockTextFirst(acc, pre, n[0], []);
      assert Blocks([]) == [];
      assert [n[0]] == n;
    } else {
      JoinBlockTextsMore(pre, n);
      ParseBlockTextFirst(acc, pre, n[0], "\n\n" + Join(BlockTexts(n[1..]), "\n\n"));
      ParseBlockTextsRest(acc, n);
    }
  }

  lemma {:induction false} ParseBlockTextsRest(acc: Rules, n: Rules)
    requires |n| > 1 && CleanRules(n) && Written(n) && KeysFresh(acc, n)
    ensures AddBlocks(acc + [n[0]], Blocks("\n\n" + Join(BlockTexts(n[1..]), "\n\n"))) == acc + n
    decreases |n|, 0
  {
    CleanRulesTail(n);
    KeysFreshStep(acc, n);
    assert AllSpace("\n\n");
    ParseBlockTexts(acc + [n[0]], "\n\n", n[1..]);
    AppendHead(acc, n);
  }

  /** The round trip of the rule store: parsing what `stringifyCSS` writes
      gives back every rule that has a present declaration, with exactly its
      present declarations, in the same order. */
  lemma RoundTrip(r: Rules)
    requires CleanRules(r)
    ensures Parse(Stringify(r)) == Normalize(r)
  {
    var n := Normalize(r);
    assert Stringify(r) == Join(BlockTexts(n), "\n\n") by {
      RuleTextsNormalize(r);
    }
    NormalizeClean(r);
    if n == [] {
      assert BlockTexts(n) == [];
    } else {
      ParseWritten(n);
    }
  }

  /** Parsing the joined blocks of clean, written rules gives them back. */
  lemma ParseWritten(n: Rules)
    requires n != [] && CleanRules(n) && Written(n)
    ensures Parse(Join(BlockTexts(n), "\n\n")) == n
  {
    var ts := BlockTexts(n);
    var text := Join(ts, "\n\n");
    assert StripComments(text) == text by {
      BlockTextsNoCommentOpen(n);
      JoinNoCommentOpen(ts);
    }
    assert text != [] by {
      assert ts[0] != [];
      assert |ts| == 1 || text == ts[0] + "\n\n" + Join(ts[1..], "\n\n");
    }
    assert AddBlocks([], Blocks(text)) == n by {
      assert KeysFresh([], n);
      ParseBlockTexts([], "", n);
      assert "" + text == text;
    }
  }

  // ---------------------------------------------------------------------------
  // Further properties of parseCSS
  // ---------------------------------------------------------------------------

  /** A closed comment is cut out, with nothing of the text around it lost:
      the text before it has no opener, the comment body has no closer. */
  lemma CommentRemoved(a: string, body: string, b: string)
    requires NoCommentOpen(a) && !Contains(body, "*/")
    ensures StripComments(a + "/*" + body + "*/" + b) == a + StripComments(b)
  {
    var c := "/*" + body + "*/" + b;
    assert a + "/*" + body + "*/" + b == a + c;
    CommentRemovedAfter(a, c, body, b);
  }

  lemma {:induction false} CommentRemovedAfter(a: string, c: string, body: string, b: string)
    requires NoCommentOpen(a) && !Contains(body, "*/") && c == "/*" + body + "*/" + b
    ensures StripComments(a + c) == a + StripComments(b)
    decreases |a|
  {
    if a == [] {
      assert a + c == c;
      CommentRemovedHere(body, b);
    } else {
      CommentRemovedStep(a, c);
      NoCommentOpenTail(a);
      CommentRemovedAfter(a[1..], c, body, b);
      ConsAppendTail(a, StripComments(b));
    }
  }

  /** One character of comment-free text before an opener is kept. */
  lemma CommentRemovedStep(a: string, c: string)
    requires a != [] && NoCommentOpen(a) && |c| >= 2 && c[0] == '/'
    ensures StripComments(a + c) == [a[0]] + StripComments(a[1..] + c)
  {
    var t := a[1..] + c;
    assert a + c == [a[0]] + t;
    assert !(a[0] == '/' && t[0] == '*') by {
      if |a| > 1 {
        assert t[0] == a[1] && !(a[0] == '/' && a[1] == '*');
      } else {
        assert t[0] == '/';
      }
    }
    StripCommentsCons(a[0], t);
  }

  lemma ConsAppendTail<T>(a: seq<T>, r: seq<T>)
    requires a != []
    ensures [a[0]] + (a[1..] + r) == a + r
  {
  }

  lemma NoCommentOpenTail(a: string)
    requires a != [] && NoCommentOpen(a)
    ensures NoCommentOpen(a[1..])
  {
    forall i | 0 <= i < |a[1..]| - 1
      ensures !(a[1..][i] == '/' && a[1..][i + 1] == '*')
    {
      assert a[1..][i] == a[i + 1] && a[1..][i + 1] == a[i + 2];
    }
  }

  /** A character that does not open a comment is kept. */
  lemma StripCommentsCons(c: char, t: string)
    requires t != [] && !(c == '/' && t[0] == '*')
    ensures StripComments([c] + t) == [c] + StripComments(t)
  {
    var s := [c] + t;
    assert s[..2] != "/*" by {
      assert s[0] == c && s[1] == t[0];
    }
    assert s[1..] == t;
  }

  /** A comment at the very start is dropped whole. */
  lemma CommentRemovedHere(body: string, b: string)
    requires !Contains(body, "*/")
    ensures StripComments("/*" + body + "*/" + b) == StripComments(b)
  {
    var s := "/*" + body + "*/" + b;
    var t := body + "*/" + b;
    assert s[..2] == "/*" && s[2..] == t;
    CloserFirst(body, b);
    assert s[2 + |body| + 2..] == b;
  }

  /** The first closer after the opener is the one right after `body`. */
  lemma CloserFirst(body: string, b: string)
    requires !Contains(body, "*/")
    ensures IndexOf(body + "*/" + b, "*/") == Some(|body|)
  {
    var t := body + "*/" + b;
    assert t[|body|..|body| + 2] == "*/";
    forall j | 0 <= j < |body|
      ensures !OccursAt(t, "*/", j)
    {
      if j + 2 <= |body| {
        assert t[j..j + 2] == body[j..j + 2];
        assert !OccursAt(body, "*/", j);
      } else {
        assert t[j + 1] == '*';
      }
    }
    IndexOfFirst(t, "*/", |body|);
  }

  /** A later block with a selector already in the table replaces that
      selector's declarations wholesale, in the earlier block's position. */
  lemma LaterBlockReplaces(acc: Rules, b1: string, b2: string, selector: string, d1: Declarations, d2: Declarations)
    requires ParseBlock(b1) == Some((selector, d1)) && ParseBlock(b2) == Some((selector, d2))
    ensures Get(AddBlocks(acc, [b1, b2]), selector) == Some(d2)
    ensures Keys(AddBlocks(acc, [b1, b2])) == Keys(AddBlocks(acc, [b1]))
  {
    var m1 := Put(acc, selector, d1);
    var m2 := Put(m1, selector, d2);
    assert AddBlocks(acc, [b1, b2]) == m2 by {
      assert [b1, b2] == [b1] + [b2] && [b2] == [b2] + [];
      AddBlocksCons(acc, b1, (selector, d1), [b2]);
      AddBlocksCons(m1, b2, (selector, d2), []);
    }
    assert AddBlocks(acc, [b1]) == m1 by {
      assert [b1] == [b1] + [];
      AddBlocksCons(acc, b1, (selector, d1), []);
    }
    assert Keys(m2) == Keys(m1) by {
      PutKeys(m1, selector, d2);
      assert HasKey(m1, selector);
    }
  }

  /** The value of a declaration is the text between its first and second
      colon; anything after a second colon is dropped. */
  lemma DeclarationValue(acc: Declarations, p: string, v: string, extra: string)
    requires p != [] && IsTrimmed(p) && ':' !in p
    requires v != [] && IsTrimmed(v) && ':' !in v
    ensures AddDeclaration(acc, p + ":" + v + ":" + extra) == Put(acc, p, StripImportant(v))
  {
    var piece := p + ":" + v + ":" + extra;
    assert piece == p + [':'] + (v + [':'] + extra);
    SplitAfterPiece(p, v + [':'] + extra, ':');
    SplitAfterPiece(v, extra, ':');
    TrimOfTrimmed(p);
    TrimOfTrimmed(v);
  }

  /** A value written with a trailing ` !important` reads back as the value. */
  lemma ImportantSuffixStripped(v: string)
    requires IsTrimmed(v) && !Contains(v, Important)
    ensures StripImportant(v + " " + Important) == v
  {
    var s := v + " " + Important;
    var m := |v| + 1;
    assert s[m..] == Important;
    forall j | 0 <= j < m
      ensures !OccursAt(s, Important, j)
    {
      if j + |Important| <= |v| {
        assert s[j..j + |Important|] == v[j..j + |Important|];
        assert !OccursAt(v, Important, j);
      } else {
        assert s[|v|] == ' ';
        assert Important[|v| - j] != ' ';
      }
    }
    IndexOfFirst(s, Important, m);
    assert s[..m] == v + " ";
    TrimEndPadded(v, " ");
    assert s[m + |Important|..] == [];
    assert s[..|v|] == v;
  }
}

=== FILE: markdown_attrs.dfy ===
/** `processMarkdownAttributes` of `src/utils/converter.js`: annotated
    headings and paragraphs are stripped of their `{#id .cls}` suffix, the
    annotations are kept in a table keyed `text_tag`, the stripped Markdown is
    rendered, and each kept annotation is put back onto the first rendered
    element that carries its text. The Markdown renderer and the final DOM
    re-serialisation are parameters. */
module MarkdownAttrs {
  import opened Maybe
  import opened Strings
  import opened Assoc
  import opened Converter

  /** What is kept per key: the tag the annotation belongs to, its id and
      its classes. */
  datatype AttrInfo = AttrInfo(tag: string, id: string, classes: seq<string>)

  type AttrTable = Table<AttrInfo>

  type Entry = (string, AttrInfo)

  /** `h${level}`. */
  function HeadingTag(level: nat): (t: string)
    requires 1 <= level <= 6
    ensures |t| == 2 && t[0] == 'h' && '1' <= t[1] <= '6'
  {
    "h" + [Digit(level)]
  }

  /** `${text}_${tag}`. */
  function Key(content: string, tag: string): string
  {
    content + "_" + tag
  }

  /** The annotation read from the text between the braces, for `tag`. */
  function InfoOf(tag: string, inner: string): AttrInfo
  {
    var a := ParseAttrList(inner);
    AttrInfo(tag, a.id, a.classes)
  }

  function Found<T>(o: Option<T>): seq<T>
  {
    match o
    case None => []
    case Some(x) => [x]
  }

  // ---------------------------------------------------------------------------
  // The heading pass: a global multiline replace
  // ---------------------------------------------------------------------------

  /** What the heading replace leaves of a line: hashes, one space and the
      trimmed text when the line is an annotated heading, the line itself
      otherwise. */
  function HeadingLine(line: string): string
  {
    match HeadingMatch(line)
    case None => line
    case Some(h) => Hashes(h.level) + " " + h.content
  }

  /** What the heading replace records for a line. */
  function HeadingEntry(line: string): Option<Entry>
  {
    match HeadingMatch(line)
    case None => None
    case Some(h) => Some((Key(h.content, HeadingTag(h.level)), InfoOf(HeadingTag(h.level), h.inner)))
  }

  function HeadingPass(lines: seq<string>): (out: seq<string>)
    ensures |out| == |lines|
    ensures forall i :: 0 <= i < |lines| ==> out[i] == HeadingLine(lines[i])
  {
    seq(|lines|, i requires 0 <= i < |lines| => HeadingLine(lines[i]))
  }

  /** The heading entries in line order. */
  function HeadingEntries(lines: seq<string>): seq<Entry>
  {
    if lines == [] then [] else Found(HeadingEntry(lines[0])) + HeadingEntries(lines[1..])
  }

  // ---------------------------------------------------------------------------
  // The paragraph pass: all matches, then handled last to first
  // ---------------------------------------------------------------------------

  /** What the paragraph step leaves of a line: its trimmed text when the line
      is an annotated paragraph, the line itself otherwise. */
  function ParagraphLine(line: string): string
  {
    match ParagraphMatch(line)
    case None => line
    case Some(h) => h.content
  }

  function ParagraphEntry(line: string): Option<Entry>
  {
    match ParagraphMatch(line)
    case None => None
    case Some(h) => Some((Key(h.content, "p"), InfoOf("p", h.inner)))
  }

  function ParagraphPass(lines: seq<string>): (out: seq<string>)
    ensures |out| == |lines|
    ensures forall i :: 0 <= i < |lines| ==> out[i] == ParagraphLine(lines[i])
  {
    seq(|lines|, i requires 0 <= i < |lines| => ParagraphLine(lines[i]))
  }

  /** The paragraph entries in line order (the order of `matchAll`). */
  function ParagraphEntries(lines: seq<string>): seq<Entry>
  {
    if lines == [] then [] else Found(ParagraphEntry(lines[0])) + ParagraphEntries(lines[1..])
  }

  function Reverse<T>(s: seq<T>): (r: seq<T>)
    ensures |r| == |s|
    ensures forall i :: 0 <= i < |s| ==> r[i] == s[|s| - 1 - i]
  {
    if s == [] then [] else Reverse(s[1..]) + [s[0]]
  }

  /** `attributes.set(key, value)` for each entry, first to last. */
  function SetAll(m: AttrTable, entries: seq<Entry>): AttrTable
    decreases |entries|
  {
    if entries == [] then m else SetAll(Put(m, entries[0].0, entries[0].1), entries[1..])
  }

  /** The Markdown handed to the renderer and the annotation table, read
      line by line: the heading pass over all lines, then the paragraph pass
      over its result, whose entries are recorded from the last match to the
      first. Every line stays in place, blank ones included. */
  function Extract(md: string): (r: (string, AttrTable))
    ensures '{' !in md ==> r == (md, [])
  {
    var lines := Split(md, '\n');
    PlainText(md);
    (Join(ParagraphPass(HeadingPass(lines)), "\n"), TableOf(lines))
  }

  /** The heading entries set in line order, then the paragraph entries of
      the heading pass's result set from last to first. */
  function TableOf(lines: seq<string>): AttrTable
  {
    SetAll(SetAll([], HeadingEntries(lines)), Reverse(ParagraphEntries(HeadingPass(lines))))
  }

  // ---------------------------------------------------------------------------
  // The passes as the program runs them over the whole text
  // ---------------------------------------------------------------------------

  datatype Pass = Headings | Paragraphs

  /** What a pass leaves of one line. */
  function Rewrite(pass: Pass, line: string): string
  {
    match pass
    case Headings => HeadingLine(line)
    case Paragraphs => ParagraphLine(line)
  }

  /** Whether a pass's pattern matches the line. */
  predicate Hits(pass: Pass, line: string)
  {
    match pass
    case Headings => HeadingMatch(line).Some?
    case Paragraphs => ParagraphMatch(line).Some?
  }

  /** A pass over the whole text. Both patterns end in `\s*$` under the `m`
      flag, and `\s` takes line feeds too: a match runs on over every
      whitespace-only line after the line it matched, up to the line feed
      before the next line with other text (or to the end of the text), so
      those lines vanish with it. `after` says whether the last line kept was
      matched. */
  function PassAsWritten(pass: Pass, lines: seq<string>, after: bool): (out: seq<string>)
    ensures |out| <= |lines|
    ensures !after && (forall i :: 0 <= i < |lines| ==> !Hits(pass, lines[i])) ==> out == lines
    decreases |lines|
  {
    if lines == [] then []
    else if after && AllSpace(lines[0]) then PassAsWritten(pass, lines[1..], true)
    else [Rewrite(pass, lines[0])] + PassAsWritten(pass, lines[1..], Hits(pass, lines[0]))
  }

  /** `processMarkdownAttributes(markdown)` as written: the heading replace
      and the paragraph step each take the blank lines after a line they
      match. The entries are those of the line-by-line reading, since a
      whitespace-only line matches neither pattern. */
  function ExtractAsWritten(md: string): (r: (string, AttrTable))
    ensures '{' !in md ==> r == (md, [])
  {
    var lines := Split(md, '\n');
    var headed := PassAsWritten(Headings, lines, false);
    PlainText(md);
    (Join(PassAsWritten(Paragraphs, headed, false), "\n"),
     SetAll(SetAll([], HeadingEntries(lines)), Reverse(ParagraphEntries(headed))))
  }

  // ---------------------------------------------------------------------------
  // Putting the annotations back onto the rendered HTML
  // ---------------------------------------------------------------------------

  /** `key.split('_')` destructured as `[content, tag]`; a missing second
      piece is `undefined`, which a template literal writes as such. */
  function KeyPartsAsWritten(key: string): (string, string)
  {
    var parts := Split(key, '_');
    (parts[0], if |parts| > 1 then parts[1] else "undefined")
  }

  /** The index of the last `c` in `s`. */
  function LastIndex(s: string, c: char): (r: Option<nat>)
    ensures r.Some? ==> r.value < |s| && s[r.value] == c && c !in s[r.value + 1..]
    ensures r.None? ==> c !in s
  {
    if s == [] then None
    else if s[|s| - 1] == c then Some(|s| - 1)
    else
      var r := LastIndex(s[..|s| - 1], c);
      assert s == s[..|s| - 1] + [s[|s| - 1]];
      r
  }

  /** A key cut at its last `_`: text and tag. Tags never hold `_`, so this
      undoes `Key` whatever the text. */
  function KeyParts(key: string): Option<(string, string)>
  {
    match LastIndex(key, '_')
    case None => None
    case Some(i) => Some((key[..i], key[i + 1..]))
  }

  /** ` id="…"` when there is an id, then ` class="…"` when there are classes. */
  function HtmlAttrs(info: AttrInfo): (r: string)
    ensures r == [] <==> info.id == [] && info.classes == []
  {
    (if info.id != [] then " id=\"" + info.id + "\"" else [])
    + (if |info.classes| > 0 then " class=\"" + Join(info.classes, " ") + "\"" else [])
  }

  /** The replacement element. */
  function Tagged(info: AttrInfo, content: string): string
  {
    "<" + info.tag + HtmlAttrs(info) + ">" + content + "</" + info.tag + ">"
  }

  /** `<tag>content</tag>`, the element a heading key looks for. */
  function PlainElement(tag: string, content: string): string
  {
    "<" + tag + ">" + content + "</" + tag + ">"
  }

  /** Where `<p>content(?:</p>|\s*$)` matches when tried at `i`, and where
      the match ends: the closing tag is tried first, then whitespace up to
      the end of the text. */
  function ParagraphEnd(html: string, content: string, i: nat): Option<nat>
  {
    if OccursAt(html, "<p>" + content + "</p>", i) then Some(i + |"<p>" + content + "</p>"|)
    else if OccursAt(html, "<p>" + content, i) && AllSpace(html[i + |"<p>" + content|..]) then Some(|html|)
    else None
  }

  /** The leftmost match of the paragraph pattern at or after `i`. */
  function ParagraphSpot(html: string, content: string, i: nat): (r: Option<(nat, nat)>)
    ensures r.Some? ==> i <= r.value.0 && OccursAt(html, "<p>" + content, r.value.0)
    ensures r.Some? ==> ParagraphEnd(html, content, r.value.0) == Some(r.value.1)
    ensures r.Some? ==> r.value.0 <= r.value.1 <= |html|
    ensures r.Some? ==> forall j :: i <= j < r.value.0 ==> ParagraphEnd(html, content, j).None?
    ensures r.None? ==> forall j :: i <= j ==> ParagraphEnd(html, content, j).None?
    decreases |html| - i
  {
    if i >= |html| then None
    else
      match ParagraphEnd(html, content, i)
      case Some(e) =>
        assert html[i..i + |"<p>" + content|] == ("<p>" + content + "</p>")[..|"<p>" + content|]
          by { if OccursAt(html, "<p>" + content + "</p>", i) { } }
        Some((i, e))
      case None => ParagraphSpot(html, content, i + 1)
  }

  /** One `html.replace(regex, …)` without the `g` flag: the first match of
      the pattern for `tag` and `content` becomes the annotated element. */
  function ApplyEntry(html: string, content: string, tag: string, info: AttrInfo): string
  {
    if tag == "p" then
      match ParagraphSpot(html, content, 0)
      case None => html
      case Some((i, j)) => html[..i] + Tagged(info, content) + html[j..]
    else
      var pat := PlainElement(tag, content);
      match IndexOf(html, pat)
      case None => html
      case Some(i) => html[..i] + Tagged(info, content) + html[i + |pat|..]
  }

  /** A key with exactly one `_`: the text before it holds none. */
  predicate OneCut(key: string)
  {
    match KeyParts(key)
    case None => false
    case Some((content, _)) => '_' !in content
  }

  /** For such a key both cuts give the same text and tag. */
  lemma OneCutAgrees(key: string)
    ensures OneCut(key) ==> KeyPartsAsWritten(key) == KeyParts(key).value
  {
    if OneCut(key) {
      var i := LastIndex(key, '_').value;
      var (content, tag) := KeyParts(key).value;
      assert key == Key(content, tag);
      KeyPartsAsWrittenRoundTrip(content, tag);
    }
  }

  /** `attributes.forEach` with the key cut as the program cuts it. While no
      key holds a second `_`, this is the cut at the last `_`. */
  function ApplyAllAsWritten(html: string, table: AttrTable): (r: string)
    ensures (forall k :: 0 <= k < |table| ==> OneCut(table[k].0)) ==> r == ApplyAll(html, table)
    decreases |table|
  {
    if table == [] then html
    else
      var (content, tag) := KeyPartsAsWritten(table[0].0);
      OneCutAgrees(table[0].0);
      ApplyAllAsWritten(ApplyEntry(html, content, tag, table[0].1), table[1..])
  }

  /** `attributes.forEach` with the key cut at its last `_`. */
  function ApplyAll(html: string, table: AttrTable): string
    decreases |table|
  {
    if table == [] then html
    else
      match KeyParts(table[0].0)
      case None => ApplyAll(html, table[1..])
      case Some((content, tag)) => ApplyAll(ApplyEntry(html, content, tag, table[0].1), table[1..])
  }

  /** `markdownToHtml(markdown)`, given the renderer `marked` and the
      `DOMParser` round trip that lists the body's children: the passes take
      the blank lines after an annotated line, and keys are cut at every
      `_`. */
  function MarkdownToHtml(md: string, marked: string -> string, serialize: string -> string): (r: string)
    ensures '{' !in md ==> r == serialize(marked(md))
  {
    var (stripped, table) := ExtractAsWritten(md);
    serialize(ApplyAllAsWritten(marked(stripped), table))
  }

  /** The conversion with blank lines kept and keys cut at their last `_`. */
  function MarkdownToHtmlCorrected(md: string, marked: string -> string, serialize: string -> string): (r: string)
    ensures '{' !in md ==> r == serialize(marked(md))
  {
    var (stripped, table) := Extract(md);
    serialize(ApplyAll(marked(stripped), table))
  }

  // ---------------------------------------------------------------------------
  // Properties: one line
  // ---------------------------------------------------------------------------

  /** A heading written by the heading rule loses its annotation and records
      it under `text_hN`, with the element's own id and class tokens. */
  lemma HeadingEntryRoundTrip(level: nat, content: string, node: Element)
    requires 1 <= level <= 6
    requires content != [] && IsTrimmed(content) && '{' !in content
    requires CleanElement(node) && AttrString(node) != []
    ensures HeadingLine(HeadingText(level, content, node)) == Hashes(level) + " " + content
    ensures HeadingEntry(HeadingText(level, content, node))
         == Some((Key(content, HeadingTag(level)), AttrInfo(HeadingTag(level), node.id, ClassTokens(node.className))))
  {
    HeadingLineRoundTrip(level, content, node);
    AttrRoundTrip(node);
  }

  /** An inline or paragraph text written with its annotation loses it and
      records it under `text_p`, unless it opens with `#`. */
  lemma ParagraphEntryRoundTrip(content: string, node: Element)
    requires content != [] && content[0] != '#' && IsTrimmed(content) && '{' !in content
    requires CleanElement(node) && AttrString(node) != []
    ensures ParagraphLine(InlineMarkdown(content, node)) == content
    ensures ParagraphEntry(InlineMarkdown(content, node))
         == Some((Key(content, "p"), AttrInfo("p", node.id, ClassTokens(node.className))))
  {
    ParagraphLineRoundTrip(content, node);
    AttrRoundTrip(node);
  }

  /** A line that opens with `#` is never an annotated paragraph, so the
      paragraph step keeps what the heading step produced. */
  lemma HashLineKept(line: string)
    requires line != [] && line[0] == '#'
    ensures ParagraphLine(line) == line && ParagraphEntry(line).None?
  {
  }

  /** A line that opens with something other than `#` is never an annotated
      heading. */
  lemma PlainStartNoHeading(line: string)
    requires line != [] && line[0] != '#'
    ensures HeadingLine(line) == line && HeadingEntry(line).None?
  {
    assert LeadingHashes(line) == 0;
  }

  /** A line without an opening brace goes through both steps untouched and
      records nothing. */
  lemma PlainLine(line: string)
    requires '{' !in line
    ensures HeadingLine(line) == line && HeadingEntry(line).None?
    ensures ParagraphLine(line) == line && ParagraphEntry(line).None?
  {
    NoBraceNoMatch(line);
  }

  // ---------------------------------------------------------------------------
  // Properties: the annotation table
  // ---------------------------------------------------------------------------

  /** Setting entries none of which has key `k` leaves `k`'s value alone. */
  lemma {:induction false} SetAllAbsent(m: AttrTable, es: seq<Entry>, k: string)
    requires forall j :: 0 <= j < |es| ==> es[j].0 != k
    ensures Get(SetAll(m, es), k) == Get(m, k)
    decreases |es|
  {
    if es != [] {
      SetAllAbsent(Put(m, es[0].0, es[0].1), es[1..], k);
    }
  }

  /** The last entry with a key decides that key's value. */
  lemma {:induction false} SetAllLast(m: AttrTable, es: seq<Entry>, i: nat)
    requires i < |es|
    requires forall j :: i < j < |es| ==> es[j].0 != es[i].0
    ensures Get(SetAll(m, es), es[i].0) == Some(es[i].1)
    decreases |es|
  {
    if i == 0 {
      SetAllAbsent(Put(m, es[0].0, es[0].1), es[1..], es[0].0);
    } else {
      SetAllLast(Put(m, es[0].0, es[0].1), es[1..], i - 1);
    }
  }

  /** Set from last to first, the first entry with a key decides it. */
  lemma SetAllReversedFirst(m: AttrTable, es: seq<Entry>, i: nat)
    requires i < |es|
    requires forall j :: 0 <= j < i ==> es[j].0 != es[i].0
    ensures Get(SetAll(m, Reverse(es)), es[i].0) == Some(es[i].1)
  {
    var r := Reverse(es);
    var n := |es| - 1 - i;
    assert r[n] == es[i];
    forall j | n < j < |r|
      ensures r[j].0 != r[n].0
    {
      assert r[j] == es[|es| - 1 - j];
    }
    SetAllLast(m, r, n);
  }

  /** Every heading key ends with the level digit. */
  lemma {:induction false} HeadingKeysEnd(lines: seq<string>)
    ensures forall j :: 0 <= j < |HeadingEntries(lines)| ==>
              HeadingEntries(lines)[j].0 != [] && '1' <= Last(HeadingEntries(lines)[j].0) <= '6'
    decreases |lines|
  {
    if lines != [] {
      HeadingKeysEnd(lines[1..]);
    }
  }

  /** Every paragraph key ends with `p`. */
  lemma {:induction false} ParagraphKeysEnd(lines: seq<string>)
    ensures forall j :: 0 <= j < |ParagraphEntries(lines)| ==>
              ParagraphEntries(lines)[j].0 != [] && Last(ParagraphEntries(lines)[j].0) == 'p'
    decreases |lines|
  {
    if lines != [] {
      ParagraphKeysEnd(lines[1..]);
    }
  }

  function Last(s: string): char
    requires s != []
  {
    s[|s| - 1]
  }

  /** Among headings with the same text and level, the last one's annotation
      is the one kept. */
  lemma HeadingLastWins(lines: seq<string>, i: nat)
    requires i < |HeadingEntries(lines)|
    requires forall j :: i < j < |HeadingEntries(lines)| ==> HeadingEntries(lines)[j].0 != HeadingEntries(lines)[i].0
    ensures Get(TableOf(lines), HeadingEntries(lines)[i].0) == Some(HeadingEntries(lines)[i].1)
  {
    var hs := HeadingEntries(lines);
    var ps := Reverse(ParagraphEntries(HeadingPass(lines)));
    SetAllLast([], hs, i);
    HeadingKeysEnd(lines);
    ReversedParagraphKeysEnd(HeadingPass(lines));
    SetAllAbsent(SetAll([], hs), ps, hs[i].0);
  }

  lemma ReversedParagraphKeysEnd(lines: seq<string>)
    ensures forall j :: 0 <= j < |Reverse(ParagraphEntries(lines))| ==>
              Reverse(ParagraphEntries(lines))[j].0 != [] && Last(Reverse(ParagraphEntries(lines))[j].0) == 'p'
  {
    var es := ParagraphEntries(lines);
    ParagraphKeysEnd(lines);
    forall j | 0 <= j < |Reverse(es)|
      ensures Reverse(es)[j].0 != [] && Last(Reverse(es)[j].0) == 'p'
    {
      assert Reverse(es)[j] == es[|es| - 1 - j];
    }
  }

  /** Among annotated paragraphs with the same text, the first one's
      annotation is the one kept. */
  lemma ParagraphFirstWins(lines: seq<string>, i: nat)
    requires i < |ParagraphEntries(HeadingPass(lines))|
    requires forall j :: 0 <= j < i ==>
               ParagraphEntries(HeadingPass(lines))[j].0 != ParagraphEntries(HeadingPass(lines))[i].0
    ensures Get(TableOf(lines), ParagraphEntries(HeadingPass(lines))[i].0) == Some(ParagraphEntries(HeadingPass(lines))[i].1)
  {
    SetAllReversedFirst(SetAll([], HeadingEntries(lines)), ParagraphEntries(HeadingPass(lines)), i);
  }

  // ---------------------------------------------------------------------------
  // Properties: a whole text
  // ---------------------------------------------------------------------------

  /** Lines that are left alone by both steps record nothing. */
  lemma {:induction false} PlainLines(lines: seq<string>)
    requires forall i :: 0 <= i < |lines| ==> '{' !in lines[i]
    ensures HeadingPass(lines) == lines && HeadingEntries(lines) == []
    ensures ParagraphPass(lines) == lines && ParagraphEntries(lines) == []
    decreases |lines|
  {
    if lines != [] {
      PlainLine(lines[0]);
      PlainLines(lines[1..]);
    }
  }

  /** Markdown without an opening brace goes through both readings of the
      passes untouched and records nothing. */
  lemma PlainText(md: string)
    ensures var lines := Split(md, '\n');
      '{' !in md ==> (ParagraphPass(HeadingPass(lines)) == lines && TableOf(lines) == []
                      && PassAsWritten(Headings, lines, false) == lines
                      && PassAsWritten(Paragraphs, lines, false) == lines
                      && HeadingEntries(lines) == [] && ParagraphEntries(lines) == [])
  {
    if '{' !in md {
      var lines := Split(md, '\n');
      forall i | 0 <= i < |lines|
        ensures '{' !in lines[i]
      {
        if '{' in lines[i] {
          JoinMember(lines, "\n", i, '{');
        }
      }
      PlainLines(lines);
      forall i | 0 <= i < |lines|
        ensures !Hits(Headings, lines[i]) && !Hits(Paragraphs, lines[i])
      {
        PlainLine(lines[i]);
      }
    }
  }

  /** A text of one line goes through both steps as that line. */
  lemma ExtractOneLine(line: string)
    requires '\n' !in line
    ensures Extract(line).0 == ParagraphLine(HeadingLine(line))
    ensures Extract(line).1
         == SetAll(SetAll([], Found(HeadingEntry(line))), Found(ParagraphEntry(HeadingLine(line))))
  {
    SplitNoSeparator(line, '\n');
    OneLinePasses(line);
    OneLinePasses(HeadingLine(line));
    var ps := Found(ParagraphEntry(HeadingLine(line)));
    assert Reverse(ps) == ps;
  }

  lemma OneLinePasses(line: string)
    ensures HeadingPass([line]) == [HeadingLine(line)]
    ensures ParagraphPass([line]) == [ParagraphLine(line)]
    ensures HeadingEntries([line]) == Found(HeadingEntry(line))
    ensures ParagraphEntries([line]) == Found(ParagraphEntry(line))
  {
    assert HeadingEntries([line]) == Found(HeadingEntry(line)) + HeadingEntries([]);
    assert ParagraphEntries([line]) == Found(ParagraphEntry(line)) + ParagraphEntries([]);
  }

  /** A text of one line has no blank line to lose: both readings agree. */
  lemma ExtractAsWrittenOneLine(line: string)
    requires '\n' !in line
    ensures ExtractAsWritten(line) == Extract(line)
  {
    SplitNoSeparator(line, '\n');
    OneLinePasses(line);
    OneLinePasses(HeadingLine(line));
    assert PassAsWritten(Headings, [line], false) == [HeadingLine(line)] by {
      assert [line][1..] == [];
    }
    assert PassAsWritten(Paragraphs, [HeadingLine(line)], false) == [ParagraphLine(HeadingLine(line))] by {
      assert [HeadingLine(line)][1..] == [];
    }
  }

  /** Without whitespace-only lines a pass over the whole text rewrites every
      line in place. */
  lemma {:induction false} PassAsWrittenNoBlank(pass: Pass, lines: seq<string>, after: bool)
    requires forall i :: 0 <= i < |lines| ==> !AllSpace(lines[i])
    ensures |PassAsWritten(pass, lines, after)| == |lines|
    ensures forall i :: 0 <= i < |lines| ==> PassAsWritten(pass, lines, after)[i] == Rewrite(pass, lines[i])
    decreases |lines|
  {
    if lines != [] {
      PassAsWrittenNoBlank(pass, lines[1..], Hits(pass, lines[0]));
    }
  }

  /** The heading replace never turns a line with text into a blank one. */
  lemma HeadingLineNotBlank(line: string)
    requires !AllSpace(line)
    ensures !AllSpace(HeadingLine(line))
  {
    match HeadingMatch(line)
    case None =>
    case Some(h) =>
      assert HeadingLine(line)[0] == '#';
  }

  /** Without whitespace-only lines nothing is swallowed, and the program's
      passes agree with the line-by-line reading. */
  lemma ExtractAgrees(md: string)
    requires forall i :: 0 <= i < |Split(md, '\n')| ==> !AllSpace(Split(md, '\n')[i])
    ensures ExtractAsWritten(md) == Extract(md)
  {
    var lines := Split(md, '\n');
    PassAsWrittenNoBlank(Headings, lines, false);
    var headed := PassAsWritten(Headings, lines, false);
    assert headed == HeadingPass(lines);
    forall i | 0 <= i < |headed|
      ensures !AllSpace(headed[i])
    {
      HeadingLineNotBlank(lines[i]);
    }
    PassAsWrittenNoBlank(Paragraphs, headed, false);
    assert PassAsWritten(Paragraphs, headed, false) == ParagraphPass(headed);
  }

  /** A whitespace-only line right after a matched line disappears with the
      match, as if it had never been there. */
  lemma SwallowBlank(pass: Pass, line: string, blank: string, rest: seq<string>, after: bool)
    requires Hits(pass, line) && !AllSpace(line) && AllSpace(blank)
    ensures PassAsWritten(pass, [line, blank] + rest, after) == PassAsWritten(pass, [line] + rest, after)
  {
    assert ([line, blank] + rest)[1..] == [blank] + rest;
    assert ([blank] + rest)[1..] == rest;
    assert ([line] + rest)[1..] == rest;
  }

  /** An annotated paragraph, a blank line and a line of text. */
  lemma ThreeLines(line: string, next: string)
    requires '\n' !in line && '\n' !in next
    ensures Split(line + "\n\n" + next, '\n') == [line, [], next]
  {
    assert line + "\n\n" + next == line + ['\n'] + ([] + ['\n'] + next);
    SplitAfterPiece(line, [] + ['\n'] + next, '\n');
    SplitAfterPiece([], next, '\n');
    SplitNoSeparator(next, '\n');
  }

  /** One line kept by a pass over the whole text. */
  lemma PassKeeps(pass: Pass, line: string, rest: seq<string>, after: bool)
    requires !(after && AllSpace(line))
    ensures PassAsWritten(pass, [line] + rest, after) == [Rewrite(pass, line)] + PassAsWritten(pass, rest, Hits(pass, line))
  {
    assert ([line] + rest)[1..] == rest;
  }

  /** One whitespace-only line taken by the match before it. */
  lemma PassSkips(pass: Pass, line: string, rest: seq<string>)
    requires AllSpace(line)
    ensures PassAsWritten(pass, [line] + rest, true) == PassAsWritten(pass, rest, true)
  {
    assert ([line] + rest)[1..] == rest;
  }

  lemma RewriteMiss(pass: Pass, line: string)
    requires !Hits(pass, line)
    ensures Rewrite(pass, line) == line
  {
  }

  /** The heading pass, matching none of the three lines, keeps them all. */
  lemma HeadingsKeepThree(line: string, next: string)
    requires !Hits(Headings, line) && !Hits(Headings, []) && !Hits(Headings, next)
    ensures PassAsWritten(Headings, [line, [], next], false) == [line, [], next]
  {
    RewriteMiss(Headings, line);
    RewriteMiss(Headings, []);
    RewriteMiss(Headings, next);
    PassKeeps(Headings, next, [], false);
    PassKeeps(Headings, [], [next], false);
    PassKeeps(Headings, line, [[], next], false);
    assert [line] + [[], next] == [line, [], next];
    assert [[]] + [next] == [[], next];
  }

  /** The paragraph pass, matching the first line, takes the blank one. */
  lemma ParagraphsTakeBlank(line: string, content: string, next: string)
    requires Hits(Paragraphs, line) && Rewrite(Paragraphs, line) == content && !AllSpace(next)
    ensures PassAsWritten(Paragraphs, [line, [], next], false) == [content, Rewrite(Paragraphs, next)]
  {
    PassKeeps(Paragraphs, next, [], true);
    PassSkips(Paragraphs, [], [next]);
    PassKeeps(Paragraphs, line, [[], next], false);
    assert [line] + [[], next] == [line, [], next];
    assert [[]] + [next] == [[], next];
  }

  /** The three lines through both passes as the program runs them. */
  lemma SwallowedLines(line: string, content: string, next: string)
    requires !Hits(Headings, line) && Hits(Paragraphs, line) && ParagraphLine(line) == content
    requires !Hits(Headings, []) && !Hits(Headings, next) && !Hits(Paragraphs, next) && !AllSpace(next)
    ensures PassAsWritten(Paragraphs, PassAsWritten(Headings, [line, [], next], false), false) == [content, next]
  {
    HeadingsKeepThree(line, next);
    ParagraphsTakeBlank(line, content, next);
    RewriteMiss(Paragraphs, next);
  }

  /** The three lines read line by line. */
  lemma KeptLines(line: string, content: string, next: string)
    requires !Hits(Headings, line) && ParagraphLine(line) == content
    requires !Hits(Headings, []) && !Hits(Paragraphs, []) && !Hits(Headings, next) && !Hits(Paragraphs, next)
    ensures ParagraphPass(HeadingPass([line, [], next])) == [content, [], next]
  {
    assert HeadingPass([line, [], next]) == [line, [], next];
  }

  /** The facts both readings need about an annotated paragraph followed by a
      blank line and a plain one. */
  lemma ParagraphThenPlain(content: string, node: Element, next: string)
    requires content != [] && content[0] != '#' && IsTrimmed(content) && '{' !in content && '\n' !in content
    requires CleanElement(node) && AttrString(node) != []
    requires '{' !in next && '\n' !in next
    ensures var line := InlineMarkdown(content, node);
      && Split(line + "\n\n" + next, '\n') == [line, [], next]
      && !Hits(Headings, line) && Hits(Paragraphs, line) && ParagraphLine(line) == content && !AllSpace(line)
      && !Hits(Headings, []) && !Hits(Paragraphs, []) && !Hits(Headings, next) && !Hits(Paragraphs, next)
  {
    var line := InlineMarkdown(content, node);
    assert '\n' !in line by {
      AttrStringNoNewline(node);
    }
    ThreeLines(line, next);
    PlainStartNoHeading(line);
    ParagraphEntryRoundTrip(content, node);
    PlainLine([]);
    PlainLine(next);
    assert !AllSpace(line) by {
      assert line[0] == content[0];
    }
  }

  /** As written, the blank line after an annotated paragraph goes with the
      annotation, so the renderer sees the next line as part of the same
      paragraph. */
  lemma BlankAfterParagraphSwallowed(content: string, node: Element, next: string)
    requires content != [] && content[0] != '#' && IsTrimmed(content) && '{' !in content && '\n' !in content
    requires CleanElement(node) && AttrString(node) != []
    requires '{' !in next && '\n' !in next && !AllSpace(next)
    ensures ExtractAsWritten(InlineMarkdown(content, node) + "\n\n" + next).0 == content + "\n" + next
  {
    var line := InlineMarkdown(content, node);
    ParagraphThenPlain(content, node, next);
    SwallowedLines(line, content, next);
    assert Join([content, next], "\n") == content + "\n" + next;
  }

  /** Read line by line, the blank line stays and the two paragraphs stay
      apart. */
  lemma BlankAfterParagraphKept(content: string, node: Element, next: string)
    requires content != [] && content[0] != '#' && IsTrimmed(content) && '{' !in content && '\n' !in content
    requires CleanElement(node) && AttrString(node) != []
    requires '{' !in next && '\n' !in next && !AllSpace(next)
    ensures Extract(InlineMarkdown(content, node) + "\n\n" + next).0 == content + "\n\n" + next
  {
    var line := InlineMarkdown(content, node);
    var text := line + "\n\n" + next;
    ParagraphThenPlain(content, node, next);
    KeptLines(line, content, next);
    assert Extract(text).0 == Join([content, [], next], "\n");
    JoinBlank(content, next);
  }

  lemma JoinBlank(a: string, b: string)
    ensures Join([a, [], b], "\n") == a + "\n\n" + b
  {
    assert Join([[], b], "\n") == [] + "\n" + b;
    assert Join([a, [], b], "\n") == a + "\n" + Join([[], b], "\n");
  }

  /** A one-line annotated heading reaches the renderer as hashes and text,
      with one recorded annotation. */
  lemma ExtractHeading(level: nat, content: string, node: Element)
    requires 1 <= level <= 6
    requires content != [] && IsTrimmed(content) && '{' !in content && '\n' !in content
    requires CleanElement(node) && AttrString(node) != []
    ensures Extract(HeadingText(level, content, node))
         == (Hashes(level) + " " + content,
             [(Key(content, HeadingTag(level)), AttrInfo(HeadingTag(level), node.id, ClassTokens(node.className)))])
  {
    var line := HeadingText(level, content, node);
    assert '\n' !in line by {
      AttrStringNoNewline(node);
    }
    ExtractOneLine(line);
    HeadingEntryRoundTrip(level, content, node);
    HashLineKept(Hashes(level) + " " + content);
  }

  /** A one-line annotated paragraph reaches the renderer as its text, with
      one recorded annotation. */
  lemma ExtractParagraph(content: string, node: Element)
    requires content != [] && content[0] != '#' && IsTrimmed(content) && '{' !in content && '\n' !in content
    requires CleanElement(node) && AttrString(node) != []
    ensures Extract(InlineMarkdown(content, node))
         == (content, [(Key(content, "p"), AttrInfo("p", node.id, ClassTokens(node.className)))])
  {
    var line := InlineMarkdown(content, node);
    assert '\n' !in line by {
      AttrStringNoNewline(node);
    }
    ExtractOneLine(line);
    PlainStartNoHeading(line);
    ParagraphEntryRoundTrip(content, node);
  }

  // ---------------------------------------------------------------------------
  // Properties: putting annotations back
  // ---------------------------------------------------------------------------

  /** Cutting at the last `_` undoes `Key` for any text and a tag without `_`. */
  lemma KeyPartsRoundTrip(content: string, tag: string)
    requires '_' !in tag
    ensures KeyParts(Key(content, tag)) == Some((content, tag))
  {
    var key := Key(content, tag);
    var n := |content|;
    assert key[n] == '_';
    var i := LastIndex(key, '_').value;
    assert i == n by {
      if i < n {
        assert false;
      } else if i > n {
        assert false;
      }
    }
    assert key[..n] == content && key[n + 1..] == tag;
  }

  /** The program's own cut undoes `Key` when the text has no `_` either. */
  lemma KeyPartsAsWrittenRoundTrip(content: string, tag: string)
    requires '_' !in content && '_' !in tag
    ensures KeyPartsAsWritten(Key(content, tag)) == (content, tag)
  {
    SplitAfterPiece(content, tag, '_');
    SplitNoSeparator(tag, '_');
  }

  /** When the text holds `_`, the program's cut returns the text up to its
      first `_` and the next piece of the text as the tag. */
  lemma KeyPartsAsWrittenCut(a: string, b: string, tag: string)
    requires '_' !in a && '_' !in b
    ensures KeyPartsAsWritten(Key(a + "_" + b, tag)) == (a, b)
  {
    assert Key(a + "_" + b, tag) == a + "_" + (b + "_" + tag);
    SplitAfterPiece(a, b + "_" + tag, '_');
    SplitAfterPiece(b, tag, '_');
  }

  lemma KeyPartsAsWrittenExample()
    ensures KeyPartsAsWritten("my_title_h2") == ("my", "title")
  {
    assert Key("my" + "_" + "title", "h2") == "my_title_h2";
    KeyPartsAsWrittenCut("my", "title", "h2");
  }

  /** The characters the program escapes in the text before it builds a
      pattern from it. The tag piece is pasted in without this escaping. */
  const RegexMeta: string := ".*+?^${}()|[]\\"

  /** Text that means itself inside a pattern. */
  predicate MetaFree(t: string)
  {
    forall i :: 0 <= i < |t| ==> t[i] !in RegexMeta
  }

  /** The tags the passes record: `p` and `h1` to `h6`. */
  predicate ElementTag(t: string)
  {
    t == "p" || (|t| == 2 && t[0] == 'h' && '1' <= t[1] <= '6')
  }

  /** For text without `_` the program's cut hands the pattern the recorded
      tag itself, which holds no metacharacter, so the pattern is the literal
      element the model searches for. */
  lemma TagPieceLiteral(content: string, tag: string)
    requires '_' !in content && ElementTag(tag)
    ensures KeyPartsAsWritten(Key(content, tag)).1 == tag && MetaFree(tag)
  {
    KeyPartsAsWrittenRoundTrip(content, tag);
  }

  /** For text with a `_` the tag piece is a piece of the text: the paragraph
      `Use a_b (c` hands the pattern `b (c`, whose `(` opens a group that is
      never closed. */
  lemma UnescapedTagPiece()
    ensures KeyPartsAsWritten(Key("Use a_b (c", "p")) == ("Use a", "b (c")
    ensures !MetaFree("b (c")
  {
    assert "Use a_b (c" == "Use a" + "_" + "b (c";
    KeyPartsAsWrittenCut("Use a", "b (c", "p");
    assert "b (c"[2] == '(';
  }

  /** Cut at its last `_`, every key hands the pattern its recorded tag,
      whatever the text holds. */
  lemma TagPieceLiteralCorrected(content: string, tag: string)
    requires ElementTag(tag)
    ensures KeyParts(Key(content, tag)) == Some((content, tag)) && MetaFree(tag)
  {
    KeyPartsRoundTrip(content, tag);
  }

  /** The first `<tag>content</tag>` becomes the annotated element; anything
      after it, a later copy included, is kept. */
  lemma ApplyHeadingFirst(pre: string, content: string, tag: string, post: string, info: AttrInfo)
    requires tag != "p"
    requires forall j :: 0 <= j < |pre| ==>
               !OccursAt(pre + PlainElement(tag, content) + post, PlainElement(tag, content), j)
    ensures ApplyEntry(pre + PlainElement(tag, content) + post, content, tag, info)
         == pre + Tagged(info, content) + post
  {
    var pat := PlainElement(tag, content);
    var html := pre + pat + post;
    assert html[|pre|..|pre| + |pat|] == pat;
    IndexOfFirst(html, pat, |pre|);
    assert html[..|pre|] == pre && html[|pre| + |pat|..] == post;
  }

  /** Without `<tag>content</tag>` the text is left alone. */
  lemma ApplyHeadingAbsent(html: string, content: string, tag: string, info: AttrInfo)
    requires tag != "p" && !Contains(html, PlainElement(tag, content))
    ensures ApplyEntry(html, content, tag, info) == html
  {
  }

  /** The leftmost place the paragraph pattern matches is found. */
  lemma ParagraphSpotIs(html: string, content: string, q: nat, e: nat)
    requires ParagraphEnd(html, content, q) == Some(e)
    requires forall j :: 0 <= j < q ==> ParagraphEnd(html, content, j).None?
    ensures ParagraphSpot(html, content, 0) == Some((q, e))
  {
  }

  /** A match of `<p>content</p>` or of the open form needs `<p>content`. */
  lemma ParagraphEndNeedsOpen(html: string, content: string, j: nat)
    requires !OccursAt(html, "<p>" + content, j)
    ensures ParagraphEnd(html, content, j).None?
  {
    if OccursAt(html, "<p>" + content + "</p>", j) {
      OpenOfClosed(html, content, j);
      assert false;
    }
  }

  lemma ClosedHasTag(html: string, content: string, j: nat)
    requires OccursAt(html, "<p>" + content + "</p>", j)
    ensures html[j + |"<p>" + content|] == '<'
  {
    assert html[j + |"<p>" + content|] == ("<p>" + content + "</p>")[|"<p>" + content|];
  }

  lemma OpenOfClosed(html: string, content: string, j: nat)
    requires OccursAt(html, "<p>" + content + "</p>", j)
    ensures OccursAt(html, "<p>" + content, j)
  {
    var open := "<p>" + content;
    assert html[j..j + |open|] == (open + "</p>")[..|open|];
  }

  /** The first `<p>content</p>` becomes the annotated element. */
  lemma ApplyParagraphClosed(pre: string, content: string, post: string, info: AttrInfo)
    requires forall j :: 0 <= j < |pre| ==> !OccursAt(pre + "<p>" + content + "</p>" + post, "<p>" + content, j)
    ensures ApplyEntry(pre + "<p>" + content + "</p>" + post, content, "p", info) == pre + Tagged(info, content) + post
  {
    var whole := "<p>" + content + "</p>";
    var html := pre + "<p>" + content + "</p>" + post;
    assert html[|pre|..|pre| + |whole|] == whole;
    assert ParagraphEnd(html, content, |pre|) == Some(|pre| + |whole|);
    forall j | 0 <= j < |pre|
      ensures ParagraphEnd(html, content, j).None?
    {
      ParagraphEndNeedsOpen(html, content, j);
    }
    ParagraphSpotIs(html, content, |pre|, |pre| + |whole|);
    assert html[..|pre|] == pre && html[|pre| + |whole|..] == post;
  }

  /** An unclosed `<p>content` followed only by whitespace becomes the
      annotated element, the whitespace included. */
  lemma ApplyParagraphOpen(pre: string, content: string, ws: string, info: AttrInfo)
    requires AllSpace(ws)
    requires forall j :: 0 <= j < |pre| ==> !OccursAt(pre + "<p>" + content + ws, "<p>" + content, j)
    ensures ApplyEntry(pre + "<p>" + content + ws, content, "p", info) == pre + Tagged(info, content)
  {
    var open := "<p>" + content;
    var html := pre + "<p>" + content + ws;
    assert html[|pre|..|pre| + |open|] == open;
    assert html[|pre| + |open|..] == ws;
    assert !OccursAt(html, open + "</p>", |pre|) by {
      if OccursAt(html, open + "</p>", |pre|) {
        ClosedHasTag(html, content, |pre|);
        assert false;
      }
    }
    assert ParagraphEnd(html, content, |pre|) == Some(|html|);
    forall j | 0 <= j < |pre|
      ensures ParagraphEnd(html, content, j).None?
    {
      ParagraphEndNeedsOpen(html, content, j);
    }
    ParagraphSpotIs(html, content, |pre|, |html|);
    assert html[..|pre|] == pre;
  }

  /** Without `<p>content` the text is left alone. */
  lemma ApplyParagraphAbsent(html: string, content: string, info: AttrInfo)
    requires !Contains(html, "<p>" + content)
    ensures ApplyEntry(html, content, "p", info) == html
  {
  }

  // ---------------------------------------------------------------------------
  // Properties: from HTML through Markdown back to HTML
  // ---------------------------------------------------------------------------

  lemma HeadingTagPlain(level: nat)
    requires 1 <= level <= 6
    ensures '_' !in HeadingTag(level) && HeadingTag(level) != "p"
  {
    var t := HeadingTag(level);
    assert t[0] != '_' && t[1] != '_';
    assert t != "p" by {
      assert |t| != |"p"|;
    }
  }

  /** The conversion in terms of what the extraction yields. */
  lemma MarkdownToHtmlOf(md: string, marked: string -> string, serialize: string -> string,
                         stripped: string, table: AttrTable)
    requires ExtractAsWritten(md) == (stripped, table)
    ensures MarkdownToHtml(md, marked, serialize) == serialize(ApplyAllAsWritten(marked(stripped), table))
  {
  }

  lemma MarkdownToHtmlCorrectedOf(md: string, marked: string -> string, serialize: string -> string,
                                  stripped: string, table: AttrTable)
    requires Extract(md) == (stripped, table)
    ensures MarkdownToHtmlCorrected(md, marked, serialize) == serialize(ApplyAll(marked(stripped), table))
  {
  }

  /** A table of one entry whose key cuts into `content` and `tag`. */
  lemma ApplyAllOne(html: string, key: string, info: AttrInfo, content: string, tag: string)
    requires KeyParts(key) == Some((content, tag))
    ensures ApplyAll(html, [(key, info)]) == ApplyEntry(html, content, tag, info)
  {
    assert [(key, info)][1..] == [];
  }

  lemma ApplyAllAsWrittenOne(html: string, key: string, info: AttrInfo)
    ensures ApplyAllAsWritten(html, [(key, info)])
         == ApplyEntry(html, KeyPartsAsWritten(key).0, KeyPartsAsWritten(key).1, info)
  {
    assert [(key, info)][1..] == [];
  }

  /** An annotated heading whose text holds no `_` comes back from Markdown
      as an element with the same tag, id and classes, wherever the renderer
      puts its plain form. */
  lemma HeadingToHtml(level: nat, content: string, node: Element, pre: string, post: string,
                      marked: string -> string, serialize: string -> string)
    requires 1 <= level <= 6
    requires content != [] && IsTrimmed(content) && '{' !in content && '\n' !in content && '_' !in content
    requires CleanElement(node) && AttrString(node) != []
    requires marked(Hashes(level) + " " + content) == pre + PlainElement(HeadingTag(level), content) + post
    requires forall j :: 0 <= j < |pre| ==>
               !OccursAt(pre + PlainElement(HeadingTag(level), content) + post, PlainElement(HeadingTag(level), content), j)
    ensures MarkdownToHtml(HeadingText(level, content, node), marked, serialize)
         == serialize(pre + Tagged(AttrInfo(HeadingTag(level), node.id, ClassTokens(node.className)), content) + post)
  {
    var tag := HeadingTag(level);
    var info := AttrInfo(tag, node.id, ClassTokens(node.className));
    var key := Key(content, tag);
    var text := HeadingText(level, content, node);
    ExtractHeading(level, content, node);
    assert '\n' !in text by {
      AttrStringNoNewline(node);
    }
    ExtractAsWrittenOneLine(text);
    MarkdownToHtmlOf(text, marked, serialize, Hashes(level) + " " + content, [(key, info)]);
    HeadingTagPlain(level);
    KeyPartsAsWrittenRoundTrip(content, tag);
    ApplyAllAsWrittenOne(pre + PlainElement(tag, content) + post, key, info);
    ApplyHeadingFirst(pre, content, tag, post, info);
  }

  /** An annotated paragraph whose text holds no `_` comes back from Markdown
      as a `p` element with the same id and classes. */
  lemma ParagraphToHtml(content: string, node: Element, pre: string, post: string,
                        marked: string -> string, serialize: string -> string)
    requires content != [] && content[0] != '#' && IsTrimmed(content) && '{' !in content && '\n' !in content
    requires '_' !in content
    requires CleanElement(node) && AttrString(node) != []
    requires marked(content) == pre + "<p>" + content + "</p>" + post
    requires forall j :: 0 <= j < |pre| ==> !OccursAt(pre + "<p>" + content + "</p>" + post, "<p>" + content, j)
    ensures MarkdownToHtml(InlineMarkdown(content, node), marked, serialize)
         == serialize(pre + Tagged(AttrInfo("p", node.id, ClassTokens(node.className)), content) + post)
  {
    var info := AttrInfo("p", node.id, ClassTokens(node.className));
    var key := Key(content, "p");
    var text := InlineMarkdown(content, node);
    ExtractParagraph(content, node);
    assert '\n' !in text by {
      AttrStringNoNewline(node);
    }
    ExtractAsWrittenOneLine(text);
    MarkdownToHtmlOf(text, marked, serialize, content, [(key, info)]);
    KeyPartsAsWrittenRoundTrip(content, "p");
    ApplyAllAsWrittenOne(pre + "<p>" + content + "</p>" + post, key, info);
    ApplyParagraphClosed(pre, content, post, info);
  }

  /** With keys cut at their last `_`, an annotated heading comes back from
      Markdown as an element with the same tag, id and classes whatever its
      text. */
  lemma HeadingToHtmlCorrected(level: nat, content: string, node: Element, pre: string, post: string,
                      marked: string -> string, serialize: string -> string)
    requires 1 <= level <= 6
    requires content != [] && IsTrimmed(content) && '{' !in content && '\n' !in content
    requires CleanElement(node) && AttrString(node) != []
    requires marked(Hashes(level) + " " + content) == pre + PlainElement(HeadingTag(level), content) + post
    requires forall j :: 0 <= j < |pre| ==>
               !OccursAt(pre + PlainElement(HeadingTag(level), content) + post, PlainElement(HeadingTag(level), content), j)
    ensures MarkdownToHtmlCorrected(HeadingText(level, content, node), marked, serialize)
         == serialize(pre + Tagged(AttrInfo(HeadingTag(level), node.id, ClassTokens(node.className)), content) + post)
  {
    var tag := HeadingTag(level);
    var info := AttrInfo(tag, node.id, ClassTokens(node.className));
    var key := Key(content, tag);
    ExtractHeading(level, content, node);
    MarkdownToHtmlCorrectedOf(HeadingText(level, content, node), marked, serialize, Hashes(level) + " " + content, [(key, info)]);
    HeadingTagPlain(level);
    KeyPartsRoundTrip(content, tag);
    ApplyAllOne(pre + PlainElement(tag, content) + post, key, info, content, tag);
    ApplyHeadingFirst(pre, content, tag, post, info);
  }

  /** With keys cut at their last `_`, an annotated paragraph comes back as a
      `p` element with the same id and classes whatever its text. */
  lemma ParagraphToHtmlCorrected(content: string, node: Element, pre: string, post: string,
                        marked: string -> string, serialize: string -> string)
    requires content != [] && content[0] != '#' && IsTrimmed(content) && '{' !in content && '\n' !in content
    requires CleanElement(node) && AttrString(node) != []
    requires marked(content) == pre + "<p>" + content + "</p>" + post
    requires forall j :: 0 <= j < |pre| ==> !OccursAt(pre + "<p>" + content + "</p>" + post, "<p>" + content, j)
    ensures MarkdownToHtmlCorrected(InlineMarkdown(content, node), marked, serialize)
         == serialize(pre + Tagged(AttrInfo("p", node.id, ClassTokens(node.className)), content) + post)
  {
    var info := AttrInfo("p", node.id, ClassTokens(node.className));
    var key := Key(content, "p");
    ExtractParagraph(content, node);
    MarkdownToHtmlCorrectedOf(InlineMarkdown(content, node), marked, serialize, content, [(key, info)]);
    KeyPartsRoundTrip(content, "p");
    ApplyAllOne(pre + "<p>" + content + "</p>" + post, key, info, content, "p");
    ApplyParagraphClosed(pre, content, post, info);
  }

  /** A heading whose text holds `_` keeps no annotation: the program looks
      for a `title` element holding `my`. */
  lemma UnderscoreHeadingLost(info: AttrInfo)
    ensures ApplyAllAsWritten("<h2>my_title</h2>", [("my_title_h2", info)]) == "<h2>my_title</h2>"
  {
    var html := "<h2>my_title</h2>";
    KeyPartsAsWrittenExample();
    ApplyAllAsWrittenOne(html, "my_title_h2", info);
    NoTitleElement(html);
  }

  lemma NoTitleElement(html: string)
    requires html == "<h2>my_title</h2>"
    ensures !Contains(html, PlainElement("title", "my"))
  {
    var pat := PlainElement("title", "my");
    assert |pat| == |html|;
    assert pat[1] == 't' && html[1] == 'h';
  }

  lemma KeyPartsExample()
    ensures KeyParts("my_title_h2") == Some(("my_title", "h2"))
  {
    assert Key("my_title", "h2") == "my_title_h2";
    KeyPartsRoundTrip("my_title", "h2");
  }

  /** Cutting the same key at its last `_` finds the heading. */
  lemma UnderscoreHeadingKept(info: AttrInfo)
    ensures ApplyAll("<h2>my_title</h2>", [("my_title_h2", info)]) == Tagged(info, "my_title")
  {
    var html := "<h2>my_title</h2>";
    KeyPartsExample();
    ApplyAllOne(html, "my_title_h2", info, "my_title", "h2");
    HeadingElementExample(html, info);
  }

  lemma HeadingElementExample(html: string, info: AttrInfo)
    requires html == "<h2>my_title</h2>"
    ensures ApplyEntry(html, "my_title", "h2", info) == Tagged(info, "my_title")
  {
    assert html == [] + PlainElement("h2", "my_title") + [];
    ApplyHeadingFirst([], "my_title", "h2", [], info);
    assert [] + Tagged(info, "my_title") + [] == Tagged(info, "my_title");
  }
}

=== FILE: maybe.dfy ===
/** The optional value used wherever the program returns `null`/`undefined`
    or a lookup may miss. */
module Maybe {

  datatype Option<+T> = None | Some(value: T) {

    /** The value, or `default` when there is none. */
    function GetOr(default: T): T
    {
      match this
      case Some(v) => v
      case None => default
    }
  }
}

=== FILE: numerals.dfy ===
/** Decimal and hexadecimal numerals: the digits `parseInt` reads, the text
    `String(n)` writes, and the lower-case text `n.toString(16)` writes,
    for non-negative integers. */
module Numerals {

  predicate IsDigit(c: char)
  {
    '0' <= c <= '9'
  }

  predicate AllDigits(s: string)
  {
    forall i :: 0 <= i < |s| ==> IsDigit(s[i])
  }

  /** The length of the run of decimal digits `s` starts with. */
  function DigitRun(s: string): (n: nat)
    ensures n <= |s|
    ensures AllDigits(s[..n])
    ensures n < |s| ==> !IsDigit(s[n])
  {
    if s == [] || !IsDigit(s[0]) then 0
    else
      var n := DigitRun(s[1..]);
      assert forall i :: 0 <= i < n ==> s[1..][..n][i] == s[i + 1];
      1 + n
  }

  /** A run of digits followed by a non-digit is read up to that non-digit. */
  lemma {:induction false} DigitRunPrefix(d: string, t: string)
    requires AllDigits(d)
    requires t == [] || !IsDigit(t[0])
    ensures DigitRun(d + t) == |d|
  {
    if d != [] {
      assert (d + t)[1..] == d[1..] + t;
      DigitRunPrefix(d[1..], t);
    }
  }

  function DigitValue(c: char): nat
    requires IsDigit(c)
  {
    c as int - '0' as int
  }

  function DigitChar(d: nat): (c: char)
    requires d < 10
    ensures IsDigit(c) && DigitValue(c) == d
  {
    ('0' as int + d) as char
  }

  /** The value of a decimal numeral; leading zeros add nothing. */
  function DecValue(s: string): nat
    requires AllDigits(s)
  {
    if s == [] then 0 else 10 * DecValue(s[..|s| - 1]) + DigitValue(s[|s| - 1])
  }

  /** `String(n)`: the decimal numeral of `n`, without leading zeros. */
  function Dec(n: nat): (s: string)
    ensures s != [] && AllDigits(s)
  {
    if n < 10 then [DigitChar(n)] else Dec(n / 10) + [DigitChar(n % 10)]
  }

  /** Reading back the numeral `String(n)` gives `n`. */
  lemma {:induction false} DecValueDec(n: nat)
    ensures DecValue(Dec(n)) == n
  {
    if n >= 10 {
      DecValueDec(n / 10);
      var s := Dec(n);
      assert s[..|s| - 1] == Dec(n / 10);
    }
  }

  /** `String(n)` has no leading zero, except for zero itself. */
  lemma {:induction false} DecNoLeadingZero(n: nat)
    ensures (Dec(n)[0] == '0') <==> n == 0
  {
    if n >= 10 {
      DecNoLeadingZero(n / 10);
    }
  }

  const HexAlphabet: string := "0123456789abcdef"

  predicate IsHexDigit(c: char)
  {
    '0' <= c <= '9' || 'a' <= c <= 'f'
  }

  predicate AllHex(s: string)
  {
    forall i :: 0 <= i < |s| ==> IsHexDigit(s[i])
  }

  function HexDigit(d: nat): (c: char)
    requires d < 16
    ensures IsHexDigit(c)
  {
    if d < 10 then ('0' as int + d) as char else ('a' as int + d - 10) as char
  }

  function HexDigitValue(c: char): (d: nat)
    requires IsHexDigit(c)
    ensures d < 16 && HexDigit(d) == c
  {
    if '0' <= c <= '9' then c as int - '0' as int else c as int - 'a' as int + 10
  }

  /** The digit written for `d` is the `d`-th letter of the lower-case alphabet. */
  lemma HexDigitAlphabet(d: nat)
    requires d < 16
    ensures HexDigit(d) == HexAlphabet[d]
  {
  }

  /** `n.toString(16)`: lower-case hexadecimal, without leading zeros. */
  function Hex(n: nat): (s: string)
    ensures s != [] && AllHex(s)
  {
    if n < 16 then [HexDigit(n)] else Hex(n / 16) + [HexDigit(n % 16)]
  }

  /** The value of a hexadecimal numeral. */
  function HexValue(s: string): nat
    requires AllHex(s)
  {
    if s == [] then 0 else 16 * HexValue(s[..|s| - 1]) + HexDigitValue(s[|s| - 1])
  }

  /** Reading back `n.toString(16)` gives `n`. */
  lemma {:induction false} HexValueHex(n: nat)
    ensures HexValue(Hex(n)) == n
  {
    if n >= 16 {
      HexValueHex(n / 16);
      var s := Hex(n);
      assert s[..|s| - 1] == Hex(n / 16);
      assert HexDigitValue(HexDigit(n % 16)) == n % 16;
    } else {
      assert HexDigitValue(HexDigit(n)) == n;
    }
  }

  /** One hexadecimal digit exactly below 16, two below 256. */
  lemma HexLength(n: nat)
    ensures |Hex(n)| == 1 <==> n < 16
    ensures 16 <= n < 256 ==> |Hex(n)| == 2
  {
    if n >= 16 {
      assert |Hex(n / 16)| >= 1;
    }
  }
}

=== FILE: preview.dfy ===
/** The scripts the preview page runs: the scroll lock that keeps the
    editor and the preview in step, the element-selection click handler that
    builds a selector path and a computed-style snapshot, and the
    selection-mode toggle. The DOM is abstract: an element is its tag, id,
    class attribute and class list, and the clicked element's ancestors are a
    list from the element itself upwards. */
module Preview {
  import opened Maybe
  import opened Strings
  import opened Assoc
  import PropertyMenu

  // ---------------------------------------------------------------------------
  // Selector path
  // ---------------------------------------------------------------------------

  /** An element as the click handler sees it. */
  datatype Node = Node(tagName: string, id: string, className: string, classList: seq<string>)

  /** The class the page puts on `body` while selection mode is on. */
  const SelectionClass: string := "selection-mode"

  /** `toLowerCase` on the ASCII letters an HTML tag name is made of. */
  function Lower(c: char): (r: char)
    ensures 'A' <= c <= 'Z' ==> 'a' <= r <= 'z'
    ensures !('A' <= c <= 'Z') ==> r == c
  {
    if 'A' <= c <= 'Z' then (c as int - 'A' as int + 'a' as int) as char else c
  }

  function LowerText(s: string): (r: string)
    ensures |r| == |s|
    ensures forall i :: 0 <= i < |s| ==> r[i] == Lower(s[i])
  {
    if s == [] then [] else [Lower(s[0])] + LowerText(s[1..])
  }

  /** The element's classes without the page's own selection marker. */
  function KeptClasses(classes: seq<string>): (r: seq<string>)
    ensures forall c :: c in r <==> c in classes && c != SelectionClass
    ensures |r| <= |classes|
  {
    if classes == [] then []
    else (if classes[0] == SelectionClass then [] else [classes[0]]) + KeptClasses(classes[1..])
  }

  /** The class part of a segment, `.a.b`, or nothing when no class is left. */
  function ClassSuffix(n: Node): string
  {
    var classes := Join(KeptClasses(n.classList), ".");
    if n.className != [] && classes != [] then "." + classes else []
  }

  /** One step of the path: the lower-cased tag, then `#id` when the element
      has an id and otherwise its classes. */
  function Segment(n: Node): (r: string)
    ensures StartsWith(r, LowerText(n.tagName))
    ensures n.id != [] ==> r[|n.tagName|..] == "#" + n.id
    ensures n.id == [] ==> r[|n.tagName|..] == ClassSuffix(n)
  {
    var tag := LowerText(n.tagName);
    var r := tag + (if n.id != [] then "#" + n.id else ClassSuffix(n));
    assert r[..|tag|] == tag;
    r
  }

  /** How many elements of `chain` lie below the first `BODY`: the loop
      stops at `BODY` or when it runs out of parents. */
  function Below(chain: seq<Node>): (n: nat)
    ensures n <= |chain|
    ensures forall i :: 0 <= i < n ==> chain[i].tagName != "BODY"
    ensures n < |chain| ==> chain[n].tagName == "BODY"
  {
    if chain == [] || chain[0].tagName == "BODY" then 0 else 1 + Below(chain[1..])
  }

  /** The segments of the first `i` elements of `chain`, outermost first. */
  function Walked(chain: seq<Node>, i: nat): (r: seq<string>)
    requires i <= |chain|
    ensures |r| == i
    ensures forall j :: 0 <= j < i ==> r[j] == Segment(chain[i - 1 - j])
  {
    if i == 0 then []
    else
      var rest := Walked(chain, i - 1);
      var r := [Segment(chain[i - 1])] + rest;
      assert forall j :: 0 < j < i ==> r[j] == rest[j - 1];
      r
  }

  /** The segments of the path, from the outermost element below `BODY`
      down to the clicked element. */
  function PathSegments(chain: seq<Node>): (r: seq<string>)
    ensures |r| == Below(chain)
    ensures forall j :: 0 <= j < |r| ==> r[j] == Segment(chain[|r| - 1 - j])
  {
    Walked(chain, Below(chain))
  }

  /** The click handler's loop: walk up from the clicked element, putting
      each segment in front of those collected so far, then join them. */
  method SelectorPath(chain: seq<Node>) returns (path: string)
    ensures path == Join(PathSegments(chain), " > ")
  {
    var segments: seq<string> := [];
    var i := 0;
    while i < |chain| && chain[i].tagName != "BODY"
      invariant 0 <= i <= |chain|
      invariant forall j :: 0 <= j < i ==> chain[j].tagName != "BODY"
      invariant segments == Walked(chain, i)
    {
      segments := [Segment(chain[i])] + segments;
      i := i + 1;
    }
    BelowUnique(chain, i);
    path := Join(segments, " > ");
  }

  /** The place where the walk stops is the one `Below` describes. */
  lemma BelowUnique(chain: seq<Node>, i: nat)
    requires i <= |chain|
    requires forall j :: 0 <= j < i ==> chain[j].tagName != "BODY"
    requires i == |chain| || chain[i].tagName == "BODY"
    ensures i == Below(chain)
  {
  }

  /** The path text of a click on `chain[0]`. */
  function PathText(chain: seq<Node>): string
  {
    Join(PathSegments(chain), " > ")
  }

  /** The path ends with the clicked element's own segment. */
  lemma PathEndsWithTarget(chain: seq<Node>)
    requires chain != [] && chain[0].tagName != "BODY"
    ensures EndsWith(PathText(chain), Segment(chain[0]))
  {
    var segs := PathSegments(chain);
    var n := |segs|;
    if n == 1 {
      assert PathText(chain) == segs[0];
    } else {
      assert segs == segs[..n - 1] + [segs[n - 1]];
      JoinAppend(segs[..n - 1], segs[n - 1], " > ");
    }
  }

  /** A click on `BODY`, or on an element with no parent chain below it,
      has an empty path. */
  lemma PathOfBody(chain: seq<Node>)
    requires chain != [] && chain[0].tagName == "BODY"
    ensures PathText(chain) == []
  {
  }

  /** The marker class never reaches a segment's class list. */
  lemma SegmentOmitsMarker(n: Node)
    ensures SelectionClass !in KeptClasses(n.classList)
    ensures n.id == [] && KeptClasses(n.classList) == [] ==> Segment(n) == LowerText(n.tagName)
  {
  }

  // ---------------------------------------------------------------------------
  // Computed-style snapshot
  // ---------------------------------------------------------------------------

  /** The properties the click handler copies from the computed style. */
  const StyleKeys: seq<string> := [
    "color", "background-color", "font-weight", "margin-top", "margin-right",
    "margin-bottom", "margin-left", "padding", "border-radius", "text-align",
    "position", "display"
  ]

  /** `cssProperties`: the twelve keys, in order, each with its computed
      value. The `forEach` assigns each key of a fresh object once, so the
      object's entries are the keys in list order. */
  function Snapshot(computed: string -> string): (r: Table<string>)
    ensures Keys(r) == StyleKeys
    ensures forall i :: 0 <= i < |r| ==> r[i].1 == computed(StyleKeys[i])
  {
    seq(|StyleKeys|, i requires 0 <= i < |StyleKeys| => (StyleKeys[i], computed(StyleKeys[i])))
  }

  /** The snapshot answers exactly for the listed keys, with the computed
      value. */
  lemma SnapshotGet(computed: string -> string, k: string)
    ensures Get(Snapshot(computed), k) == if k in StyleKeys then Some(computed(k)) else None
  {
    var r := Snapshot(computed);
    var g := Get(r, k);
    if k in StyleKeys {
      var i :| 0 <= i < |StyleKeys| && StyleKeys[i] == k;
      assert Keys(r)[i] == k;
      assert g.Some?;
      var j :| 0 <= j < |r| && r[j] == (k, g.value);
    } else {
      assert !HasKey(r, k);
    }
  }

  /** `font-size` is not in the snapshot, so the style menu never starts
      its font-size field from the element's value. */
  lemma FontSizeNeverPrefilled(computed: string -> string)
    ensures !HasKey(PropertyMenu.InitialStyles(Snapshot(computed)), "font-size")
  {
    var snapshot := Snapshot(computed);
    FontSizeNotSnapshot();
    SnapshotGet(computed, "font-size");
    assert PropertyMenu.FieldList[2].0 == "font-size";
    PropertyMenu.InitialStylesField(snapshot, 2);
  }

  /** No snapshot key has the nine characters of `font-size`. */
  lemma FontSizeNotSnapshot()
    ensures "font-size" !in StyleKeys
  {
    assert |"font-size"| == 9;
    assert forall i :: 0 <= i < |StyleKeys| ==> |StyleKeys[i]| != 9;
  }

  // ---------------------------------------------------------------------------
  // Page state: scroll lock, animation frame, selection mode
  // ---------------------------------------------------------------------------

  /** The page's script state. `frames` and `timers` count the animation
      frame and lock-release timeout callbacks that are scheduled and have
      not yet run; `marked` is whether `body` carries the marker class. */
  datatype Page = Page(
    isScrolling: bool,
    lastKnown: int,
    ticking: bool,
    frames: nat,
    timers: nat,
    selectionMode: bool,
    marked: bool)

  const Start: Page := Page(false, 0, false, 0, 0, false, false)

  /** What the page can receive: a scroll of the document, an animation frame
      with the document's scroll and client heights, the lock-release timeout,
      and the two parent messages. The scroll percentage a `setScrollPosition`
      message carries is not modelled. */
  datatype Event =
    | Scroll(scrollY: int)
    | Frame(scrollHeight: int, clientHeight: int)
    | Timeout
    | SetScrollMessage
    | ToggleMessage(on: bool)

  /** What the page does outwards: post a scroll report to the parent, or
      scroll itself. */
  datatype Effect = Report(scrollTop: int, scrollHeight: int, height: int) | ScrollTo

  /** At most one frame and one timeout are pending, and each flag says
      whether its callback is. */
  predicate Valid(p: Page)
  {
    && (p.ticking <==> p.frames == 1) && p.frames <= 1
    && (p.isScrolling <==> p.timers == 1) && p.timers <= 1
  }

  /** The scroll listener. */
  function OnScroll(p: Page, y: int): (r: Page)
    ensures p.isScrolling ==> r == p
    ensures !p.isScrolling ==> r.lastKnown == y && r.ticking
    ensures r.frames == if p.isScrolling || p.ticking then p.frames else p.frames + 1
    ensures r.isScrolling == p.isScrolling && r.timers == p.timers
    ensures r.selectionMode == p.selectionMode && r.marked == p.marked
  {
    if p.isScrolling then p
    else if p.ticking then p.(lastKnown := y)
    else p.(lastKnown := y, frames := p.frames + 1, ticking := true)
  }

  /** The animation-frame callback; nothing runs when none is pending. */
  function OnFrame(p: Page, scrollHeight: int, clientHeight: int): (r: (Page, seq<Effect>))
    ensures p.frames == 0 ==> r == (p, [])
    ensures p.frames > 0 ==> !r.0.ticking && r.0.frames == p.frames - 1
    ensures r.1 != [] <==> p.frames > 0 && scrollHeight - clientHeight > 0
    ensures r.1 != [] ==> r.1 == [Report(p.lastKnown, scrollHeight, clientHeight)]
    ensures r.0.isScrolling == p.isScrolling && r.0.timers == p.timers && r.0.lastKnown == p.lastKnown
  {
    if p.frames == 0 then (p, [])
    else
      var maxScroll := scrollHeight - clientHeight;
      var out := if maxScroll > 0 then [Report(p.lastKnown, scrollHeight, clientHeight)] else [];
      (p.(frames := p.frames - 1, ticking := false), out)
  }

  /** `setScrollPosition`: a no-op while the lock is held; otherwise take the
      lock, scroll, and schedule its release. */
  function SetScrollPosition(p: Page): (r: (Page, seq<Effect>))
    ensures p.isScrolling ==> r == (p, [])
    ensures !p.isScrolling ==> r.0.isScrolling && r.0.timers == p.timers + 1 && r.1 == [ScrollTo]
    ensures r.0.frames == p.frames && r.0.ticking == p.ticking && r.0.lastKnown == p.lastKnown
  {
    if p.isScrolling then (p, [])
    else (p.(isScrolling := true, timers := p.timers + 1), [ScrollTo])
  }

  /** The lock-release timeout; nothing runs when none is pending. */
  function OnTimeout(p: Page): (r: Page)
    ensures p.timers == 0 ==> r == p
    ensures p.timers > 0 ==> !r.isScrolling && r.timers == p.timers - 1
    ensures r.frames == p.frames && r.ticking == p.ticking
  {
    if p.timers == 0 then p else p.(isScrolling := false, timers := p.timers - 1)
  }

  /** A page event. A message reaches the listeners of both scripts, the
      scroll script's first. */
  function Step(p: Page, e: Event): (r: (Page, seq<Effect>))
    ensures Valid(p) ==> Valid(r.0)
    ensures e.ToggleMessage? ==> r.0.selectionMode == e.on && r.0.marked == e.on && r.1 == []
    ensures e.SetScrollMessage? ==> r == SetScrollPosition(p)
    ensures p.isScrolling && !r.0.isScrolling ==> e.Timeout?
    ensures !e.ToggleMessage? ==> r.0.selectionMode == p.selectionMode
  {
    match e
    case Scroll(y) => (OnScroll(p, y), [])
    case Frame(h, c) => OnFrame(p, h, c)
    case Timeout => (OnTimeout(p), [])
    case SetScrollMessage =>
      // Both listeners call `setScrollPosition`; the second finds the lock
      // the first took.
      var (p1, out1) := SetScrollPosition(p);
      var (p2, out2) := SetScrollPosition(p1);
      assert out1 + out2 == out1;
      (p2, out1 + out2)
    case ToggleMessage(on) =>
      // The scroll script marks `body`; the selection script sets the flag
      // and marks it again.
      var p1 := p.(marked := on);
      (p1.(selectionMode := on, marked := on), [])
  }

  /** The states reached by a sequence of events, with everything posted. */
  function Run(p: Page, events: seq<Event>): (r: (Page, seq<Effect>))
    ensures Valid(p) ==> Valid(r.0)
    decreases |events|
  {
    if events == [] then (p, [])
    else
      var (p1, out1) := Step(p, events[0]);
      var (p2, out2) := Run(p1, events[1..]);
      (p2, out1 + out2)
  }

  /** Every state the page reaches from load has at most one frame and one
      timeout pending. */
  lemma ReachableValid(events: seq<Event>)
    ensures Valid(Run(Start, events).0)
  {
  }

  /** While the lock is held, scrolling changes nothing. */
  lemma LockedScrollIgnored(p: Page, y: int)
    requires p.isScrolling
    ensures Step(p, Scroll(y)) == (p, [])
  {
  }

  /** A report is posted only from a pending frame, only when the document
      can scroll, and carries the position last recorded. */
  lemma ReportOnlyWhenScrollable(p: Page, e: Event)
    requires Step(p, e).1 != []
    requires !e.SetScrollMessage?
    ensures e.Frame? && p.frames > 0 && e.scrollHeight - e.clientHeight > 0
    ensures Step(p, e).1 == [Report(p.lastKnown, e.scrollHeight, e.clientHeight)]
  {
  }

  /** A second `setScrollPosition` before the timeout fires is ignored. */
  lemma SetScrollTwice(p: Page)
    ensures Step(Step(p, SetScrollMessage).0, SetScrollMessage) == (Step(p, SetScrollMessage).0, [])
  {
  }

  // ---------------------------------------------------------------------------
  // Element selection
  // ---------------------------------------------------------------------------

  /** The `elementSelected` message. */
  datatype Selection = Selection(
    path: string,
    tagName: string,
    id: string,
    className: string,
    cssProperties: Table<string>)

  /** A click on `chain[0]` with the given computed style: a selection
      message in selection mode, and nothing otherwise. */
  function Click(p: Page, chain: seq<Node>, computed: string -> string): (r: Option<Selection>)
    requires chain != []
    ensures r.Some? <==> p.selectionMode
    ensures r.Some? ==> r.value.path == PathText(chain) && r.value.tagName == LowerText(chain[0].tagName)
    ensures r.Some? ==> Keys(r.value.cssProperties) == StyleKeys
    ensures r.Some? ==> r.value.id == chain[0].id && r.value.className == chain[0].className
    ensures r.Some? ==> forall k :: Get(r.value.cssProperties, k) == if k in StyleKeys then Some(computed(k)) else None
  {
    if !p.selectionMode then None
    else
      assert forall k :: Get(Snapshot(computed), k) == if k in StyleKeys then Some(computed(k)) else None by {
        forall k { SnapshotGet(computed, k); }
      }
      Some(Selection(PathText(chain), LowerText(chain[0].tagName), chain[0].id, chain[0].className, Snapshot(computed)))
  }

  /** Clicks select only between a toggle on and a toggle off. */
  lemma ToggleGovernsClicks(p: Page, on: bool, chain: seq<Node>, computed: string -> string)
    requires chain != []
    ensures Click(Step(p, ToggleMessage(on)).0, chain, computed).Some? <==> on
  {
  }
}

=== FILE: property_menu.dfy ===
/** The pure logic of the CSS property menu: reading a computed colour as
    hexadecimal, splitting a length into number and unit, the table of
    default values, the edits to the style map, the rule the menu writes,
    and the styles it starts from when an element is selected. */
module PropertyMenu {
  import opened Maybe
  import opened Strings
  import opened Assoc
  import opened Numerals
  import CssParser

  /** The menu's style map: property name to value, in insertion order. */
  type Styles = Table<string>

  // ---------------------------------------------------------------------------
  // rgbaToHex
  // ---------------------------------------------------------------------------

  /** The length of the match of `\d+(\.\d+)?` at the start of `s`: a digit
      run, and a fraction only when a digit follows the point. */
  function TokenLength(s: string): (n: nat)
    requires s != [] && IsDigit(s[0])
    ensures 0 < n <= |s|
  {
    var k := DigitRun(s);
    if k + 1 < |s| && s[k] == '.' && IsDigit(s[k + 1]) then k + 1 + DigitRun(s[k + 1..]) else k
  }

  /** `s.match(/\d+(\.\d+)?/g)`, with `[]` standing for `null`. */
  function Tokens(s: string): (ts: seq<string>)
    ensures forall i :: 0 <= i < |ts| ==> ts[i] != [] && IsDigit(ts[i][0])
    decreases |s|
  {
    if s == [] then []
    else if IsDigit(s[0]) then
      var n := TokenLength(s);
      [s[..n]] + Tokens(s[n..])
    else Tokens(s[1..])
  }

  predicate NoDigit(s: string)
  {
    forall i :: 0 <= i < |s| ==> !IsDigit(s[i])
  }

  /** There is no match exactly when there is no digit. */
  lemma {:induction false} TokensNone(s: string)
    ensures Tokens(s) == [] <==> NoDigit(s)
    decreases |s|
  {
    if s != [] && !IsDigit(s[0]) {
      TokensNone(s[1..]);
      assert forall i :: 0 < i < |s| ==> s[i] == s[1..][i - 1];
    }
  }

  /** Text without digits contributes no match. */
  lemma {:induction false} TokensSkip(pre: string, t: string)
    requires NoDigit(pre)
    ensures Tokens(pre + t) == Tokens(t)
  {
    if pre != [] {
      assert !IsDigit(pre[0]);
      assert (pre + t)[0] == pre[0] && (pre + t)[1..] == pre[1..] + t;
      assert NoDigit(pre[1..]) by {
        assert forall i :: 0 <= i < |pre| - 1 ==> pre[1..][i] == pre[i + 1];
      }
      TokensSkip(pre[1..], t);
    } else {
      assert pre + t == t;
    }
  }

  /** A numeral followed by neither a digit nor a point is one whole match. */
  lemma TokensNumeral(d: string, t: string)
    requires d != [] && AllDigits(d)
    requires t == [] || (!IsDigit(t[0]) && t[0] != '.')
    ensures Tokens(d + t) == [d] + Tokens(t)
  {
    DigitRunPrefix(d, t);
    assert TokenLength(d + t) == |d|;
    assert (d + t)[..|d|] == d && (d + t)[|d|..] == t;
  }

  /** A numeral with a fraction, `12.5`, is one whole match: the optional
      group takes the point and the digits after it. */
  lemma TokensFraction(d: string, f: string, t: string)
    requires d != [] && AllDigits(d) && f != [] && AllDigits(f)
    requires t == [] || !IsDigit(t[0])
    ensures Tokens(d + "." + f + t) == [d + "." + f] + Tokens(t)
  {
    var s := d + "." + f + t;
    var n := |d| + 1 + |f|;
    assert TokenLength(s) == n by { FractionLength(d, f, t); }
    assert s[..n] == d + "." + f && s[n..] == t;
  }

  /** The match length of a numeral with a fraction. */
  lemma FractionLength(d: string, f: string, t: string)
    requires d != [] && AllDigits(d) && f != [] && AllDigits(f)
    requires t == [] || !IsDigit(t[0])
    ensures var s := d + "." + f + t; s != [] && IsDigit(s[0]) && TokenLength(s) == |d| + 1 + |f|
  {
    var u := f + t;
    var s := d + "." + f + t;
    assert s == d + ("." + u) && s[|d| + 1..] == u by {
      assert d + "." + f + t == d + ("." + (f + t));
    }
    assert DigitRun(s) == |d| by { DigitRunPrefix(d, "." + u); }
    assert DigitRun(u) == |f| by { DigitRunPrefix(f, t); }
    assert s[|d|] == '.' && IsDigit(s[|d| + 1]);
  }

  /** A number, or `NaN`. */
  datatype Num = NaN | Int(n: nat)

  /** `parseInt(s)` on a match of the colour pattern: the value of its
      leading digits, `NaN` when it starts with none. */
  function ParseInt(s: string): (r: Num)
    ensures r.Int? <==> s != [] && IsDigit(s[0])
    ensures AllDigits(s) && s != [] ==> r == Int(DecValue(s))
  {
    var k := DigitRun(s);
    assert AllDigits(s) ==> k == |s| by {
      if AllDigits(s) { DigitRunPrefix(s, []); assert s + [] == s; }
    }
    assert AllDigits(s) ==> s[..k] == s;
    if k == 0 then NaN else Int(DecValue(s[..k]))
  }

  /** `parseInt` reads the leading digits and ignores the rest, so the
      match `12.5` gives 12. */
  lemma ParseIntPrefix(d: string, t: string)
    requires d != [] && AllDigits(d)
    requires t == [] || !IsDigit(t[0])
    ensures ParseInt(d + t) == Int(DecValue(d))
  {
    DigitRunPrefix(d, t);
    assert (d + t)[..|d|] == d;
  }

  /** The fractional match the colour pattern yields counts as its
      integer part. */
  lemma ParseIntFraction(d: string, f: string)
    requires d != [] && AllDigits(d) && f != [] && AllDigits(f)
    ensures ParseInt(d + "." + f) == Int(DecValue(d))
  {
    assert d + "." + f == d + ("." + f);
    ParseIntPrefix(d, "." + f);
  }

  /** `parseInt(values[i])`, which is `parseInt(undefined)`, `NaN`, past the end. */
  function Component(ts: seq<string>, i: nat): Num
  {
    if i < |ts| then ParseInt(ts[i]) else NaN
  }

  /** `x.toString(16)`. */
  function HexText(x: Num): string
  {
    match x
    case NaN => "NaN"
    case Int(n) => Hex(n)
  }

  /** A single hexadecimal digit gets a leading `0`. */
  function Pad2(h: string): (r: string)
    ensures |h| != 1 ==> r == h
    ensures |h| == 1 ==> |r| == 2 && r[1..] == h
  {
    if |h| == 1 then "0" + h else h
  }

  const Transparent: string := "rgba(0, 0, 0, 0)"

  /** The inputs `rgbaToHex` answers with `''`. */
  predicate NoColour(s: string)
  {
    s == Transparent || s == "transparent" || s == []
  }

  /** `rgbaToHex(rgba)`, with `None` for `null`: `#` followed by the padded
      hexadecimal of the first three numbers in the text. */
  function RgbaToHex(s: string): (r: Option<string>)
    ensures NoColour(s) ==> r == Some([])
    ensures r.None? <==> !NoColour(s) && NoDigit(s)
    ensures r.Some? && !NoColour(s) ==> |r.value| >= 7 && r.value[0] == '#'
  {
    if NoColour(s) then Some([])
    else
      var ts := Tokens(s);
      TokensNone(s);
      if ts == [] then None
      else
        Some("#" + Pad2(HexText(Component(ts, 0)))
                 + Pad2(HexText(Component(ts, 1)))
                 + Pad2(HexText(Component(ts, 2))))
  }

  /** The two hexadecimal digits written for a component below 256. */
  function HexPair(n: nat): string
  {
    Pad2(Hex(n))
  }

  /** A component below 256 is written as two lower-case hexadecimal digits
      that read back as the component. */
  lemma HexPairRoundTrip(n: nat)
    requires n < 256
    ensures |HexPair(n)| == 2 && AllHex(HexPair(n))
    ensures HexValue(HexPair(n)) == n
  {
    HexLength(n);
    HexValueHex(n);
    var h := Hex(n);
    if |h| == 1 {
      var p := HexPair(n);
      assert p == ['0', h[0]];
      assert p[..1] == ['0'];
      assert h[..0] == [];
    }
  }

  /** The colour `rgbaToHex` writes for three components. */
  function HexColour(r: nat, g: nat, b: nat): string
  {
    "#" + HexPair(r) + HexPair(g) + HexPair(b)
  }

  /** The colour text of three components: `pre` holds no digit, and what
      follows the last number neither continues it nor starts a fraction. */
  function ColourText(pre: string, r: nat, g: nat, b: nat, tail: string): string
  {
    pre + (Dec(r) + (", " + (Dec(g) + (", " + (Dec(b) + tail)))))
  }

  lemma ConsThree<T>(a: T, b: T, c: T, t: seq<T>)
    ensures [a] + ([b] + ([c] + t)) == [a, b, c] + t
  {
  }

  lemma NumeralThenComma(d: string, rest: string)
    requires d != [] && AllDigits(d)
    ensures Tokens(d + (", " + rest)) == [d] + Tokens(rest)
  {
    TokensNumeral(d, ", " + rest);
    TokensSkip(", ", rest);
  }

  lemma ColourTokens(pre: string, r: nat, g: nat, b: nat, tail: string)
    requires NoDigit(pre)
    requires tail == [] || (!IsDigit(tail[0]) && tail[0] != '.')
    ensures Tokens(ColourText(pre, r, g, b, tail)) == [Dec(r), Dec(g), Dec(b)] + Tokens(tail)
  {
    var t3 := Dec(b) + tail;
    var t2 := Dec(g) + (", " + t3);
    TokensSkip(pre, Dec(r) + (", " + t2));
    NumeralThenComma(Dec(r), t2);
    NumeralThenComma(Dec(g), t3);
    TokensNumeral(Dec(b), tail);
    ConsThree(Dec(r), Dec(g), Dec(b), Tokens(tail));
  }

  /** The colours a computed style reports, `rgb(r, g, b)` or
      `rgba(r, g, b, a)`, become `#` and two hexadecimal digits per component;
      the alpha is ignored. */
  lemma ColourToHex(pre: string, r: nat, g: nat, b: nat, tail: string)
    requires NoDigit(pre)
    requires tail == [] || (!IsDigit(tail[0]) && tail[0] != '.')
    requires ColourText(pre, r, g, b, tail) != Transparent
    ensures RgbaToHex(ColourText(pre, r, g, b, tail)) == Some(HexColour(r, g, b))
  {
    var s := ColourText(pre, r, g, b, tail);
    ColourTokens(pre, r, g, b, tail);
    assert Dec(r)[0] in s;
    assert !NoColour(s);
    var ts := Tokens(s);
    DecValueDec(r);
    DecValueDec(g);
    DecValueDec(b);
    assert Component(ts, 0) == Int(r) && Component(ts, 1) == Int(g) && Component(ts, 2) == Int(b);
  }

  /** A text with one number writes `NaN`, unpadded, for the two missing
      components: `parseInt(undefined)` is `NaN`, whose `toString(16)` is
      three characters long. */
  lemma MissingComponents(pre: string, n: nat, tail: string)
    requires NoDigit(pre) && NoDigit(tail) && (tail == [] || tail[0] != '.')
    requires pre + (Dec(n) + tail) != Transparent
    ensures RgbaToHex(pre + (Dec(n) + tail)) == Some("#" + HexPair(n) + "NaN" + "NaN")
  {
    var s := pre + (Dec(n) + tail);
    assert Tokens(s) == [Dec(n)] by {
      TokensSkip(pre, Dec(n) + tail);
      TokensNumeral(Dec(n), tail);
      TokensNone(tail);
    }
    assert |pre| < |s| && s[|pre|] == Dec(n)[0];
    DigitColour(s, |pre|);
    assert Component([Dec(n)], 0) == Int(n) by {
      DecValueDec(n);
    }
    RgbaToHexOf(s, Int(n), NaN, NaN);
  }

  /** A text with two numbers writes `NaN` for the third component. */
  lemma MissingBlue(pre: string, r: nat, g: nat, tail: string)
    requires NoDigit(pre) && NoDigit(tail) && (tail == [] || tail[0] != '.')
    requires pre + (Dec(r) + (", " + (Dec(g) + tail))) != Transparent
    ensures RgbaToHex(pre + (Dec(r) + (", " + (Dec(g) + tail)))) == Some("#" + HexPair(r) + HexPair(g) + "NaN")
  {
    var s := pre + (Dec(r) + (", " + (Dec(g) + tail)));
    assert Tokens(s) == [Dec(r), Dec(g)] by {
      TokensSkip(pre, Dec(r) + (", " + (Dec(g) + tail)));
      NumeralThenComma(Dec(r), Dec(g) + tail);
      TokensNumeral(Dec(g), tail);
      TokensNone(tail);
    }
    assert |pre| < |s| && s[|pre|] == Dec(r)[0];
    DigitColour(s, |pre|);
    assert Component([Dec(r), Dec(g)], 0) == Int(r) && Component([Dec(r), Dec(g)], 1) == Int(g) by {
      DecValueDec(r);
      DecValueDec(g);
    }
    RgbaToHexOf(s, Int(r), Int(g), NaN);
  }

  /** A text other than the transparent colour that holds a digit is a colour. */
  lemma DigitColour(s: string, i: nat)
    requires i < |s| && IsDigit(s[i]) && s != Transparent
    ensures !NoColour(s)
  {
    assert s != "transparent" by {
      assert forall j :: 0 <= j < |"transparent"| ==> !IsDigit("transparent"[j]);
    }
  }

  /** The colour written from the first three components of a text. */
  lemma RgbaToHexOf(s: string, x: Num, y: Num, z: Num)
    requires !NoColour(s) && Tokens(s) != []
    requires Component(Tokens(s), 0) == x && Component(Tokens(s), 1) == y && Component(Tokens(s), 2) == z
    ensures RgbaToHex(s) == Some("#" + Pad2(HexText(x)) + Pad2(HexText(y)) + Pad2(HexText(z)))
  {
  }

  /** `rgb(r, g, b)` becomes the hexadecimal colour of its components. */
  lemma RgbToHex(r: nat, g: nat, b: nat)
    ensures RgbaToHex(ColourText("rgb(", r, g, b, ")")) == Some(HexColour(r, g, b))
  {
    var s := ColourText("rgb(", r, g, b, ")");
    assert s[3] == '(' && Transparent[3] == 'a';
    ColourToHex("rgb(", r, g, b, ")");
  }

  /** The pieces of `#` followed by three pairs. */
  lemma PairSlices(x: string, y: string, z: string)
    requires |x| == 2 && |y| == 2 && |z| == 2
    ensures |"#" + x + y + z| == 7 && ("#" + x + y + z)[0] == '#'
    ensures ("#" + x + y + z)[1..] == x + y + z
    ensures ("#" + x + y + z)[1..3] == x && ("#" + x + y + z)[3..5] == y && ("#" + x + y + z)[5..7] == z
  {
  }

  lemma AllHexConcat(x: string, y: string, z: string)
    requires AllHex(x) && AllHex(y) && AllHex(z)
    ensures AllHex(x + y + z)
  {
  }

  /** For components below 256 the colour is seven characters, `#` and six
      lower-case hexadecimal digits, whose pairs decode back to the
      components. */
  lemma HexColourDecodes(r: nat, g: nat, b: nat)
    requires r < 256 && g < 256 && b < 256
    ensures |HexColour(r, g, b)| == 7 && HexColour(r, g, b)[0] == '#'
    ensures AllHex(HexColour(r, g, b)[1..])
    ensures HexValue(HexColour(r, g, b)[1..3]) == r
    ensures HexValue(HexColour(r, g, b)[3..5]) == g
    ensures HexValue(HexColour(r, g, b)[5..7]) == b
  {
    HexPairRoundTrip(r);
    HexPairRoundTrip(g);
    HexPairRoundTrip(b);
    PairSlices(HexPair(r), HexPair(g), HexPair(b));
    AllHexConcat(HexPair(r), HexPair(g), HexPair(b));
  }

  // ---------------------------------------------------------------------------
  // parseValueAndUnit
  // ---------------------------------------------------------------------------

  predicate HasLineTerminator(s: string)
  {
    exists i :: 0 <= i < |s| && IsLineTerminator(s[i])
  }

  /** The end of the digit run of `v` that starts at `a`. */
  function RunEnd(v: string, a: nat): (e: nat)
    requires a <= |v|
    ensures a <= e <= |v|
    ensures forall i :: a <= i < e ==> IsDigit(v[i])
    ensures e < |v| ==> !IsDigit(v[e])
    decreases |v| - a
  {
    if a < |v| && IsDigit(v[a]) then RunEnd(v, a + 1) else a
  }

  /** Where the digits start: after a leading minus sign, if any. */
  function SignLength(v: string): nat
  {
    if v != [] && v[0] == '-' then 1 else 0
  }

  /** From position `a` on, `x` is digits with at most one point: text that
      `\d*\.?\d*` matches in full. */
  predicate UnsignedFrom(x: string, a: nat)
  {
    || (forall i :: a <= i < |x| ==> IsDigit(x[i]))
    || exists j :: a <= j < |x| && x[j] == '.' && forall i :: a <= i < |x| && i != j ==> IsDigit(x[i])
  }

  /** Text that `-?\d*\.?\d*` matches in full. */
  predicate NumberShaped(x: string)
  {
    UnsignedFrom(x, SignLength(x))
  }

  /** The point after the integer digits, if there is one. */
  function FractionStart(v: string): (c: nat)
    ensures SignLength(v) <= c <= |v|
  {
    var b := RunEnd(v, SignLength(v));
    if b < |v| && v[b] == '.' then b + 1 else b
  }

  /** How much of `v` the greedy group `(-?\d*\.?\d*)` takes. */
  function NumberLength(v: string): (n: nat)
    ensures n <= |v|
  {
    RunEnd(v, FractionStart(v))
  }

  /** `parseValueAndUnit(value)` as the pair `(value, unit)`. Without the
      `m` flag `$` is the end of the input and `.` stops at a line
      terminator, so text with one does not match. */
  function ParseValueAndUnit(v: string): (r: (string, string))
    ensures v == [] || HasLineTerminator(v) ==> r == ([], [])
    ensures !HasLineTerminator(v) ==> r.0 + r.1 == v
  {
    if v == [] || HasLineTerminator(v) then ([], [])
    else
      var n := NumberLength(v);
      assert v[..n] + v[n..] == v;
      (v[..n], v[n..])
  }

  /** The number part matches `-?\d*\.?\d*`. */
  lemma NumberPartShaped(v: string)
    ensures NumberShaped(v[..NumberLength(v)])
  {
    var a := SignLength(v);
    var b := RunEnd(v, a);
    var n := NumberLength(v);
    var x := v[..n];
    assert SignLength(x) == a by {
      if a == 1 { assert x[0] == v[0]; }
    }
    assert forall i :: 0 <= i < n ==> x[i] == v[i];
    if FractionStart(v) != b {
      assert x[b] == '.';
    }
  }

  /** A character that is neither a digit nor a point stops a match. */
  lemma NotUnsignedOther(x: string, a: nat, p: nat)
    requires a <= p < |x| && !IsDigit(x[p]) && x[p] != '.'
    ensures !UnsignedFrom(x, a)
  {
  }

  /** So does a second point. */
  lemma NotUnsignedTwoPoints(x: string, a: nat, p: nat, q: nat)
    requires a <= p < q < |x| && x[p] == '.' && x[q] == '.'
    ensures !UnsignedFrom(x, a)
  {
  }

  /** The number part is the longest prefix matching `-?\d*\.?\d*`: no
      longer prefix of the input matches. */
  lemma NumberPartLongest(v: string, k: nat)
    requires NumberLength(v) < k <= |v|
    ensures !NumberShaped(v[..k])
  {
    var a := SignLength(v);
    var b := RunEnd(v, a);
    var c := FractionStart(v);
    var n := NumberLength(v);
    var x := v[..k];
    assert SignLength(x) == a by {
      assert x[0] == v[0];
    }
    assert x[n] == v[n] && !IsDigit(v[n]);
    if v[n] != '.' {
      NotUnsignedOther(x, a, n);
    } else {
      assert x[b] == v[b];
      NotUnsignedTwoPoints(x, a, b, n);
    }
  }

  /** The number part of what the menu shows, read again, is all number. */
  lemma NumberPartIdempotent(v: string)
    requires !HasLineTerminator(v)
    ensures ParseValueAndUnit(ParseValueAndUnit(v).0) == (ParseValueAndUnit(v).0, [])
  {
    var x := ParseValueAndUnit(v).0;
    assert !HasLineTerminator(x) by {
      if x != [] {
        assert forall i :: 0 <= i < |x| ==> x[i] == v[i];
      }
    }
    if x != [] {
      NumberPartShaped(v);
      if NumberLength(x) < |x| {
        assert false;
      }
      assert x[..|x|] == x && x[|x|..] == [];
    }
  }

  /** A length in pixels splits into its number and its unit. */
  lemma PixelsSplit()
    ensures ParseValueAndUnit("12px") == ("12", "px")
  {
    var v := "12px";
    assert !HasLineTerminator(v);
    assert RunEnd(v, 2) == 2 && RunEnd(v, 0) == 2;
    assert NumberLength(v) == 2;
    assert v[..2] == "12" && v[2..] == "px";
  }

  /** A signed fraction keeps its sign and its point. */
  lemma SignedFractionSplits()
    ensures ParseValueAndUnit("-1.5em") == ("-1.5", "em")
  {
    var v := "-1.5em";
    assert !HasLineTerminator(v);
    assert SignLength(v) == 1;
    assert RunEnd(v, 2) == 2 && RunEnd(v, 1) == 2;
    assert FractionStart(v) == 3;
    assert RunEnd(v, 4) == 4 && RunEnd(v, 3) == 4;
    assert NumberLength(v) == 4;
    assert v[..4] == "-1.5" && v[4..] == "em";
  }

  /** A keyword has an empty number part. */
  lemma KeywordSplits()
    ensures ParseValueAndUnit("auto") == ([], "auto")
  {
    var v := "auto";
    assert !HasLineTerminator(v);
    assert NumberLength(v) == 0;
  }

  // ---------------------------------------------------------------------------
  // isDefaultValue
  // ---------------------------------------------------------------------------

  /** The computed value each property has when nothing styles it. */
  const Defaults: Styles := [
    ("color", "rgb(0, 0, 0)"),
    ("background-color", "rgba(0, 0, 0, 0)"),
    ("font-weight", "normal"),
    ("margin-top", "0px"),
    ("margin-right", "0px"),
    ("margin-bottom", "0px"),
    ("margin-left", "0px"),
    ("padding", "0px"),
    ("border-radius", "0px"),
    ("text-align", "start"),
    ("position", "static"),
    ("display", "block")
  ]

  /** `isDefaultValue(property, value)`: an absent property is `undefined`,
      which no string equals. */
  predicate IsDefault(p: string, v: string)
  {
    Get(Defaults, p) == Some(v)
  }

  lemma DefaultsDistinct()
    ensures DistinctKeys(Defaults)
  {
  }

  /** A value is a default exactly when it is its property's table entry. */
  lemma IsDefaultEntry(p: string, v: string)
    ensures IsDefault(p, v) <==> (p, v) in Defaults
  {
    DefaultsDistinct();
    GetEntry(Defaults, p, v);
  }

  /** No default value is empty or written in hexadecimal. */
  lemma DefaultsNotHex(p: string, v: string)
    requires IsDefault(p, v)
    ensures v != [] && v[0] != '#'
  {
    IsDefaultEntry(p, v);
    var i :| 0 <= i < |Defaults| && Defaults[i] == (p, v);
    DefaultValueShape(i);
  }

  lemma DefaultValueShape(i: nat)
    requires i < |Defaults|
    ensures Defaults[i].1 != [] && Defaults[i].1[0] != '#'
  {
  }

  // ---------------------------------------------------------------------------
  // handleStyleChange, handleNumberChange
  // ---------------------------------------------------------------------------

  /** The style map the menu keeps: no empty value and no default value. */
  predicate Clean(styles: Styles)
  {
    forall x :: x in styles ==> x.1 != [] && !IsDefault(x.0, x.1)
  }

  /** `handleStyleChange(property, value)` applied to the map. */
  function StyleChange(styles: Styles, p: string, v: string): (r: Styles)
    ensures Get(r, p) == if v == [] || IsDefault(p, v) then None else Some(v)
    ensures forall q :: q != p ==> Get(r, q) == Get(styles, q)
    ensures Clean(styles) ==> Clean(r)
    ensures DistinctKeys(styles) ==> DistinctKeys(r)
  {
    if v == [] || IsDefault(p, v) then
      RemoveEntries(styles, p);
      assert DistinctKeys(styles) ==> DistinctKeys(Remove(styles, p)) by {
        if DistinctKeys(styles) { RemoveDistinct(styles, p); }
      }
      Remove(styles, p)
    else
      PutEntries(styles, p, v);
      assert DistinctKeys(styles) ==> DistinctKeys(Put(styles, p, v)) by {
        if DistinctKeys(styles) { PutDistinct(styles, p, v); }
      }
      Put(styles, p, v)
  }

  /** The same change twice is the change once. */
  lemma StyleChangeIdempotent(styles: Styles, p: string, v: string)
    ensures StyleChange(StyleChange(styles, p, v), p, v) == StyleChange(styles, p, v)
  {
    if !(v == [] || IsDefault(p, v)) {
      PutPut(styles, p, v);
    }
  }

  /** `handleNumberChange(property, rawValue, prop)`, with `unit` standing
      for `prop.unit || ''`: an empty input deletes, anything else is
      stored with the unit appended. */
  function NumberChange(styles: Styles, p: string, raw: string, unit: string): (r: Styles)
    ensures raw == [] ==> !HasKey(r, p)
    ensures raw != [] && !IsDefault(p, raw + unit) ==> Get(r, p) == Some(raw + unit)
    ensures raw != [] && IsDefault(p, raw + unit) ==> !HasKey(r, p)
    ensures forall q :: q != p ==> Get(r, q) == Get(styles, q)
  {
    StyleChange(styles, p, if raw == [] then [] else raw + unit)
  }

  /** Typing `0` into the top margin stores `0px`, the default, so the
      property is removed. */
  lemma ZeroMarginRemoved(styles: Styles)
    ensures !HasKey(NumberChange(styles, "margin-top", "0", "px"), "margin-top")
  {
    assert "0" + "px" == "0px";
    assert IsDefault("margin-top", "0px");
  }

  // ---------------------------------------------------------------------------
  // formatCSSRule
  // ---------------------------------------------------------------------------

  /** One declaration as the menu writes it; the preview form marks it
      important. */
  function DeclarationText(p: string, v: string, preview: bool): string
  {
    p + ": " + v + (if preview then " " + CssParser.Important else "") + ";"
  }

  function DeclarationTexts(d: Styles, preview: bool): (ts: seq<string>)
    ensures |ts| == |d|
  {
    if d == [] then [] else [DeclarationText(d[0].0, d[0].1, preview)] + DeclarationTexts(d[1..], preview)
  }

  /** `formatCSSRule(selector, styles, isPreview)`: the declarations with a
      value, one per line, in a block under the selector; `''` when none
      has a value. */
  function FormatRule(selector: string, styles: Styles, preview: bool): (r: string)
    ensures r == [] <==> CssParser.Present(styles) == []
  {
    var ts := DeclarationTexts(CssParser.Present(styles), preview);
    if ts == [] then [] else selector + " {\n  " + Join(ts, "\n  ") + "\n}"
  }

  lemma {:induction false} DeclarationTextsJoin(d: Styles)
    requires d != []
    ensures Join(DeclarationTexts(d, false), "\n  ") == CssParser.DeclarationsText(d)
  {
    var ts := DeclarationTexts(d, false);
    assert DeclarationText(d[0].0, d[0].1, false) == d[0].0 + ": " + d[0].1 + ";";
    if |d| > 1 {
      DeclarationTextsJoin(d[1..]);
      assert ts[1..] == DeclarationTexts(d[1..], false);
    }
  }

  /** The rule the menu applies is the block `stringifyCSS` writes for the
      same selector and declarations. */
  lemma FormatRuleIsRuleText(selector: string, styles: Styles)
    ensures FormatRule(selector, styles, false) == CssParser.RuleText(selector, styles)
  {
    CssParser.RuleTextBlock(selector, styles);
    var e := CssParser.Present(styles);
    if e != [] {
      DeclarationTextsJoin(e);
    }
  }

  /** Parsing the rule the menu applies gives back the selector with the
      declarations that have a value. */
  lemma FormatRuleParses(selector: string, styles: Styles)
    requires CssParser.CleanSelector(selector) && CssParser.CleanDeclarations(styles)
    ensures CssParser.Parse(FormatRule(selector, styles, false))
         == if CssParser.Present(styles) == [] then [] else [(selector, CssParser.Present(styles))]
  {
    var r := [(selector, styles)];
    assert CssParser.CleanRules(r) by {
      assert CssParser.CleanRule(r[0]);
    }
    CssParser.RoundTrip(r);
    FormatRuleIsRuleText(selector, styles);
    var t := CssParser.RuleText(selector, styles);
    assert r[1..] == [];
    assert CssParser.RuleTexts(r) == (if t == [] then [] else [t]);
    assert CssParser.Stringify(r) == t;
    assert CssParser.Normalize(r[1..]) == [];
  }

  /** Every value followed by ` !important`. */
  function MarkImportant(d: Styles): (r: Styles)
    ensures |r| == |d|
    ensures forall i :: 0 <= i < |d| ==> r[i] == (d[i].0, d[i].1 + " " + CssParser.Important)
  {
    if d == [] then [] else [(d[0].0, d[0].1 + " " + CssParser.Important)] + MarkImportant(d[1..])
  }

  lemma {:induction false} PreviewTexts(d: Styles)
    ensures DeclarationTexts(d, true) == DeclarationTexts(MarkImportant(d), false)
  {
    if d != [] {
      PreviewTexts(d[1..]);
      assert DeclarationText(d[0].0, d[0].1, true)
          == DeclarationText(d[0].0, d[0].1 + " " + CssParser.Important, false);
      assert MarkImportant(d)[1..] == MarkImportant(d[1..]);
    }
  }

  lemma {:induction false} PresentOfPresent(d: Styles)
    requires CssParser.AllPresent(d)
    ensures CssParser.Present(d) == d
  {
    if d != [] {
      PresentOfPresent(d[1..]);
    }
  }

  /** The preview rule is the applied rule with every present value marked
      important. */
  lemma PreviewMarksImportant(selector: string, styles: Styles)
    ensures FormatRule(selector, styles, true)
         == FormatRule(selector, MarkImportant(CssParser.Present(styles)), false)
  {
    var e := CssParser.Present(styles);
    PreviewTexts(e);
    PresentOfPresent(MarkImportant(e));
  }

  /** The parser strips the preview's mark from each clean value again. */
  lemma PreviewMarkStripped(styles: Styles)
    requires CssParser.CleanDeclarations(styles)
    ensures forall i :: 0 <= i < |CssParser.Present(styles)| ==>
              CssParser.StripImportant(MarkImportant(CssParser.Present(styles))[i].1)
              == CssParser.Present(styles)[i].1
  {
    var e := CssParser.Present(styles);
    var m := MarkImportant(e);
    CssParser.PresentClean(styles);
    forall i | 0 <= i < |e|
      ensures CssParser.StripImportant(m[i].1) == e[i].1
    {
      assert CssParser.CleanEntry(e[i]);
      CssParser.ImportantSuffixStripped(e[i].1);
    }
  }

  /** A map the menu keeps writes every entry: nothing is filtered out. */
  lemma CleanAllWritten(styles: Styles)
    requires Clean(styles)
    ensures CssParser.Present(styles) == styles
  {
    assert forall i :: 0 <= i < |styles| ==> styles[i] in styles;
    PresentOfPresent(styles);
  }

  // ---------------------------------------------------------------------------
  // The initial styles of a selected element
  // ---------------------------------------------------------------------------

  /** How the menu edits a property. A margin is edited through its four
      sides, each a length in pixels. */
  datatype Kind = Colour | Length(unit: string) | Choice | Margin(sides: seq<string>)

  datatype Property = Property(name: string, kind: Kind)

  /** The properties the menu offers, in the order it visits them. */
  const CommonProperties: seq<Property> := [
    Property("color", Colour),
    Property("background-color", Colour),
    Property("font-size", Length("px")),
    Property("font-weight", Choice),
    Property("margin", Margin(["margin-top", "margin-right", "margin-bottom", "margin-left"])),
    Property("padding", Length("px")),
    Property("border-radius", Length("px")),
    Property("text-align", Choice),
    Property("position", Choice),
    Property("display", Choice)
  ]

  /** The fields the initial-styles effect reads, margin sides in place of
      the margin, each with whether it is a colour. */
  function Fields(props: seq<Property>): (fs: seq<(string, bool)>)
  {
    if props == [] then [] else PropertyFields(props[0]) + Fields(props[1..])
  }

  /** The fields of one property. */
  function PropertyFields(p: Property): seq<(string, bool)>
  {
    match p.kind
    case Margin(sides) => SideFields(sides)
    case Colour => [(p.name, true)]
    case _ => [(p.name, false)]
  }

  /** Each margin side is a field of its own, not a colour. */
  function SideFields(sides: seq<string>): seq<(string, bool)>
  {
    if sides == [] then [] else [(sides[0], false)] + SideFields(sides[1..])
  }

  const FieldList: seq<(string, bool)> := [
    ("color", true),
    ("background-color", true),
    ("font-size", false),
    ("font-weight", false),
    ("margin-top", false),
    ("margin-right", false),
    ("margin-bottom", false),
    ("margin-left", false),
    ("padding", false),
    ("border-radius", false),
    ("text-align", false),
    ("position", false),
    ("display", false)
  ]

  lemma FieldsOfCommon()
    ensures Fields(CommonProperties) == FieldList
  {
    assert CommonProperties[1..][1..][1..][1..][1..][1..][1..][1..][1..][1..] == [];
  }

  /** What the effect stores for one field: a value the element has, is not
      empty and is not the default, converted to hexadecimal for a colour;
      a colour whose conversion is `''` or `null` is left out. */
  function InitialValue(computed: Styles, name: string, colour: bool): (r: Option<string>)
    ensures r.Some? ==> r.value != [] && !IsDefault(name, r.value)
    ensures r.Some? && colour ==> r.value[0] == '#'
    ensures r.Some? && !colour ==> Get(computed, name) == r
  {
    match Get(computed, name)
    case None => None
    case Some(v) =>
      if v == [] || IsDefault(name, v) then None
      else if !colour then Some(v)
      else
        match RgbaToHex(v)
        case None => None
        case Some(h) =>
          if h == [] then None
          else
            assert !IsDefault(name, h) by {
              if IsDefault(name, h) { DefaultsNotHex(name, h); }
            }
            Some(h)
  }

  /** One field of the effect's loop: assign its initial value, if any. */
  function Step(acc: Styles, computed: Styles, f: (string, bool)): (r: Styles)
    ensures Get(r, f.0) == if InitialValue(computed, f.0, f.1).Some? then InitialValue(computed, f.0, f.1) else Get(acc, f.0)
    ensures forall q :: q != f.0 ==> Get(r, q) == Get(acc, q)
    ensures Clean(acc) ==> Clean(r)
    ensures DistinctKeys(acc) ==> DistinctKeys(r)
  {
    var iv := InitialValue(computed, f.0, f.1);
    if iv.Some? then
      PutEntries(acc, f.0, iv.value);
      assert DistinctKeys(acc) ==> DistinctKeys(Put(acc, f.0, iv.value)) by {
        if DistinctKeys(acc) { PutDistinct(acc, f.0, iv.value); }
      }
      Put(acc, f.0, iv.value)
    else acc
  }

  /** The effect's loop over the fields, assigning into `acc`. */
  function Collect(acc: Styles, computed: Styles, fields: seq<(string, bool)>): (r: Styles)
    ensures Clean(acc) ==> Clean(r)
    ensures DistinctKeys(acc) ==> DistinctKeys(r)
    decreases |fields|
  {
    if fields == [] then acc
    else
      Collect(Step(acc, computed, fields[0]), computed, fields[1..])
  }

  /** The styles the menu starts from for an element with computed styles
      `computed`. */
  function InitialStyles(computed: Styles): (r: Styles)
    ensures Clean(r) && DistinctKeys(r)
  {
    Collect([], computed, Fields(CommonProperties))
  }

  predicate NamesDistinct(fields: seq<(string, bool)>)
  {
    forall i, j :: 0 <= i < j < |fields| ==> fields[i].0 != fields[j].0
  }

  /** A name no field has keeps its value in `acc`. */
  lemma {:induction false} CollectOther(acc: Styles, computed: Styles, fields: seq<(string, bool)>, name: string)
    requires forall i :: 0 <= i < |fields| ==> fields[i].0 != name
    ensures Get(Collect(acc, computed, fields), name) == Get(acc, name)
    decreases |fields|
  {
    if fields != [] {
      CollectOther(Step(acc, computed, fields[0]), computed, fields[1..], name);
    }
  }

  /** A field's name ends up as the field's own step leaves it: with the
      field's initial value, or with its value in `acc` when there is none. */
  lemma {:induction false} CollectField(acc: Styles, computed: Styles, fields: seq<(string, bool)>, i: nat)
    requires NamesDistinct(fields) && i < |fields|
    ensures Get(Collect(acc, computed, fields), fields[i].0) == Get(Step(acc, computed, fields[i]), fields[i].0)
    decreases |fields|, 1
  {
    NamesDistinctTail(fields);
    if i == 0 {
      CollectOther(Step(acc, computed, fields[0]), computed, fields[1..], fields[0].0);
    } else {
      CollectFieldLater(acc, computed, fields, i);
    }
  }

  lemma {:induction false} CollectFieldLater(acc: Styles, computed: Styles, fields: seq<(string, bool)>, i: nat)
    requires NamesDistinct(fields) && 0 < i < |fields|
    ensures Get(Collect(acc, computed, fields), fields[i].0) == Get(Step(acc, computed, fields[i]), fields[i].0)
    decreases |fields|, 0
  {
    var next := Step(acc, computed, fields[0]);
    NamesDistinctTail(fields);
    var f := fields[i];
    assert fields[1..][i - 1] == f;
    assert f.0 != fields[0].0;
    CollectField(next, computed, fields[1..], i - 1);
    assert Get(next, f.0) == Get(acc, f.0);
  }

  lemma NamesDistinctTail(fields: seq<(string, bool)>)
    requires fields != [] && NamesDistinct(fields)
    ensures NamesDistinct(fields[1..])
    ensures forall j :: 0 <= j < |fields[1..]| ==> fields[1..][j].0 != fields[0].0
  {
    assert forall j :: 0 <= j < |fields[1..]| ==> fields[1..][j] == fields[j + 1];
  }

  lemma FieldListDistinct()
    ensures NamesDistinct(FieldList)
  {
  }

  /** Each field the menu offers starts with its initial value, or absent. */
  lemma InitialStylesField(computed: Styles, i: nat)
    requires i < |FieldList|
    ensures Get(InitialStyles(computed), FieldList[i].0) == InitialValue(computed, FieldList[i].0, FieldList[i].1)
  {
    FieldsOfCommon();
    FieldListDistinct();
    CollectField([], computed, FieldList, i);
  }

  /** Nothing but the offered fields is set. */
  lemma InitialStylesOther(computed: Styles, name: string)
    requires forall i :: 0 <= i < |FieldList| ==> FieldList[i].0 != name
    ensures !HasKey(InitialStyles(computed), name)
  {
    FieldsOfCommon();
    CollectOther([], computed, FieldList, name);
  }
}

=== FILE: strings.dfy ===
/** String primitives with the meaning JavaScript gives them: the `\s`
    whitespace class, `trim`, `split` on a character or on `/\s+/`, `join`,
    `startsWith` and `indexOf`. Every module of the model builds on these. */
module Strings {
  import opened Maybe

  /** JavaScript's `\s` class, which is also the set `trim` removes: the
      WhiteSpace and LineTerminator code points of ECMA-262 (section 12.2 and
      12.3 of the 2023 edition). */
  predicate IsSpace(c: char)
  {
    || c == '\t' || c == '\n' || c == '\U{000B}' || c == '\U{000C}' || c == '\r'
    || c == ' ' || c == '\U{00A0}' || c == '\U{1680}'
    || ('\U{2000}' <= c <= '\U{200A}')
    || c == '\U{2028}' || c == '\U{2029}' || c == '\U{202F}' || c == '\U{205F}'
    || c == '\U{3000}' || c == '\U{FEFF}'
  }

  /** The characters a regular expression's `.` refuses and after which a
      multiline `^` matches. */
  predicate IsLineTerminator(c: char)
  {
    c == '\n' || c == '\r' || c == '\U{2028}' || c == '\U{2029}'
  }

  predicate AllSpace(s: string)
  {
    forall i :: 0 <= i < |s| ==> IsSpace(s[i])
  }

  predicate NoSpace(s: string)
  {
    forall i :: 0 <= i < |s| ==> !IsSpace(s[i])
  }

  /** Neither end of `s` is whitespace: the shape `trim` produces. */
  predicate IsTrimmed(s: string)
  {
    |s| == 0 || (!IsSpace(s[0]) && !IsSpace(s[|s| - 1]))
  }

  /** `s.trimStart()`: `s` without its leading whitespace. */
  function TrimStart(s: string): (r: string)
    ensures |r| <= |s|
    ensures r != [] ==> !IsSpace(r[0])
  {
    if s == [] || !IsSpace(s[0]) then s else TrimStart(s[1..])
  }

  /** What `trimStart` removes is a whitespace prefix: it keeps a suffix. */
  lemma {:induction false} TrimStartSuffix(s: string)
    ensures var r := TrimStart(s); r == s[|s| - |r|..] && AllSpace(s[..|s| - |r|])
    decreases |s|
  {
    if s != [] && IsSpace(s[0]) {
      TrimStartSuffix(s[1..]);
      var r := TrimStart(s);
      assert s[1..][|s| - 1 - |r|..] == s[|s| - |r|..];
      assert s[..|s| - |r|] == [s[0]] + s[1..][..|s| - 1 - |r|];
    }
  }

  /** `s.trimEnd()`: `s` without its trailing whitespace. */
  function TrimEnd(s: string): (r: string)
    ensures |r| <= |s|
    ensures r != [] ==> !IsSpace(r[|r| - 1])
  {
    if s == [] || !IsSpace(s[|s| - 1]) then s else TrimEnd(s[..|s| - 1])
  }

  /** What `trimEnd` removes is a whitespace suffix: it keeps a prefix. */
  lemma {:induction false} TrimEndPrefix(s: string)
    ensures var r := TrimEnd(s); r == s[..|r|] && AllSpace(s[|r|..])
    decreases |s|
  {
    if s != [] && IsSpace(s[|s| - 1]) {
      var p := s[..|s| - 1];
      TrimEndPrefix(p);
      var r := TrimEnd(s);
      assert p[..|r|] == s[..|r|];
      assert forall i :: 0 <= i < |s| - |r| - 1 ==> s[|r|..][i] == p[|r|..][i];
    }
  }

  /** `s.trim()`: `s` without leading and trailing whitespace. */
  function Trim(s: string): (r: string)
    ensures IsTrimmed(r) && |r| <= |s|
  {
    var t := TrimStart(s);
    var r := TrimEnd(t);
    assert r != [] ==> r[0] == t[0] by {
      TrimEndPrefix(t);
    }
    r
  }

  /** What `trim` keeps is the infix of `s` that starts where `trimStart`
      stops, with whitespace on either side of it. */
  lemma TrimInfix(s: string) returns (k: nat)
    ensures k == |s| - |TrimStart(s)| && k + |Trim(s)| <= |s|
    ensures Trim(s) == s[k..k + |Trim(s)|]
    ensures AllSpace(s[..k]) && AllSpace(s[k + |Trim(s)|..])
  {
    var t := TrimStart(s);
    var r := TrimEnd(t);
    k := |s| - |t|;
    assert AllSpace(s[..k]) && t == s[k..] by {
      TrimStartSuffix(s);
    }
    assert r == t[..|r|] && AllSpace(t[|r|..]) by {
      TrimEndPrefix(t);
    }
    TrimInfixSlice(s, t, r, k);
  }

  /** Trimming a prefix of `s` gives a prefix of `s` trimmed: both start at
      the same character, and the prefix's text ends no later. */
  lemma TrimOfPrefix(p: string, s: string)
    requires StartsWith(s, p)
    ensures StartsWith(Trim(s), Trim(p))
  {
    var kp := TrimInfix(p);
    var k := TrimInfix(s);
    var tp := |Trim(p)|;
    var ts := |Trim(s)|;
    if tp > 0 {
      assert s[..|p|] == p;
      assert !IsSpace(s[kp]) && s[kp] == p[kp] by {
        assert p[kp] == Trim(p)[0];
      }
      SpaceBefore(s, k, kp);
      SpaceAfter(s, k + ts, kp);
      assert !IsSpace(p[k]) by {
        assert s[k] == Trim(s)[0] && s[k] == p[k];
      }
      SpaceBefore(p, kp, k);
      assert !IsSpace(s[kp + tp - 1]) by {
        assert s[kp + tp - 1] == p[kp + tp - 1] == Trim(p)[tp - 1];
      }
      SpaceAfter(s, k + ts, kp + tp - 1);
      assert Trim(s)[..tp] == s[k..k + tp] == p[kp..kp + tp];
    }
  }

  /** A non-space character lies at or after a whitespace prefix. */
  lemma SpaceBefore(s: string, k: nat, i: nat)
    requires k <= |s| && AllSpace(s[..k]) && i < |s| && !IsSpace(s[i])
    ensures k <= i
  {
    assert forall j :: 0 <= j < k ==> s[..k][j] == s[j];
  }

  /** A non-space character lies before a whitespace suffix. */
  lemma SpaceAfter(s: string, e: nat, i: nat)
    requires e <= |s| && AllSpace(s[e..]) && i < |s| && !IsSpace(s[i])
    ensures i < e
  {
    assert forall j :: e <= j < |s| ==> s[e..][j - e] == s[j];
  }

  lemma TrimInfixSlice(s: string, t: string, r: string, k: int)
    requires 0 <= k <= |s| && t == s[k..] && |r| <= |t| && r == t[..|r|] && AllSpace(t[|r|..])
    ensures k + |r| <= |s| && r == s[k..k + |r|] && AllSpace(s[k + |r|..])
  {
    assert s[k + |r|..] == t[|r|..];
  }

  lemma {:induction false} TrimStartPadded(w: string, t: string)
    requires AllSpace(w)
    requires t == [] || !IsSpace(t[0])
    ensures TrimStart(w + t) == t
    decreases |w|
  {
    if w != [] {
      assert (w + t)[1..] == w[1..] + t;
      TrimStartPadded(w[1..], t);
    }
  }

  lemma {:induction false} TrimEndPadded(t: string, w: string)
    requires AllSpace(w)
    requires t == [] || !IsSpace(t[|t| - 1])
    ensures TrimEnd(t + w) == t
    decreases |w|
  {
    if w != [] {
      assert (t + w)[..|t + w| - 1] == t + w[..|w| - 1];
      TrimEndPadded(t, w[..|w| - 1]);
    }
  }

  /** Trimming removes exactly whitespace padding and nothing of a trimmed core. */
  lemma TrimPadded(w1: string, x: string, w2: string)
    requires AllSpace(w1) && AllSpace(w2) && IsTrimmed(x)
    ensures Trim(w1 + x + w2) == x
  {
    if x == [] {
      assert w1 + x + w2 == w1 + w2;
      assert AllSpace(w1 + w2);
      TrimStartPadded(w1 + w2, []);
      assert w1 + w2 + [] == w1 + w2;
    } else {
      assert w1 + x + w2 == w1 + (x + w2);
      TrimStartPadded(w1, x + w2);
      TrimEndPadded(x, w2);
    }
  }

  lemma TrimOfTrimmed(x: string)
    requires IsTrimmed(x)
    ensures Trim(x) == x
  {
    TrimPadded([], x, []);
    assert [] + x + [] == x;
  }

  /** `parts.join(sep)`. */
  function Join(parts: seq<string>, sep: string): string
  {
    if |parts| == 0 then []
    else if |parts| == 1 then parts[0]
    else parts[0] + sep + Join(parts[1..], sep)
  }

  /** A join is its first part followed, when there are more, by the
      separator and the join of the rest. */
  lemma JoinFirst(pre: string, parts: seq<string>, sep: string)
    requires parts != []
    ensures pre + Join(parts, sep)
         == pre + parts[0] + (if |parts| == 1 then [] else sep + Join(parts[1..], sep))
  {
  }

  lemma JoinAppend(parts: seq<string>, p: string, sep: string)
    requires |parts| >= 1
    ensures Join(parts + [p], sep) == Join(parts, sep) + sep + p
  {
    if |parts| == 1 {
      assert parts + [p] == [parts[0], p];
    } else {
      assert (parts + [p])[1..] == parts[1..] + [p];
      JoinAppend(parts[1..], p, sep);
    }
  }

  /** `s.split(c)` for a one-character separator: the pieces between the
      separators, which give `s` back when joined with `c`. */
  function Split(s: string, c: char): (r: seq<string>)
    ensures |r| >= 1
    ensures forall i :: 0 <= i < |r| ==> c !in r[i]
    ensures Join(r, [c]) == s
  {
    if s == [] then [[]]
    else
      var t := Split(s[1..], c);
      if s[0] == c then
        assert Join([[]] + t, [c]) == [] + [c] + Join(t, [c]);
        [[]] + t
      else
        var r := [[s[0]] + t[0]] + t[1..];
        assert |t| > 1 ==> Join(t, [c]) == t[0] + [c] + Join(t[1..], [c]);
        assert |t| > 1 ==> Join(r, [c]) == [s[0]] + t[0] + [c] + Join(t[1..], [c]);
        r
  }

  lemma {:induction false} SplitNoSeparator(a: string, c: char)
    requires c !in a
    ensures Split(a, c) == [a]
    decreases |a|
  {
    if a != [] {
      SplitNoSeparator(a[1..], c);
    }
  }

  lemma {:induction false} SplitAfterPiece(a: string, b: string, c: char)
    requires c !in a
    ensures Split(a + [c] + b, c) == [a] + Split(b, c)
    decreases |a|
  {
    if a == [] {
      assert (a + [c] + b)[1..] == b;
    } else {
      assert (a + [c] + b)[1..] == a[1..] + [c] + b;
      SplitAfterPiece(a[1..], b, c);
      assert [a[0]] + a[1..] == a;
    }
  }

  /** Splitting a join on a separator that no piece contains gives the pieces back. */
  lemma {:induction false} SplitJoin(parts: seq<string>, c: char)
    requires |parts| >= 1
    requires forall i :: 0 <= i < |parts| ==> c !in parts[i]
    ensures Split(Join(parts, [c]), c) == parts
    decreases |parts|
  {
    if |parts| == 1 {
      SplitNoSeparator(parts[0], c);
    } else {
      SplitAfterPiece(parts[0], Join(parts[1..], [c]), c);
      SplitJoin(parts[1..], c);
    }
  }

  /** `s.split(/\s+/)`: the pieces between maximal whitespace runs; a leading
      or trailing run yields an empty first or last piece. */
  function SplitWs(s: string): (r: seq<string>)
    ensures |r| >= 1
    ensures forall i :: 0 <= i < |r| ==> NoSpace(r[i])
    ensures forall i :: 0 < i < |r| - 1 ==> r[i] != []
    decreases |s|
  {
    if s == [] then [[]]
    else if IsSpace(s[0]) then [[]] + SplitWs(TrimStart(s))
    else
      var t := SplitWs(s[1..]);
      [[s[0]] + t[0]] + t[1..]
  }

  lemma {:induction false} SplitWsNoSpace(a: string)
    requires NoSpace(a)
    ensures SplitWs(a) == [a]
    decreases |a|
  {
    if a != [] {
      SplitWsNoSpace(a[1..]);
      assert [a[0]] + a[1..] == a;
    }
  }

  lemma {:induction false} SplitWsAfterToken(a: string, b: string)
    requires a != [] && NoSpace(a)
    requires b == [] || !IsSpace(b[0])
    ensures SplitWs(a + " " + b) == [a] + SplitWs(b)
    decreases |a|
  {
    var s := a + " " + b;
    if |a| == 1 {
      assert s[1..] == " " + b;
      TrimStartPadded(" ", b);
      assert SplitWs(s[1..]) == [[]] + SplitWs(b);
      assert [a[0]] + [] == a;
    } else {
      assert s[1..] == a[1..] + " " + b;
      SplitWsAfterToken(a[1..], b);
      assert [a[0]] + a[1..] == a;
    }
  }

  /** Splitting on whitespace undoes a single-space join of non-empty,
      whitespace-free tokens. */
  lemma {:induction false} SplitWsJoin(tokens: seq<string>)
    requires |tokens| >= 1
    requires forall i :: 0 <= i < |tokens| ==> tokens[i] != [] && NoSpace(tokens[i])
    ensures SplitWs(Join(tokens, " ")) == tokens
    decreases |tokens|
  {
    if |tokens| == 1 {
      SplitWsNoSpace(tokens[0]);
    } else {
      var rest := Join(tokens[1..], " ");
      JoinStartsWithFirst(tokens[1..], " ");
      SplitWsAfterToken(tokens[0], rest);
      SplitWsJoin(tokens[1..]);
    }
  }

  /** `s.split(c)[0]` is where `s` starts. */
  lemma SplitFirstPrefix(s: string, c: char)
    ensures StartsWith(s, Split(s, c)[0])
  {
    var r := Split(s, c);
    JoinFirst([], r, [c]);
    assert s == r[0] + (if |r| == 1 then [] else [c] + Join(r[1..], [c]));
  }

  /** Every part of a join occurs in it. */
  lemma {:induction false} JoinContains(parts: seq<string>, sep: string, i: nat)
    requires i < |parts|
    ensures Contains(Join(parts, sep), parts[i])
    decreases |parts|
  {
    var j := Join(parts, sep);
    if |parts| == 1 {
      assert OccursAt(j, parts[0], 0);
    } else if i == 0 {
      assert j == parts[0] + (sep + Join(parts[1..], sep));
      assert OccursAt(j, parts[0], 0);
    } else {
      JoinContains(parts[1..], sep, i - 1);
      var rest := Join(parts[1..], sep);
      var m :| 0 <= m <= |rest| && OccursAt(rest, parts[i], m);
      var pre := parts[0] + sep;
      assert j == pre + rest;
      assert j[|pre| + m..|pre| + m + |parts[i]|] == rest[m..m + |parts[i]|];
      assert OccursAt(j, parts[i], |pre| + m);
    }
  }

  lemma {:induction false} JoinStartsWithFirst(parts: seq<string>, sep: string)
    requires |parts| >= 1 && parts[0] != []
    ensures Join(parts, sep) != [] && Join(parts, sep)[0] == parts[0][0]
  {
  }

  predicate StartsWith(s: string, p: string)
  {
    |p| <= |s| && s[..|p|] == p
  }

  predicate EndsWith(s: string, p: string)
  {
    |p| <= |s| && s[|s| - |p|..] == p
  }

  /** `p` occurs in `s` at index `i`. */
  predicate OccursAt(s: string, p: string, i: int)
  {
    0 <= i && i + |p| <= |s| && s[i..i + |p|] == p
  }

  predicate Contains(s: string, p: string)
  {
    exists i | 0 <= i <= |s| :: OccursAt(s, p, i)
  }

  /** `s.indexOf(p)`, with `None` for -1: the first index at which `p` occurs. */
  function IndexOf(s: string, p: string): (r: Option<nat>)
    ensures r.Some? ==> OccursAt(s, p, r.value)
    ensures r.Some? ==> forall j :: 0 <= j < r.value ==> !OccursAt(s, p, j)
    ensures r.None? <==> !Contains(s, p)
    decreases |s|
  {
    if |s| < |p| then None
    else if s[..|p|] == p then Some(0)
    else
      var r := IndexOf(s[1..], p);
      OccursShift(s, p);
      if r.None? then None else Some(r.value + 1)
  }

  /** The occurrences in `s` after its first position are those in `s[1..]`,
      one further on. */
  lemma OccursShift(s: string, p: string)
    requires s != []
    ensures forall j :: 0 < j ==> (OccursAt(s, p, j) <==> OccursAt(s[1..], p, j - 1))
  {
    forall j | 0 < j
      ensures OccursAt(s, p, j) <==> OccursAt(s[1..], p, j - 1)
    {
      if j + |p| <= |s| {
        assert s[1..][j - 1..j - 1 + |p|] == s[j..j + |p|];
      }
    }
  }

  /** `indexOf` answers the first occurrence, so an occurrence with none
      before it is the answer. */
  lemma IndexOfFirst(s: string, p: string, k: nat)
    requires OccursAt(s, p, k)
    requires forall j :: 0 <= j < k ==> !OccursAt(s, p, j)
    ensures IndexOf(s, p) == Some(k)
  {
    assert Contains(s, p);
  }

  /** The non-whitespace characters of `s`, in order. */
  function NonSpace(s: string): string
  {
    if s == [] then []
    else if IsSpace(s[0]) then NonSpace(s[1..])
    else [s[0]] + NonSpace(s[1..])
  }

  /** `NonSpace` keeps exactly the characters that are not whitespace. */
  lemma {:induction false} NonSpaceShape(s: string)
    ensures NoSpace(NonSpace(s)) && |NonSpace(s)| <= |s|
    ensures NoSpace(s) ==> NonSpace(s) == s
  {
    if s != [] {
      NonSpaceShape(s[1..]);
      var t := NonSpace(s[1..]);
      if !IsSpace(s[0]) {
        assert forall i :: 0 < i < |t| + 1 ==> ([s[0]] + t)[i] == t[i - 1];
      }
      if NoSpace(s) {
        assert NoSpace(s[1..]) by {
          assert forall i :: 0 <= i < |s| - 1 ==> s[1..][i] == s[i + 1];
        }
        assert s == [s[0]] + s[1..];
      }
    }
  }

  lemma NonSpaceCons(c: char, t: string)
    requires !IsSpace(c)
    ensures NonSpace([c] + t) == [c] + NonSpace(t)
  {
    assert ([c] + t)[1..] == t;
  }

  lemma NonSpaceSkip(c: char, t: string)
    requires IsSpace(c)
    ensures NonSpace([c] + t) == NonSpace(t)
  {
    assert ([c] + t)[1..] == t;
  }

  lemma NonSpaceStep(c: char, t: string)
    ensures NonSpace([c] + t) == if IsSpace(c) then NonSpace(t) else [c] + NonSpace(t)
  {
    assert ([c] + t)[1..] == t;
  }

  /** Keeping the first character and replacing the rest by one of the
      same text keeps the text. */
  lemma NonSpaceFirst(s: string, rest: string)
    requires s != [] && NonSpace(rest) == NonSpace(s[1..])
    ensures NonSpace([s[0]] + rest) == NonSpace(s)
  {
    NonSpaceStep(s[0], rest);
    NonSpaceStep(s[0], s[1..]);
    assert s == [s[0]] + s[1..];
  }

  lemma {:induction false} NonSpaceConcat(a: string, b: string)
    ensures NonSpace(a + b) == NonSpace(a) + NonSpace(b)
    decreases |a|
  {
    if a == [] {
      assert a + b == b;
    } else {
      assert (a + b)[1..] == a[1..] + b;
      assert (a + b)[0] == a[0];
      NonSpaceConcat(a[1..], b);
    }
  }

  lemma {:induction false} NonSpaceOfSpace(w: string)
    requires AllSpace(w)
    ensures NonSpace(w) == []
    decreases |w|
  {
    if w != [] {
      NonSpaceOfSpace(w[1..]);
    }
  }

  /** Whitespace in front adds nothing to the non-whitespace characters. */
  lemma NonSpaceAfterSpace(w: string, t: string)
    requires AllSpace(w)
    ensures NonSpace(w + t) == NonSpace(t)
  {
    NonSpaceConcat(w, t);
    NonSpaceOfSpace(w);
  }

  /** Trimming removes whitespace only. */
  lemma NonSpaceTrim(s: string)
    ensures NonSpace(Trim(s)) == NonSpace(s)
  {
    var k := TrimInfix(s);
    var r := Trim(s);
    assert s == s[..k] + r + s[k + |r|..];
    NonSpaceConcat(s[..k] + r, s[k + |r|..]);
    NonSpaceConcat(s[..k], r);
    NonSpaceOfSpace(s[..k]);
    NonSpaceOfSpace(s[k + |r|..]);
  }

  /** The parts of `parts` laid end to end (`parts.join('')`). */
  function Concat(parts: seq<string>): string
  {
    if parts == [] then [] else parts[0] + Concat(parts[1..])
  }

  /** `s` with every `c` deleted. */
  function Without(s: string, c: char): (r: string)
    ensures c !in r && |r| <= |s|
  {
    if s == [] then []
    else if s[0] == c then Without(s[1..], c)
    else [s[0]] + Without(s[1..], c)
  }

  /** The pieces of a split hold exactly the characters that are not the separator. */
  lemma {:induction false} SplitConcat(s: string, c: char)
    ensures Concat(Split(s, c)) == Without(s, c)
    decreases |s|
  {
    if s != [] {
      SplitConcat(s[1..], c);
      var t := Split(s[1..], c);
      if s[0] != c {
        assert Concat(t) == t[0] + Concat(t[1..]);
        assert ([[s[0]] + t[0]] + t[1..])[1..] == t[1..];
      } else {
        assert ([[]] + t)[1..] == t;
      }
    }
  }

  lemma {:induction false} ConcatMember(parts: seq<string>, i: nat, x: char)
    requires i < |parts| && x in parts[i]
    ensures x in Concat(parts)
  {
    if i > 0 {
      ConcatMember(parts[1..], i - 1, x);
    }
  }

  lemma {:induction false} WithoutMember(s: string, c: char, x: char)
    requires x in Without(s, c)
    ensures x in s && x != c
  {
    if s != [] {
      if x != s[0] {
        WithoutMember(s[1..], c, x);
      }
    }
  }

  /** A character in neither the pieces nor the separator is not in their join. */
  lemma {:induction false} JoinFree(parts: seq<string>, sep: string, c: char)
    requires c !in sep
    requires forall i :: 0 <= i < |parts| ==> c !in parts[i]
    ensures c !in Join(parts, sep)
    decreases |parts|
  {
    if |parts| > 1 {
      JoinFree(parts[1..], sep, c);
    }
  }

  /** Every character of a piece is in the join. */
  lemma {:induction false} JoinMember(parts: seq<string>, sep: string, i: nat, x: char)
    requires i < |parts| && x in parts[i]
    ensures x in Join(parts, sep)
    decreases |parts|
  {
    if i > 0 {
      JoinMember(parts[1..], sep, i - 1, x);
    }
  }
}
